=== FILE: README.md ===
# OCR translator core, modelled in Dafny

The repository holds two versions of the same tool. Both read subtitles off a window or a capture device, translate them and keep a transcript of the session.

- **OcrLite** is a C# WinForms application (`OCR/OcrLite`).
- **AllInOne** is a Python command-line pipeline (`AllInOne/src/ocrtranslator`).

This project models the text-processing and decision core of both. Each part is a pure function over immutable state, and the properties are proved about those functions.

**C# side**
- The edit-distance similarity (`TextSimilarity`). This includes the dynamic-programming table, proved against a recursive definition.
- The emission gate (`TextDeduplicator`).
- The session logger (`TranscriptLogger`): its counters, its dialogue-window rule, its JSON records and its transcript lines.
- The translation gateway: `TranslateResult`, `TranslationSettings`, `TranslatorFactory`, the identity translator, DeepL and Google. For Google this covers the credential modes and the OAuth token cache.
- The loop in `MainForm`:
  - the rectangle helpers;
  - the line normaliser;
  - the output box text;
  - the building of the settings from the text boxes;
  - starting and stopping;
  - one pass of `OcrLoopAsync`.

**Python side**
- The emission gate (`text_filter.py`).
- The session logger (`logger.py`).
- Building the translator and the two network translators (`translator.py`).
- ROI parsing, clamping and cropping (`roi.py`).
- The text side of the OCR engine (`ocr_engine.py`).
- One pass of the worker loop (`pipeline.py`).

**How the model represents the outside world**
- **Time** is an integer number of milliseconds, passed in by the caller.
  - The C# clock reads `DateTimeOffset.Now`. The Python gate and window rule read `time.monotonic()`; the Python logger also reads `datetime.now()` to date its entries.
  - Each reading is a separate input: the C# loop reads the clock once for the gate and the logger once more after the translation, and the Python logger reads both of its clocks itself.
  - So 0.15 s is 150 and 1.6 s is 1600.
- **Thresholds** are exact `real`s. The C# similarity is `1 - d / max(len)` computed exactly.
- **difflib's `SequenceMatcher.ratio`** is a function parameter.
- **HTTP** is a `transport` parameter.
  - It maps a request to a reply: a response (status, reason and parsed body), an exception, the client's timeout, or a cancellation.
  - Each call returns the requests it sent, so "no request was sent" can be stated.
- **The OCR engine, the frame source and the translators used by the loops** are function parameters.
- **White space.** `CsWhite` is `char.IsWhiteSpace`. `PyWhite` is `str.isspace`, which is `CsWhite` plus U+001C..U+001F. `Environment.NewLine` is `"\r\n"`.

Modules, one per file:
- Helpers: `Wrappers`, `Text`, `Decimal`.
- Shared by both apps: `Geometry`, `TranscriptLines`.
- C#: `TextSimilarity`, `Deduplicator`, `TranscriptLogger`, `Translation`, `TranslatorFactory`, `DeepL`, `Google`, `MainForm`.
- Python: `PyTextFilter`, `PyLogger`, `PyTranslator`, `PyRoi`, `PyOcr`, `PyPipeline`.

The two applications differ where their sources differ. The model keeps each one's behaviour and relates them by lemmas:
- **DeepL free-plan suffix.** C# matches the ":fx" suffix ignoring case (`DeepL.UpperSuffixIsFree`). Python matches it case-sensitively (`PyTranslator.UpperSuffixIsPaid`).
- **`sourceOnly` default.** The C# logger defaults it to true; the Python logger defaults it to false.
- **Window rule.** The Python window rule equals the C# rule whenever the ratio equals the edit-distance similarity (`PyLogger.AgreesWithCSharpRule`).
- **Python gate values.** The worker builds its gate with 0.93 and 0.15 s. The gate's own dataclass defaults are 0.92 and 0.15 s.
- **Python gate clock.** The gate's clock starts at 0, so a fresh gate refuses every text while the monotonic clock is still below the interval (`PyTextFilter.EarlyFirstTextRefused`).
- **Google token lifetime.** A token that lives 60 seconds or less is never reused, because the cache renews a token 60 seconds before it expires (`Google.ShortLivedTokenNeverReused`).
- **Translator replaced early.** `StartOcrLoop` replaces the translator before it checks the ROI. A start refused for a missing ROI therefore still switches translators (`MainForm.StartOcrLoop`).

## Model

| member | source | states |
|---|---|---|
| TextSimilarity.LevenshteinDistance | OCR/OcrLite/Utils/TextSimilarity.cs:25-66 | the table's last cell is the edit distance of the two strings: each cell holds the distance of the two prefixes, and the empty cases return the other length |
| TextSimilarity.DistanceSelf | OCR/OcrLite/Utils/TextSimilarity.cs:52-65 | a string is at distance 0 from itself |
| TextSimilarity.DistanceSymmetric | OCR/OcrLite/Utils/TextSimilarity.cs:25-66 | the distance does not depend on the order of the arguments |
| TextSimilarity.DistanceBounds | OCR/OcrLite/Utils/TextSimilarity.cs:25-66 | the distance is at least the difference of the lengths and at most the longer length |
| TextSimilarity.DistanceZeroIff | OCR/OcrLite/Utils/TextSimilarity.cs:25-66 | the distance is 0 exactly for equal strings |
| TextSimilarity.ScoreRange | OCR/OcrLite/Utils/TextSimilarity.cs:22 | `1 - d/m` lies in [0, 1] for `d <= m`; it is 1 exactly when d = 0 and 0 exactly when d = m |
| TextSimilarity.Similarity | OCR/OcrLite/Utils/TextSimilarity.cs:5-23 | the score lies in [0, 1]; it is 1.0 exactly for equal strings (including two empty ones); it is 0 when exactly one side is empty |
| TextSimilarity.SimilaritySymmetric | OCR/OcrLite/Utils/TextSimilarity.cs:5-23 | the similarity is symmetric |
| TextSimilarity.ComputeSimilarity | OCR/OcrLite/Utils/TextSimilarity.cs:5-23 | the method using the table returns the specified similarity, which lies in [0, 1] and is 1 exactly for equal strings |
| Deduplicator.Create | OCR/OcrLite/Logging/TextDeduplicator.cs:13-17 | a new gate keeps the given threshold, uses 150 ms when no interval is given, and has nothing remembered |
| Deduplicator.Default | OCR/OcrLite/Logging/TextDeduplicator.cs:13-17 | the argument-less gate uses 0.93 and 150 ms and has never emitted |
| Deduplicator.Normalize | OCR/OcrLite/Logging/TextDeduplicator.cs:48-51 | the result has no leading, trailing or doubled white space; it is empty exactly when the input is blank; it has the same words as the input |
| Deduplicator.NormalizeIdempotent | OCR/OcrLite/Logging/TextDeduplicator.cs:48-51 | normalising twice is normalising once |
| Deduplicator.NormalizeTwoWords | OCR/OcrLite/Logging/TextDeduplicator.cs:48-51 | two words separated by one space or by two spaces normalise to the words separated by one space |
| Deduplicator.ShouldEmit | OCR/OcrLite/Logging/TextDeduplicator.cs:19-46 | a refusal leaves the state unchanged, and an acceptance remembers the normalised text and the time. A text is accepted exactly when it is not blank, the interval has passed since the last emission (or there was none), and its similarity to the remembered text is below the threshold (or nothing is remembered). The gate invariant is kept |
| Deduplicator.NoImmediateRepeat | OCR/OcrLite/Logging/TextDeduplicator.cs:38-45 | with a threshold of at most 1, a text that normalises like the one just emitted is refused at any later time |
| Deduplicator.Feed | OCR/OcrLite/Logging/TextDeduplicator.cs:19-46 | over a sequence of calls the gate emits at most one text per call and keeps its invariant |
| Deduplicator.FeedRemembers | OCR/OcrLite/Logging/TextDeduplicator.cs:19-46 | over any run the gate keeps its threshold and interval, and ends up remembering the last emitted text, or is unchanged when nothing was emitted |
| Deduplicator.FeedEmits | OCR/OcrLite/Logging/TextDeduplicator.cs:21-45 | every text a run emits is non-empty and normalised |
| Deduplicator.FeedNoRepeat | OCR/OcrLite/Logging/TextDeduplicator.cs:38-45 | with a threshold of at most 1, no run emits the same text twice in a row, nor right after the text the gate already remembered |
| Deduplicator.FeedExample | OCR/OcrLite/Logging/TextDeduplicator.cs:19-46 | "A", "A", "B" with interval 0 and threshold 0.5 emits "A" then "B" |
| Deduplicator.WhitespaceVariantSuppressed | OCR/OcrLite/Logging/TextDeduplicator.cs:21-42 | with the default gate, "a b" is emitted and "a  b" right after it is not |
| Decimal.ZeroPad | OCR/OcrLite/Logging/TranscriptLogger.cs:120 | a zero-padded counter is all digits, at least as wide as asked, and reads back as the number |
| Decimal.ParseInt | AllInOne/src/ocrtranslator/roi.py:17 | a string parses exactly when it is a non-empty run of ASCII digits, or a `+` or `-` followed by one; digits give their value, `+` digits their value and `-` digits its negation. The empty string and a lone sign never parse |
| Decimal.ParseIntToString | AllInOne/src/ocrtranslator/roi.py:17 | parsing the decimal rendering of any integer gives the integer back |
| TranscriptLines.MarkerDigits | OCR/OcrLite/Logging/TranscriptLogger.cs:120 | the window marker line carries at least four digits that read back as the window id |
| TranscriptLines.HeaderDigits | OCR/OcrLite/Logging/TranscriptLogger.cs:123 | the entry header line carries at least five digits that read back as the entry id |
| TranscriptLogger.NewConfig | OCR/OcrLite/Logging/TranscriptLogger.cs:31-51 | absent arguments default to source-only, similarity 0.72 and a 1.6 s merge gap; the given arguments are kept |
| TranscriptLogger.IsNewDialogueWindow | OCR/OcrLite/Logging/TranscriptLogger.cs:152-172 | a new window opens when there is no previous text or the gap exceeds the merge gap. Within the gap, a new window opens exactly when neither text contains the other and the similarity is below the threshold |
| TranscriptLogger.Log | OCR/OcrLite/Logging/TranscriptLogger.cs:63-135 | blank text changes nothing and writes nothing. Otherwise the entry id grows by one, the window id grows by one exactly when a window opens, and the last text and time are updated. The one record carries the new ids, the time, the languages, both texts, the engine name, the window handle and title and the ROI. The lines are, in order: a blank line, the rule and the window marker with the new window id when a window opens; the header with the new entry id and the time; the source line; the translation line unless source-only; a closing blank line. The counter invariant is kept |
| TranscriptLogger.ReplayCounts | OCR/OcrLite/Logging/TranscriptLogger.cs:63-135 | over any run there is one window marker per window opened and one header and one record per entry, and the counters stay valid |
| TranscriptLogger.ReplayEntryIds | OCR/OcrLite/Logging/TranscriptLogger.cs:81-86 | over any run the records carry consecutive entry ids following the starting counter |
| TranscriptLogger.ReplayWindowIds | OCR/OcrLite/Logging/TranscriptLogger.cs:75-86 | over any run the records' window ids never decrease, stay between the starting and final counters, and never exceed their entry ids |
| TranscriptLogger.GapOpensWindowForSameText | OCR/OcrLite/Logging/TranscriptLogger.cs:159-162 | identical text after a gap longer than the merge gap opens a new window |
| TranscriptLogger.ContinuationStaysInWindow | OCR/OcrLite/Logging/TranscriptLogger.cs:164-168 | text extending the previous text, within the gap, stays in the window |
| TranscriptLogger.FragmentStaysInWindow | OCR/OcrLite/Logging/TranscriptLogger.cs:164-168 | a fragment of the previous text, within the gap, stays in the window |
| TranscriptLogger.FirstEntry | OCR/OcrLite/Logging/TranscriptLogger.cs:75-121 | the first entry of a session is entry 1 of window 1 and starts with the window header |
| Translation.Success | OCR/OcrLite/Translation/TranslateResult.cs:5-8 | a success carries the text, no error flag and an empty message |
| Translation.Error | OCR/OcrLite/Translation/TranslateResult.cs:10-13 | an error carries the fallback text, the error flag and the message |
| Translation.ErrorNoFallback | OCR/OcrLite/Translation/TranslateResult.cs:10 | an error without a fallback has empty text |
| Translation.ResultShapes | OCR/OcrLite/Translation/TranslateResult.cs:3-14 | a result is an error exactly when it is the `Error` of its message and text, and otherwise it is the `Success` of its text |
| Translation.DefaultSettings | OCR/OcrLite/Translation/TranslationSettings.cs:5-20 | default settings have no translator, use "ja" to "ko", and have every credential empty |
| Translation.Name | OCR/OcrLite/Translation/IdentityTranslator.cs:5 | each translator reports its own name, and the names are distinct |
| Translation.IdentityTranslate | OCR/OcrLite/Translation/IdentityTranslator.cs:7-10 | the identity translator returns its input, blank or not, without error |
| TranslatorFactory.TryCreate | OCR/OcrLite/Translation/TranslatorFactory.cs:5-63 | creation succeeds exactly when the kind's credentials are present, and exactly when the error is empty. A failure yields the identity translator and that kind's message. A success yields the kind's translator holding the settings, with an empty token cache for Google |
| TranslatorFactory.DefaultCreatesIdentity | OCR/OcrLite/Translation/TranslatorFactory.cs:11-13 | default settings give the identity translator with no error |
| TranslatorFactory.AcceptsByPresence | OCR/OcrLite/Translation/TranslatorFactory.cs:15-56 | whether the factory accepts settings depends only on their kind and on which credentials are non-blank, never on the credentials' text |
| DeepL.Endpoint | OCR/OcrLite/Translation/DeepLTranslator.cs:29-32 | the free endpoint is chosen exactly for keys ending in ":fx" in any case |
| DeepL.BuildRequest | OCR/OcrLite/Translation/DeepLTranslator.cs:29-40 | the request carries the trimmed key, the text, the upper-cased language codes and the endpoint of the trimmed key |
| DeepL.Interpret | OCR/OcrLite/Translation/DeepLTranslator.cs:47-73 | a timeout or a cancellation escapes as a cancellation. A success comes exactly from a 2xx reply with a first translation, and carries its text. Every error carries the original text |
| DeepL.Translate | OCR/OcrLite/Translation/DeepLTranslator.cs:22-74 | blank text succeeds with "" and sends nothing; otherwise exactly one request is sent and its reply decides the outcome |
| DeepL.ErrorsFallBack | OCR/OcrLite/Translation/DeepLTranslator.cs:52-73 | every error result carries the original text and a message starting with "DeepL " |
| DeepL.InterpretNamesProvider | OCR/OcrLite/Translation/DeepLTranslator.cs:52-73 | every error message built from a reply starts with "DeepL " |
| DeepL.KeyPaddingIrrelevant | OCR/OcrLite/Translation/DeepLTranslator.cs:29-36 | white space around the key changes neither the endpoint nor the credential sent |
| DeepL.UpperSuffixIsFree | OCR/OcrLite/Translation/DeepLTranslator.cs:30-32 | a key ending in ":FX" uses the free endpoint |
| Google.ModeOf | OCR/OcrLite/Translation/GoogleTranslator.cs:36-62 | the refresh-token flow wins when its four fields are present. Otherwise the manual OAuth flow is used, then the API key, and otherwise credentials are missing. Each mode holds exactly under its condition |
| Google.ExpiresInSeconds | OCR/OcrLite/Translation/GoogleTranslator.cs:226-233 | the lifetime is the reply's value when that is a positive 32-bit integer, and 3600 otherwise |
| Google.GetAccessToken | OCR/OcrLite/Translation/GoogleTranslator.cs:173-251 | a usable cached token, found before or after the lock is taken, is returned without a request. Otherwise exactly one token request is sent. A success carries a non-blank token, and a failure has empty text. The cache keeps one of its two views or stores a new non-blank token expiring at least one second later. Cache validity is kept |
| Google.Interpret | OCR/OcrLite/Translation/GoogleTranslator.cs:142-170 | a timeout or a cancellation escapes. A success comes exactly from a 2xx reply with a first translation, and carries its HTML-decoded text. Every error carries the original text |
| Google.Translate | OCR/OcrLite/Translation/GoogleTranslator.cs:29-65 | blank text succeeds with "" and sends nothing. Missing credentials give the "credentials are missing" error with the original text. Every error carries the original text. What each mode sends and returns is stated by `Google.TranslateSendsModeRequest` |
| Google.Direct | OCR/OcrLite/Translation/GoogleTranslator.cs:54-64 | the API-key and access-token modes send one translation request, leave the cache alone, and return the reading of that request's reply under the mode's label |
| Google.UseToken | OCR/OcrLite/Translation/GoogleTranslator.cs:45-51 | a cancelled token call escapes unchanged. An error or blank token gives the token call's error message with the original text and sends nothing more. A usable token sends exactly one OAuth request with the trimmed project id and the token, labelled as the refresh-token flow, and its reply decides the outcome |
| Google.TranslateSendsModeRequest | OCR/OcrLite/Translation/GoogleTranslator.cs:36-64 | for non-blank text: the API-key mode sends one API-key request with the trimmed key and returns its reply read under "apiKey"; the manual OAuth mode sends one OAuth request with the trimmed project id and token and returns its reply read under "OAuth(access-token)"; the refresh-token flow sends the token request, then with a usable token an OAuth request with that token whose reply, read under "OAuth(refresh-token)", is the outcome. A failed or blank token ends with the token error and the original text, and a cancelled token step escapes |
| Google.OnlyRefreshFlowUsesCache | OCR/OcrLite/Translation/GoogleTranslator.cs:36-58 | a call in the API-key or manual OAuth mode leaves the token cache alone and sends only translation requests |
| Google.TranslateKeepsCacheValid | OCR/OcrLite/Translation/GoogleTranslator.cs:220-237 | a call never leaves behind a cache that holds a blank token or a token without an expiry |
| Google.RequestToken | OCR/OcrLite/Translation/GoogleTranslator.cs:193-251 | exactly the one refresh-token request is sent. A success caches the new non-blank token with an expiry of the lock time plus the reply's lifetime in seconds. A failure has empty text and leaves the cache as the lock found it |
| Google.AcceptedSettingsHaveMode | OCR/OcrLite/Translation/GoogleTranslator.cs:59-62 | settings the factory accepted for Google never reach the "credentials are missing" branch |
| Google.SequentialCallsRefreshOnce | OCR/OcrLite/Translation/GoogleTranslator.cs:175-191 | a call made while the token from the previous call is still usable sends no token request and leaves the cache as it was |
| Google.UsableCacheNotRefreshed | OCR/OcrLite/Translation/GoogleTranslator.cs:175-191 | a call that finds a usable cached token sends no token request and keeps the cache as it was |
| Google.ShortLivedTokenNeverReused | OCR/OcrLite/Translation/GoogleTranslator.cs:177-178 | a token whose lifetime is at most 60 s is never usable afterwards |
| Geometry.ClampToBounds | OCR/OcrLite/MainForm.cs:1058-1065 | the result has width and height of at least 1. Its corner and far edges lie within bounds that have an area. A rectangle already inside the bounds is returned unchanged, and only such a rectangle is |
| Geometry.ClampIdempotent | OCR/OcrLite/MainForm.cs:1058-1065 | clamping twice is clamping once |
| Geometry.NormalizeRect | OCR/OcrLite/MainForm.cs:995-1002 | the rectangle has a non-negative size, contains both drag points, and each of its edges passes through one of them |
| Geometry.NormalizeRectSymmetric | OCR/OcrLite/MainForm.cs:995-1002 | the order of the drag points does not matter |
| MainForm.LinesPlain | OCR/OcrLite/MainForm.cs:1085-1090 | every kept line is non-empty, trimmed and free of CR and LF |
| MainForm.NormalizeText | OCR/OcrLite/MainForm.cs:1083-1093 | the normalised text splits into the same trimmed non-blank lines as the input, and it is empty exactly when the input is blank |
| MainForm.NormalizeTextBlank | OCR/OcrLite/MainForm.cs:1083-1093 | the normalised text is empty exactly when the input is blank |
| MainForm.LinesOfJoin | OCR/OcrLite/MainForm.cs:1083-1093 | lines that are already plain, joined with `Environment.NewLine`, normalise back to the same lines |
| MainForm.NormalizeTextIdempotent | OCR/OcrLite/MainForm.cs:1083-1093 | normalising keeps the same lines, and normalising twice is normalising once |
| MainForm.FormatOutputText | OCR/OcrLite/MainForm.cs:985-993 | with no translator the output is the source; otherwise it starts with the `[SRC]` block, ends with the `[TRN]` block and adds 18 characters of markup |
| MainForm.FormatOutputRecovers | OCR/OcrLite/MainForm.cs:985-993 | the source can be read back after the `[SRC]` line, and the translation is everything after the `[TRN]` line |
| MainForm.FormatOutputInjective | OCR/OcrLite/MainForm.cs:985-993 | two equal boxes with sources of equal length come from the same source and translation |
| MainForm.Initial | OCR/OcrLite/MainForm.cs:60-81 | the window starts unattached, stopped, with the identity translator, no logger, no ROI and the ready message |
| MainForm.Field | OCR/OcrLite/MainForm.cs:955-963 | a trimmed box has no surrounding white space and holds a value exactly when the raw box does |
| MainForm.Language | OCR/OcrLite/MainForm.cs:947-948 | a blank language box gives the default; otherwise it gives the trimmed box. The result is never empty |
| MainForm.BuildTranslationSettings | OCR/OcrLite/MainForm.cs:945-965 | the settings take the selected kind, the languages defaulting to "ja" and "ko", and every credential box trimmed |
| MainForm.PaddingIrrelevant | OCR/OcrLite/MainForm.cs:945-965 | boxes that hold values in the same places are accepted or refused alike by the factory, whatever their surrounding white space |
| MainForm.StartOcrLoop | OCR/OcrLite/MainForm.cs:617-672 | the checks refuse, in order: no window, already running, a factory failure (with its message), then no ROI. The translator is replaced once the factory accepts. The loop runs exactly when every check passes. A new run gets a fresh gate and a fresh logger named "WindowsOCR+" plus the translator's name, and the started status |
| MainForm.StopOcrLoop | OCR/OcrLite/MainForm.cs:674-711 | stopping a stopped window changes nothing. Otherwise the loop stops, the logger is dropped, the identity translator and kind None are restored, and the status reads "OCR stopped." |
| MainForm.StopThenStart | OCR/OcrLite/MainForm.cs:617-711 | starting a running window keeps its translator; after a stop, a start runs exactly when a window is attached, the factory accepts and the ROI has an area |
| MainForm.Displayed | OCR/OcrLite/MainForm.cs:744-748 | a blank translation is replaced by the source text; any other one is kept |
| MainForm.TryBody | OCR/OcrLite/MainForm.cs:724-758 | a pass never changes the attached window, the ROI, the running flag or the translator |
| MainForm.CycleAsWritten | OCR/OcrLite/MainForm.cs:713-775 | as written, a missing frame or ROI just waits. The loop ends exactly when the body raises a cancellation, whether or not one was requested |
| MainForm.TimeoutEndsLoop | OCR/OcrLite/MainForm.cs:760-763 | as written, a translation timeout with no cancellation requested ends the loop while the window still counts as running, so Start answers "OCR loop is already running." |
| MainForm.Cycle | OCR/OcrLite/MainForm.cs:713-775 | with the intended filter the loop ends only when cancellation was requested, and it always goes on otherwise |
| MainForm.TimeoutReported | OCR/OcrLite/MainForm.cs:760-767 | with the intended filter a timeout is reported as "OCR error: " plus its message, and the loop goes on |
| MainForm.CycleAgreesOtherwise | OCR/OcrLite/MainForm.cs:713-775 | the corrected pass equals the pass as written unless an unrequested cancellation escapes |
| MainForm.ShownPassLogsOnce | OCR/OcrLite/MainForm.cs:740-758 | a pass that shows a text writes exactly one transcript entry, for that text, stamped with the logger's own clock reading. The output box holds that text and the displayed translation. The text is non-empty and already normalised |
| MainForm.ShownText | OCR/OcrLite/MainForm.cs:736-758 | for OCR text the gate lets through and a translator that answers, the pass shows the normalised text with the blank-translation fallback and logs one entry for it at the logger's own clock reading, not the gate's |
| MainForm.QuietPassKeepsState | OCR/OcrLite/MainForm.cs:738-741 | a pass with no frame, no ROI or a declined text changes nothing |
| MainForm.BlankTranslationFallsBack | OCR/OcrLite/MainForm.cs:743-747 | a blank translation shows the source text in its place |
| PyTextFilter.Create | AllInOne/src/ocrtranslator/text_filter.py:13-15 | a new gate remembers nothing and counts its interval from time 0 |
| PyTextFilter.ShouldEmit | AllInOne/src/ocrtranslator/text_filter.py:17-35 | a refusal leaves the state unchanged, and an acceptance remembers the stripped text and the time. A text is accepted exactly when it is non-empty after stripping, the interval has passed since the last emission time, and its ratio to the remembered text is below the threshold (or nothing is remembered). A valid gate stays valid |
| PyTextFilter.EarlyFirstTextRefused | AllInOne/src/ocrtranslator/text_filter.py:13-24 | with the default interval, a fresh gate refuses every text before 150 ms of monotonic time |
| PyTextFilter.NoImmediateRepeat | AllInOne/src/ocrtranslator/text_filter.py:30-39 | when a text's ratio to itself reaches the threshold, the same stripped text is refused after being accepted |
| PyLogger.IsNewWindow | AllInOne/src/ocrtranslator/logger.py:85-101 | a new window opens when there is no previous text or the gap exceeds the merge window. Within it, a new window opens exactly when neither text contains the other and the ratio is below the threshold |
| PyLogger.Log | AllInOne/src/ocrtranslator/logger.py:53-80 | the call fails exactly for a blank source, with the `ValueError` message. Otherwise the entry id grows by one, the window id grows exactly when a window opens by the monotonic reading, and the stripped source and the monotonic reading are remembered. The entry carries the new ids, the wall-clock reading and the stripped texts. The lines are, in order: a blank line, the rule and the window marker with the new window id when a window opens; the header with the new entry id and the wall-clock time; the source line; the translation line unless source-only; a closing blank line. The counter invariant is kept |
| TranscriptLines.EntryCounts | AllInOne/src/ocrtranslator/logger.py:127-139 | an entry's lines hold one header, and a window marker exactly when a window opens |
| TranscriptLines.EntryLines | OCR/OcrLite/Logging/TranscriptLogger.cs:116-129 | the lines of an entry are laid out in the transcript's order, with the block's ids, time, languages and texts |
| TranscriptLines.LaidMembers | OCR/OcrLite/Logging/TranscriptLogger.cs:123-128 | laid-out lines contain the source line, and contain the translation line exactly when the entry is not source-only |
| PyLogger.PaddedRepeatStaysInWindow | AllInOne/src/ocrtranslator/logger.py:53-101 | the previous text with white space around it, within the gap, is logged stripped and stays in the same window |
| PyLogger.AgreesWithCSharpRule | AllInOne/src/ocrtranslator/logger.py:85-101 | the Python window rule agrees with the C# one when the ratio equals the edit-distance similarity |
| PyTranslator.BuildTranslator | AllInOne/src/ocrtranslator/translator.py:76-97 | the engine name, in any case, decides the translator. "none" gives the identity translator. "deepl" needs a non-empty key, and "google" needs the library. Each failure has its message, and an unknown engine fails naming the engine |
| PyTranslator.EngineCaseInsensitive | AllInOne/src/ocrtranslator/translator.py:77 | spellings of a known engine that differ in case build the same translator |
| PyTranslator.Url | AllInOne/src/ocrtranslator/translator.py:46-51 | the free URL is chosen exactly for keys ending in ":fx" as written |
| PyTranslator.DeepLTranslate | AllInOne/src/ocrtranslator/translator.py:53-73 | empty text gives "" and sends nothing. Otherwise one request is sent, with the key, the text and the upper-cased codes. Any failure or empty answer gives the original text, and a first translation gives its text |
| PyTranslator.GoogleWebTranslate | AllInOne/src/ocrtranslator/translator.py:31-37 | empty text gives "" without calling the library; otherwise one call, whose failure gives the original text |
| PyTranslator.IdentityTranslate | AllInOne/src/ocrtranslator/translator.py:16-17 | the identity translator returns its input |
| PyTranslator.UpperSuffixIsPaid | AllInOne/src/ocrtranslator/translator.py:46-51 | a key ending in ":FX" goes to the paid URL |
| PyTranslator.DeepLRequestMatchesCSharp | AllInOne/src/ocrtranslator/translator.py:53-65 | for a key without surrounding white space the Python client posts the same key, text and language codes as the C# client, and a key it sends to the free URL goes to the free endpoint in C# as well |
| PyTranslator.DeepLFallbacksMatchCSharp | AllInOne/src/ocrtranslator/translator.py:64-73 | on the same HTTP exchange both clients end with the same text, and C# flags an error exactly when Python had no translated text. A first entry without `text` gives the original text in both, as an error in C#. A C# timeout gives the original text in Python |
| PyTranslator.GoogleWebFailureIsIdentity | AllInOne/src/ocrtranslator/translator.py:31-37 | when the library raises, the web translator answers as the identity translator |
| PyRoi.StripAll | AllInOne/src/ocrtranslator/roi.py:14 | every part is stripped, in order |
| PyRoi.ParseAll | AllInOne/src/ocrtranslator/roi.py:17 | the parts parse exactly when each is an integer, and then to their values; otherwise the failure names a part that is not an integer |
| PyRoi.ParseRoi | AllInOne/src/ocrtranslator/roi.py:11-20 | `None` or "" give no ROI, and only they do. Anything other than four parts is a shape error. A parsed ROI has four integer parts and a positive size. The size error means four integers with a non-positive width or height. Four parts that `int()` accepts, with a positive width and height, always parse to that ROI. An integer error names a stripped part of a four-part value that `int()` rejects |
| PyRoi.ParseRender | AllInOne/src/ocrtranslator/roi.py:11-20 | parsing the "x,y,w,h" rendering of an ROI with a positive size gives it back |
| PyRoi.ClampRoi | AllInOne/src/ocrtranslator/roi.py:23-30 | the clamped ROI has size at least 1 and lies within a non-empty frame; it agrees with the C# clamp on the frame's bounds |
| PyRoi.ClampRoiIdempotent | AllInOne/src/ocrtranslator/roi.py:23-30 | clamping twice is clamping once |
| PyRoi.SliceIndex | AllInOne/src/ocrtranslator/roi.py:48-50 | a slice bound lands within the sequence, and an in-range bound stays where it is |
| PyRoi.Slice | AllInOne/src/ocrtranslator/roi.py:48-50 | an in-range slice is the subsequence between its bounds |
| PyRoi.Crop | AllInOne/src/ocrtranslator/roi.py:48-50 | for an ROI inside the frame, the crop has h rows of w pixels, pixel (i, j) coming from (y+i, x+j) |
| PyRoi.CropClamped | AllInOne/src/ocrtranslator/roi.py:48-50 | cropping a clamped ROI from a non-empty frame gives exactly h rows of w pixels, pixel (i, j) coming from (y+i, x+j) |
| PyOcr.PaddleLang | AllInOne/src/ocrtranslator/ocr_engine.py:22 | the lower-cased code is looked up in the language map; unmapped codes pass through as written |
| PyOcr.PaddleLangCaseInsensitive | AllInOne/src/ocrtranslator/ocr_engine.py:22 | two spellings of a mapped code that differ only in letter case give the same engine language, one of the map's values |
| PyOcr.PaddleLangExamples | AllInOne/src/ocrtranslator/ocr_engine.py:11-22 | "JA" maps to "japan" and "Ko" to "korean"; "fr" and "FR" pass through unchanged |
| PyOcr.ExtractTextScore | AllInOne/src/ocrtranslator/ocr_engine.py:69-82 | a malformed item gives ("", 0.0). Otherwise the result is the stripped text, with an unparsable score read as 0.0. The text never has surrounding white space |
| PyOcr.KeptOne | AllInOne/src/ocrtranslator/ocr_engine.py:63-65 | an item contributes one text exactly when its text is non-empty and its score reaches the minimum, and that text is non-empty and stripped |
| PyOcr.KeptTextsPlain | AllInOne/src/ocrtranslator/ocr_engine.py:62-65 | at most one text is kept per item, and every kept text is non-empty and stripped |
| PyOcr.LowConfidenceIgnored | AllInOne/src/ocrtranslator/ocr_engine.py:62-65 | an item that is not kept can be removed without changing the kept texts |
| PyOcr.Collapse | AllInOne/src/ocrtranslator/ocr_engine.py:86 | collapsing white-space runs never makes the text longer |
| PyOcr.CollapseShape | AllInOne/src/ocrtranslator/ocr_engine.py:86 | after collapsing, every white-space character left is a plain space and no two are adjacent; the result is empty only for the empty text and starts with white space exactly when the text does |
| PyOcr.CollapseFixed | AllInOne/src/ocrtranslator/ocr_engine.py:86 | a text whose white space is already single plain spaces is unchanged |
| PyOcr.NormalizeText | AllInOne/src/ocrtranslator/ocr_engine.py:85-87 | the result is stripped with single plain spaces, has the same words in the same order as the input, and is empty exactly when the input is blank |
| PyOcr.CollapseWords | AllInOne/src/ocrtranslator/ocr_engine.py:86 | collapsing white space keeps the words and their order |
| PyOcr.NormalizeTextIdempotent | AllInOne/src/ocrtranslator/ocr_engine.py:85-87 | normalising twice is normalising once |
| PyOcr.Recognize | AllInOne/src/ocrtranslator/ocr_engine.py:53-67 | an empty result reads ""; a recognised text is stripped with single plain spaces and holds the words of the kept texts, in order |
| PyOcr.RecognizeWords | AllInOne/src/ocrtranslator/ocr_engine.py:60-67 | when the kept texts contain no white space, the recognised text is exactly those texts joined by single spaces |
| PyPipeline.NewWorker | AllInOne/src/ocrtranslator/pipeline.py:18-38 | the worker builds its own gate with 0.93 and 150 ms, starts with an empty overlay and `last_tick` 0, and is valid when its logger is |
| PyPipeline.ReadRoi | AllInOne/src/ocrtranslator/pipeline.py:67-69 | the recognised text of the clamped crop is stripped with single plain spaces |
| PyPipeline.Step | AllInOne/src/ocrtranslator/pipeline.py:51-79 | a pass waits exactly when the interval has not elapsed, sleeping at least 10 ms and until the interval is over. Otherwise it takes the tick. With no frame it sleeps 20 ms, and a missing frame or a declined text changes nothing but the tick. An emitted text is non-empty, stripped and translated; it is shown in the overlay and remembered by the gate, with the gate's interval and threshold respected. Configuration and validity are kept |
| PyPipeline.LogAfter | AllInOne/src/ocrtranslator/pipeline.py:75-79 | with a logger, a blank text leaves it unchanged and any other text adds one entry. A failure is swallowed, and validity is kept |
| PyPipeline.EmittedPassLogsOnce | AllInOne/src/ocrtranslator/pipeline.py:73-79 | an emitted pass logs successfully, exactly once, the text the overlay now shows |
| PyPipeline.QuietPassChangesNothingShown | AllInOne/src/ocrtranslator/pipeline.py:70-71 | a pass that emits nothing leaves the overlay, the logger and the gate unchanged |
| PyPipeline.NoFrameConsumesTick | AllInOne/src/ocrtranslator/pipeline.py:60-65 | a pass without a frame still takes the tick, so the next pass inside the interval waits |
| PyPipeline.RunLogsEveryEmission | AllInOne/src/ocrtranslator/pipeline.py:51-79 | over any run the logger's entry counter grows by exactly the number of emitted passes, and the worker stays valid |

## Left out

**Outside the model**
- Screen and window capture, the Windows and PaddleOCR engines and image preprocessing. These are native or foreign libraries. What they deliver (a frame, the OCR text or the raw PaddleOCR result) is an input.
- HTTP, JSON parsing, form encoding, `Uri.EscapeDataString` and `WebUtility.HtmlDecode`. A reply is an abstract datatype. HTML decoding is a function parameter.
- Threads, locks, `SemaphoreSlim`, `Task.Run`, `BeginInvoke`, `time.sleep` and the stop event. Calls are sequential.
  - Google's double-checked cache is modelled by giving the second check its own view of the cache.
  - The loop delays are returned as values or are not represented.
  - `state.py` is a lock around a pair and becomes the `Overlay` datatype.
- File output: session directories, `StreamWriter`, JSON serialisation and the transcript header block. The logger returns the records and abstract lines it would write. The timestamp format is a parameter, and the session directory is an input of `StartOcrLoop`. `ResolveLogDirectory` is not modelled.
- The window layout, events, preview painting, preview/frame scaling, the default dialogue ROI (floating-point rounding) and `GetCurrentIntervalMs`. They are UI or floating-point code.
- `PapagoTranslator`. It is HTTP only, and its behaviour is the pattern already covered by DeepL and Google.
  - The factory's Papago credential check is modelled.
  - A Papago translator in the loop is covered by the `translate` parameter.
- The factory's "Unknown translator type." branch. The translator kind is a closed datatype, so that branch cannot be reached.
- `_ocrService.Initialize(language)` in `StartOcrLoop`. It only configures the foreign OCR engine.
- The "OCR loop error" status of `StopOcrLoopAsync`. That handler only sees exceptions the loop lets escape, and "OCR stopped." overwrites its status at once.
- An exception thrown by the transcript writer inside the C# loop. It would be reported as "OCR error"; the model's logger cannot fail.
- `main.py`, `overlay.py`, `config.py`, and `ITextTranslator`. These are bootstrapping, UI and an interface.

**Deliberately weaker or narrower contracts**
- TextSimilarity.Similarity: the score uses exact rational arithmetic. IEEE `double` rounding at a threshold is not captured.
- TextSimilarity.Similarity: C# strings are sequences of UTF-16 code units, while a Dafny `string` is a sequence of Unicode scalar values. Lengths and edit distances therefore differ for text outside the Basic Multilingual Plane: "😀" against "😁" scores 0.5 in C# (they share a high surrogate) and 0 here. The gate, the window rule and the 18-character markup count of `MainForm.FormatOutputText` are stated in scalar values.
- PyOcr.Recognize: a PaddleOCR result whose first element is `None` is not represented. The model's result is falsy or a page of items. In the source such a result makes the item loop raise `TypeError`.
- PyOcr.ExtractTextScore: `str(...)` of the text member and `float(...)` of the score are inputs. The item gives the rendered text and either the parsed score or a parse failure.
- Decimal.ParseInt: Python's `int()` is modelled as an optional sign followed by ASCII digits. Underscores between digits and non-ASCII digits, which `int()` also accepts, are not modelled.
- PyTranslator.DeepLTranslate: a first translation whose `text` is JSON null, for which Python returns `None` instead of a string, is not represented. `PyTranslator.SameExchange` therefore leaves C#'s null-text reply unpaired.
- PyTranslator.BuildTranslator: `str.lower()` and `str.upper()` are modelled on ASCII letters only, and so are C#'s `ToUpperInvariant` and ordinal case-insensitive matching.
- PyPipeline.Step: each clock reading of a pass is a separate input. These are the loop's, the gate's, and the logger's monotonic and wall-clock readings. The model does not state that they are ordered.
- MainForm.TryBody: its own contract only lists what a pass never changes. What a pass shows and logs is stated by `MainForm.ShownText`, `MainForm.ShownPassLogsOnce`, `MainForm.QuietPassKeepsState` and `MainForm.BlankTranslationFallsBack`.
- MainForm.Cycle: the 120 ms wait without a frame and the interval wait after each pass are not represented. Each pass says only whether the loop goes on.

## Findings

| source | as written | input that shows it | evidently intended | confidence | as-written member | corrected member |
|---|---|---|---|---|---|---|
| OCR/OcrLite/MainForm.cs:760-763 | `catch (OperationCanceledException) { break; }` ends the OCR loop for any cancellation exception. The translators rethrow `OperationCanceledException` (DeepLTranslator.cs:66-69, GoogleTranslator.cs:107-110). Their `HttpClient` has a 12-second timeout (DeepLTranslator.cs:8-11), which .NET reports as a `TaskCanceledException` | a running loop, OCR text the gate lets through, and a translation request that times out with no stop requested. The loop ends, but `_ocrLoopCts` stays set. The status still reads the last message, and Start answers "OCR loop is already running." until the user presses Stop | end the loop only for a requested cancellation (`when (token.IsCancellationRequested)`), and report any other cancellation as "OCR error: …" like every other error | not executed; medium (it rests on the documented timeout behaviour of `HttpClient`) | MainForm.CycleAsWritten, MainForm.TimeoutEndsLoop | MainForm.Cycle, MainForm.TimeoutReported |

=== FILE: decimal.dfy ===
/** Decimal rendering and parsing of integers: the `{id:0000}` / `{id:04d}`
    counters of the transcripts, the status code inside error messages and
    Python's `int(...)` on the ROI parts. */
module Decimal {
  import opened Wrappers

  predicate IsDigit(c: char) {
    '0' <= c <= '9'
  }

  predicate AllDigits(s: string) {
    forall i | 0 <= i < |s| :: IsDigit(s[i])
  }

  function DigitChar(d: nat): (c: char)
    requires d < 10
    ensures IsDigit(c)
  {
    ('0' as int + d) as char
  }

  function DigitValue(c: char): nat
    requires IsDigit(c)
  {
    c as int - '0' as int
  }

  /** The number a digit string denotes, most significant digit first. */
  function Value(s: string): nat
    requires AllDigits(s)
    decreases |s|
  {
    if |s| == 0 then 0 else Value(s[..|s| - 1]) * 10 + DigitValue(s[|s| - 1])
  }

  /** The shortest decimal rendering of `n`; it reads back as `n` and has no
      superfluous leading zero. */
  function NatToString(n: nat): (r: string)
    ensures |r| >= 1 && AllDigits(r)
    ensures Value(r) == n
    ensures r[0] == '0' ==> n == 0 && r == "0"
    decreases n
  {
    if n < 10 then [DigitChar(n)]
    else
      var prefix := NatToString(n / 10);
      var r := prefix + [DigitChar(n % 10)];
      assert r[..|r| - 1] == prefix;
      r
  }

  /** `k` copies of the character '0'. */
  function Zeros(k: nat): (r: string)
    ensures |r| == k && AllDigits(r)
    ensures forall i | 0 <= i < k :: r[i] == '0'
  {
    seq(k, i => '0')
  }

  /** Leading zeros do not change the value of a digit string. */
  lemma {:induction false} ZerosValue(k: nat, s: string)
    requires AllDigits(s)
    ensures AllDigits(Zeros(k) + s) && Value(Zeros(k) + s) == Value(s)
    decreases |s|, k
  {
    var z := Zeros(k);
    if |s| == 0 {
      assert z + s == z;
      if k > 0 {
        assert z[..k - 1] == Zeros(k - 1);
        ZerosValue(k - 1, "");
        assert Zeros(k - 1) + "" == Zeros(k - 1);
      }
    } else {
      var init := s[..|s| - 1];
      ZerosValue(k, init);
      assert (z + s)[..|z + s| - 1] == z + init;
    }
  }

  /** The rendering of `n` left-padded with zeros to at least `width`
      characters (.NET format `0000`, Python format `04d`). */
  function ZeroPad(n: nat, width: nat): (r: string)
    ensures AllDigits(r)
    ensures |r| == if width > |NatToString(n)| then width else |NatToString(n)|
    ensures Value(r) == n
  {
    var digits := NatToString(n);
    var pad := if width > |digits| then width - |digits| else 0;
    ZerosValue(pad, digits);
    Zeros(pad) + digits
  }

  /** The decimal rendering of an integer, with a leading '-' when negative. */
  function IntToString(i: int): (r: string)
    ensures |r| >= 1
    ensures i < 0 <==> r[0] == '-'
  {
    if i < 0 then "-" + NatToString(-i) else NatToString(i)
  }

  /** Python `int(part)` on an already stripped string: an optional sign
      followed by one or more decimal digits; anything else is a
      `ValueError`, modelled as `None`. */
  function ParseInt(s: string): (r: Option<int>)
    ensures r.Some? <==> || (|s| >= 1 && AllDigits(s))
                         || (|s| >= 2 && (s[0] == '-' || s[0] == '+') && AllDigits(s[1..]))
    ensures AllDigits(s) && |s| >= 1 ==> r == Some(Value(s))
    ensures |s| >= 2 && s[0] == '+' && AllDigits(s[1..]) ==> r == Some(Value(s[1..]))
    ensures |s| >= 2 && s[0] == '-' && AllDigits(s[1..]) ==> r == Some(-(Value(s[1..]) as int))
  {
    if |s| >= 1 && (s[0] == '-' || s[0] == '+') then
      var body := s[1..];
      if |body| >= 1 && AllDigits(body) then
        Some(if s[0] == '-' then -(Value(body) as int) else Value(body) as int)
      else None
    else if |s| >= 1 && AllDigits(s) then Some(Value(s))
    else None
  }

  /** Parsing the rendering of any integer gives the integer back. */
  lemma ParseIntToString(i: int)
    ensures ParseInt(IntToString(i)) == Some(i)
  {
    if i < 0 {
      assert IntToString(i)[1..] == NatToString(-i);
    }
  }
}

=== FILE: dedup.dfy ===
/** The C# emission gate (`TextDeduplicator`): whitespace-normalised text is
    let through unless it is blank, arrives within the minimum interval of
    the previous emission, or is too similar to the previously emitted text. */
module Deduplicator {
  import opened Wrappers
  import opened Text
  import TextSimilarity

  /** Constructor defaults of the source. */
  const DefaultThreshold: real := 0.93
  const DefaultMinIntervalMs: int := 150

  /** Configuration and state of one gate. `lastEmitAt == None` stands for
      the source's `DateTimeOffset.MinValue` ("never emitted"). */
  datatype Gate = Gate(threshold: real, minIntervalMs: int, lastText: string, lastEmitAt: Option<int>)

  /** The verdict of one call together with the gate after the call. */
  datatype Verdict = Verdict(emit: bool, next: Gate)

  /** A fresh gate; an absent interval means the 150 ms default. */
  function Create(threshold: real, minIntervalMs: Option<int>): (g: Gate)
    ensures g.threshold == threshold
    ensures g.minIntervalMs == if minIntervalMs.Some? then minIntervalMs.value else DefaultMinIntervalMs
    ensures Valid(g) && g.lastText == ""
  {
    Gate(threshold, minIntervalMs.GetOr(DefaultMinIntervalMs), "", None)
  }

  /** The gate built with no arguments (`new TextDeduplicator()`). */
  function Default(): (g: Gate)
    ensures g.threshold == 0.93 && g.minIntervalMs == 150
    ensures g.lastText == "" && g.lastEmitAt == None
  {
    Create(DefaultThreshold, None)
  }

  /** Splits at white space, drops the empty pieces and joins the words
      with single spaces. */
  function Normalize(text: string): (r: string)
    ensures Canonical(r, CsWhite)
    ensures r == "" <==> AllWhite(text, CsWhite)
    ensures RemoveEmpty(Split(r, CsWhite)) == RemoveEmpty(Split(text, CsWhite))
  {
    var words := RemoveEmpty(Split(text, CsWhite));
    JoinWordsCanonical(words, CsWhite);
    SplitAllEmpty(text, CsWhite);
    SplitJoinWords(words, CsWhite);
    Join(" ", words)
  }

  /** Normalising twice is normalising once. */
  lemma NormalizeIdempotent(text: string)
    ensures Normalize(Normalize(text)) == Normalize(text)
  {
  }

  /** The gate's invariant: the remembered text is normalised, and it is
      empty exactly when nothing has been emitted yet. */
  predicate Valid(g: Gate) {
    && Canonical(g.lastText, CsWhite)
    && (g.lastText == "" <==> g.lastEmitAt.None?)
  }

  function Remember(g: Gate, text: string, now: int): Gate {
    g.(lastText := text, lastEmitAt := Some(now))
  }

  /** `ShouldEmit`: normalise, then refuse blank text, text inside the
      minimum interval and text at or above the similarity threshold; a
      first text is accepted without comparison. Only an acceptance changes
      the state, and it remembers the normalised text and the time. */
  function ShouldEmit(g: Gate, text: string, now: int): (v: Verdict)
    ensures !v.emit ==> v.next == g
    ensures v.emit ==> v.next == g.(lastText := Normalize(text), lastEmitAt := Some(now))
    ensures AllWhite(text, CsWhite) ==> !v.emit
    ensures g.lastEmitAt.Some? && now - g.lastEmitAt.value < g.minIntervalMs ==> !v.emit
    ensures v.emit && g.lastText != "" ==> TextSimilarity.Similarity(g.lastText, Normalize(text)) < g.threshold
    ensures Valid(g) && g.lastEmitAt.None? && !AllWhite(text, CsWhite) ==> v.emit
    ensures && !AllWhite(text, CsWhite)
            && (g.lastEmitAt.Some? ==> now - g.lastEmitAt.value >= g.minIntervalMs)
            && (g.lastText != "" ==> TextSimilarity.Similarity(g.lastText, Normalize(text)) < g.threshold)
            ==> v.emit
    ensures Valid(g) ==> Valid(v.next)
  {
    var t := Normalize(text);
    if AllWhite(t, CsWhite) then Verdict(false, g)
    else if g.lastEmitAt.Some? && now - g.lastEmitAt.value < g.minIntervalMs then Verdict(false, g)
    else if g.lastText == "" then Verdict(true, Remember(g, t, now))
    else if TextSimilarity.Similarity(g.lastText, t) >= g.threshold then Verdict(false, g)
    else Verdict(true, Remember(g, t, now))
  }

  /** With a threshold of at most 1, the text just emitted is never emitted
      again straight away, however its white space is laid out. */
  lemma NoImmediateRepeat(g: Gate, text: string, again: string, now: int, later: int)
    requires g.threshold <= 1.0
    requires ShouldEmit(g, text, now).emit
    requires Normalize(again) == Normalize(text)
    ensures !ShouldEmit(ShouldEmit(g, text, now).next, again, later).emit
  {
  }

  /** Feeds timed texts through the gate and collects what it lets through. */
  function Feed(g: Gate, inputs: seq<(string, int)>): (r: (seq<string>, Gate))
    ensures |r.0| <= |inputs|
    ensures Valid(g) ==> Valid(r.1)
    decreases |inputs|
  {
    if |inputs| == 0 then ([], g)
    else
      var v := ShouldEmit(g, inputs[0].0, inputs[0].1);
      var rest := Feed(v.next, inputs[1..]);
      (if v.emit then [Normalize(inputs[0].0)] + rest.0 else rest.0, rest.1)
  }

  /** Texts the gate can emit: non-empty and normalised. */
  predicate AllEmittable(out: seq<string>) {
    forall i | 0 <= i < |out| :: out[i] != "" && Canonical(out[i], CsWhite)
  }

  /** No text directly follows an equal one. */
  predicate NoRepeat(out: seq<string>) {
    forall i | 0 <= i < |out| - 1 :: out[i] != out[i + 1]
  }

  /** Putting an emittable text in front keeps the list emittable. */
  lemma ConsEmittable(x: string, rest: seq<string>)
    requires x != "" && Canonical(x, CsWhite) && AllEmittable(rest)
    ensures AllEmittable([x] + rest)
  {
  }

  /** Putting a text in front of a list that does not start with it keeps
      the list free of repeats. */
  lemma ConsNoRepeat(x: string, rest: seq<string>)
    requires NoRepeat(rest) && (|rest| > 0 ==> rest[0] != x)
    ensures NoRepeat([x] + rest)
  {
    var out := [x] + rest;
    forall i | 0 <= i < |out| - 1
      ensures out[i] != out[i + 1]
    {
      if i > 0 {
        assert out[i] == rest[i - 1] && out[i + 1] == rest[i];
      }
    }
  }

  /** One step of `Feed`: the first input's verdict decides whether its
      normalised text leads the rest of the run. */
  lemma FeedStep(g: Gate, inputs: seq<(string, int)>)
    requires |inputs| > 0
    ensures var v := ShouldEmit(g, inputs[0].0, inputs[0].1);
            var rest := Feed(v.next, inputs[1..]);
            && (v.emit ==> Feed(g, inputs) == ([Normalize(inputs[0].0)] + rest.0, rest.1))
            && (!v.emit ==> Feed(g, inputs) == rest)
  {
  }

  /** Over any run the gate keeps its configuration and ends up
      remembering the last emitted text, or is unchanged when none was
      emitted. */
  lemma {:induction false} FeedRemembers(g: Gate, inputs: seq<(string, int)>)
    ensures var r := Feed(g, inputs);
            && r.1.threshold == g.threshold && r.1.minIntervalMs == g.minIntervalMs
            && (|r.0| == 0 ==> r.1 == g)
            && (|r.0| > 0 ==> r.1.lastText == r.0[|r.0| - 1])
    decreases |inputs|
  {
    if |inputs| > 0 {
      var v := ShouldEmit(g, inputs[0].0, inputs[0].1);
      var rest := Feed(v.next, inputs[1..]);
      FeedRemembers(v.next, inputs[1..]);
      FeedStep(g, inputs);
      if v.emit {
        var x := Normalize(inputs[0].0);
        assert v.next.lastText == x;
        assert |rest.0| > 0 ==> ([x] + rest.0)[|rest.0|] == rest.0[|rest.0| - 1];
      }
    }
  }

  /** Every text a run emits is non-empty and normalised. */
  lemma {:induction false} FeedEmits(g: Gate, inputs: seq<(string, int)>)
    ensures AllEmittable(Feed(g, inputs).0)
    decreases |inputs|
  {
    if |inputs| > 0 {
      var v := ShouldEmit(g, inputs[0].0, inputs[0].1);
      FeedEmits(v.next, inputs[1..]);
      FeedStep(g, inputs);
      if v.emit {
        var x := Normalize(inputs[0].0);
        assert x != "";
        ConsEmittable(x, Feed(v.next, inputs[1..]).0);
      }
    }
  }

  /** With a threshold of at most 1, no run emits a text twice in a row,
      nor right after the text the gate already remembered. */
  lemma {:induction false} FeedNoRepeat(g: Gate, inputs: seq<(string, int)>)
    requires g.threshold <= 1.0
    ensures var r := Feed(g, inputs);
            && NoRepeat(r.0)
            && (|r.0| > 0 && g.lastText != "" ==> r.0[0] != g.lastText)
    decreases |inputs|
  {
    if |inputs| > 0 {
      var v := ShouldEmit(g, inputs[0].0, inputs[0].1);
      var rest := Feed(v.next, inputs[1..]);
      FeedNoRepeat(v.next, inputs[1..]);
      FeedStep(g, inputs);
      if v.emit {
        var x := Normalize(inputs[0].0);
        assert x != "" && v.next.lastText == x;
        ConsNoRepeat(x, rest.0);
      }
    }
  }

  /** "A", "A", "B" with no interval and threshold 0.5 emits "A" then "B". */
  lemma FeedExample()
    ensures Feed(Create(0.5, Some(0)), [("A", 0), ("A", 0), ("B", 0)]).0 == ["A", "B"]
  {
    var g := Create(0.5, Some(0));
    SplitFree("A", CsWhite);
    SplitFree("B", CsWhite);
    TextSimilarity.DistanceDifferentChars('A', 'B');
    assert "A" == ['A'] && "B" == ['B'];
    var g1 := ShouldEmit(g, "A", 0).next;
    assert g1.lastText == "A";
    assert !ShouldEmit(g1, "A", 0).emit;
    assert ShouldEmit(g1, "B", 0).emit;
  }

  /** Two words joined by one or by two spaces normalise to the words
      joined by one space. */
  lemma NormalizeTwoWords(a: string, b: string)
    requires a != "" && b != "" && Free(a, CsWhite) && Free(b, CsWhite)
    ensures Normalize(a + " " + b) == a + " " + b
    ensures Normalize(a + "  " + b) == a + " " + b
  {
    SplitFree(b, CsWhite);
    SplitWordThen(a, ' ', b, CsWhite);
    assert a + " " + b == a + [' '] + b;
    assert Split(a + " " + b, CsWhite) == [a, b];
    assert RemoveEmpty([a, b]) == [a, b];
    assert Join(" ", [a, b]) == a + " " + b;
    SplitWordThen("", ' ', b, CsWhite);
    SplitWordThen(a, ' ', " " + b, CsWhite);
    assert a + "  " + b == a + [' '] + (" " + b);
    assert " " + b == "" + [' '] + b;
    assert Split(a + "  " + b, CsWhite) == [a, "", b];
    assert RemoveEmpty([a, "", b]) == [a, b];
  }

  /** With the default gate, two words separated by one space ("Hello
      world") followed at once by the same words separated by two spaces
      lets only the first through. */
  lemma WhitespaceVariantSuppressed(a: string, b: string, now: int, later: int)
    requires a != "" && b != "" && Free(a, CsWhite) && Free(b, CsWhite)
    ensures ShouldEmit(Default(), a + " " + b, now).emit
    ensures !ShouldEmit(ShouldEmit(Default(), a + " " + b, now).next, a + "  " + b, later).emit
  {
    NormalizeTwoWords(a, b);
    assert !AllWhite(a + " " + b, CsWhite) by {
      assert (a + " " + b)[0] == a[0];
    }
    NoImmediateRepeat(Default(), a + " " + b, a + "  " + b, now, later);
  }
}

=== FILE: deepl.dfy ===
/** `DeepLTranslator`: one form POST per non-blank text, to the free or the
    paid endpoint depending on the key, with every failure other than a
    cancellation turned into an error result that carries the original
    text. The HTTP client is the `transport` parameter. */
module DeepL {
  import opened Text
  import Decimal
  import opened Translation

  const FreeEndpoint: string := "https://api-free.deepl.com/v2/translate"
  const ProEndpoint: string := "https://api.deepl.com/v2/translate"

  /** The form fields and the URL of one request. */
  datatype Request = Request(endpoint: string, authKey: string, text: string,
                             sourceLang: string, targetLang: string)

  /** The result of one call together with the requests it sent. */
  datatype Call = Call(outcome: Outcome, requests: seq<Request>)

  /** Keys of the free plan end in ":fx", in any letter case. */
  function Endpoint(key: string): (e: string)
    ensures e == FreeEndpoint <==> EndsWithIgnoreCase(key, ":fx")
    ensures e == ProEndpoint <==> !EndsWithIgnoreCase(key, ":fx")
  {
    if EndsWithIgnoreCase(key, ":fx") then FreeEndpoint else ProEndpoint
  }

  /** The request for `text`: trimmed key, upper-cased language codes. */
  function BuildRequest(s: Settings, text: string): (r: Request)
    ensures r.authKey == Trim(s.deepLApiKey, CsWhite)
    ensures r.text == text
    ensures r.sourceLang == Upper(s.sourceLanguage) && r.targetLang == Upper(s.targetLanguage)
    ensures r.endpoint == Endpoint(r.authKey)
  {
    var key := Trim(s.deepLApiKey, CsWhite);
    Request(Endpoint(key), key, text, Upper(s.sourceLanguage), Upper(s.targetLanguage))
  }

  /** `"{code} {reason}"` of the status-error messages. */
  function StatusText(status: int, reason: string): string {
    Decimal.IntToString(status) + " " + reason
  }

  /** What the reply turns into once a request was sent. */
  function Interpret(text: string, reply: Reply<TranslationBody>): (o: Outcome)
    ensures o.Cancelled? <==> reply.TimedOut? || reply.Canceled?
    ensures o.Done? && o.result.isError ==> o.result.text == text
    ensures o.Done? && !o.result.isError <==>
              reply.Response? && IsSuccessStatus(reply.status) && reply.body.FirstText?
    ensures o.Done? && !o.result.isError ==> o.result.text == reply.body.text.GetOr("")
  {
    match reply
    case Response(status, reason, body) =>
      if !IsSuccessStatus(status) then Done(Error("DeepL error: " + StatusText(status, reason), text))
      else (match body
            case NoTranslations => Done(Error("DeepL response has no translations.", text))
            case Malformed(msg) => Done(Error("DeepL request failed: " + msg, text))
            case FirstText(t) => Done(Success(t.GetOr(""))))
    case Faulted(msg) => Done(Error("DeepL request failed: " + msg, text))
    case TimedOut(msg) => Cancelled(msg)
    case Canceled(msg) => Cancelled(msg)
  }

  /** `TranslateAsync(text)`. */
  function Translate(s: Settings, text: string, transport: Request -> Reply<TranslationBody>): (c: Call)
    ensures AllWhite(text, CsWhite) ==> c == Call(Done(Success("")), [])
    ensures !AllWhite(text, CsWhite) ==>
              && c.requests == [BuildRequest(s, text)]
              && c.outcome == Interpret(text, transport(BuildRequest(s, text)))
  {
    if AllWhite(text, CsWhite) then Call(Done(Success("")), [])
    else
      var request := BuildRequest(s, text);
      Call(Interpret(text, transport(request)), [request])
  }

  /** Whatever the service answers, a call that ends with a result either
      succeeds or hands the original text back as the fallback, and the
      error message names the provider. */
  lemma ErrorsFallBack(s: Settings, text: string, transport: Request -> Reply<TranslationBody>)
    ensures var c := Translate(s, text, transport);
            c.outcome.Done? && c.outcome.result.isError ==>
              c.outcome.result.text == text && StartsWith(c.outcome.result.errorMessage, "DeepL ")
  {
    if !AllWhite(text, CsWhite) {
      InterpretNamesProvider(text, transport(BuildRequest(s, text)));
    }
  }

  /** Every error message `Interpret` builds starts with "DeepL ". */
  lemma InterpretNamesProvider(text: string, reply: Reply<TranslationBody>)
    ensures var o := Interpret(text, reply);
            o.Done? && o.result.isError ==> StartsWith(o.result.errorMessage, "DeepL ")
  {
    var o := Interpret(text, reply);
    if o.Done? && o.result.isError {
      var m := o.result.errorMessage;
      assert m[..6] == "DeepL ";
    }
  }

  /** A key that differs only by surrounding white space goes to the same
      endpoint with the same credential. */
  lemma KeyPaddingIrrelevant(s: Settings, pad1: string, pad2: string, text: string)
    requires AllWhite(pad1, CsWhite) && AllWhite(pad2, CsWhite)
    requires NoEdgeWhite(s.deepLApiKey, CsWhite)
    ensures BuildRequest(s.(deepLApiKey := pad1 + s.deepLApiKey + pad2), text) == BuildRequest(s, text)
  {
    TrimPadded(pad1, s.deepLApiKey, pad2, CsWhite);
  }

  /** The free-plan suffix is recognised in upper case as well. */
  lemma UpperSuffixIsFree(key: string)
    ensures Endpoint(key + ":FX") == FreeEndpoint
  {
    var k := key + ":FX";
    assert Upper(k)[|k| - 3..] == ":FX";
  }
}

=== FILE: factory.dfy ===
/** `TranslatorFactory.TryCreate`: checks the credentials the chosen kind
    needs and builds the translator, or reports what is missing and falls
    back to the identity translator. */
module TranslatorFactory {
  import opened Translation

  /** The `(returned bool, out translator, out error)` triple. */
  datatype Created = Created(ok: bool, translator: Translator, error: string)

  /** The settings the factory accepts, kind by kind. */
  predicate Accepts(s: Settings) {
    match s.kind
    case None => true
    case DeepL => Present(s.deepLApiKey)
    case Google => HasGoogleApiKey(s) || HasGoogleManualOAuth(s) || HasGoogleRefreshOAuth(s)
    case Papago => Present(s.papagoClientId) && Present(s.papagoClientSecret)
  }

  /** Acceptance looks only at the kind and at which credentials are
      present, never at their text. */
  lemma AcceptsByPresence(s: Settings, t: Settings)
    requires SamePresence(s, t)
    ensures Accepts(s) <==> Accepts(t)
  {
  }

  const DeepLKeyRequired: string := "DeepL API key is required."
  const GoogleCredentialsRequired: string :=
    "Google API key or OAuth(access token + project id) or OAuth(refresh token flow) is required."
  const PapagoCredentialsRequired: string := "Papago client id and secret are required."

  function TryCreate(s: Settings): (c: Created)
    ensures c.ok <==> Accepts(s)
    ensures c.ok <==> c.error == ""
    ensures !c.ok ==> c.translator == Identity
    ensures !c.ok ==> c.error == (match s.kind
                                  case DeepL => DeepLKeyRequired
                                  case Google => GoogleCredentialsRequired
                                  case _ => PapagoCredentialsRequired)
    ensures c.ok ==> Name(c.translator) == (match s.kind
                                            case None => "None"
                                            case DeepL => "DeepL"
                                            case Google => "Google"
                                            case Papago => "Papago")
    ensures c.ok && s.kind != TranslatorType.None ==> c.translator.settings == s
    ensures c.translator.GoogleTranslator? ==> c.translator.cache == EmptyCache
  {
    match s.kind
    case None => Created(true, Identity, "")
    case DeepL =>
      if !Present(s.deepLApiKey) then Created(false, Identity, DeepLKeyRequired)
      else Created(true, DeepLTranslator(s), "")
    case Google =>
      if !HasGoogleApiKey(s) && !HasGoogleManualOAuth(s) && !HasGoogleRefreshOAuth(s)
      then Created(false, Identity, GoogleCredentialsRequired)
      else Created(true, GoogleTranslator(s, EmptyCache), "")
    case Papago =>
      if !Present(s.papagoClientId) || !Present(s.papagoClientSecret)
      then Created(false, Identity, PapagoCredentialsRequired)
      else Created(true, PapagoTranslator(s), "")
  }

  /** The default settings build the identity translator without error. */
  lemma DefaultCreatesIdentity()
    ensures TryCreate(DefaultSettings()) == Created(true, Identity, "")
  {
  }
}

=== FILE: geometry.dfy ===
/** Integer rectangles and points: the C# `System.Drawing.Rectangle` and
    the Python `(x, y, w, h)` tuple. */
module Geometry {

  datatype Point = Point(x: int, y: int)

  datatype Rect = Rect(x: int, y: int, width: int, height: int) {

    function Right(): int {
      x + width
    }

    function Bottom(): int {
      y + height
    }

    predicate HasArea() {
      width > 0 && height > 0
    }
  }

  function Min(a: int, b: int): int {
    if a <= b then a else b
  }

  function Max(a: int, b: int): int {
    if a >= b then a else b
  }

  function Abs(a: int): int {
    if a < 0 then -a else a
  }

  /** `rect` lies inside `bounds` and covers at least one pixel. */
  predicate Inside(rect: Rect, bounds: Rect) {
    && rect.HasArea()
    && bounds.x <= rect.x && rect.Right() <= bounds.Right()
    && bounds.y <= rect.y && rect.Bottom() <= bounds.Bottom()
  }

  /** The source's `ClampToBounds`: move the corner into the bounds, then cut
      the size to what remains, keeping at least one pixel. For bounds with
      an area the result lies inside them, and a rectangle that already
      does is returned unchanged. */
  function ClampToBounds(rect: Rect, bounds: Rect): (r: Rect)
    ensures r.width >= 1 && r.height >= 1
    ensures bounds.width >= 1 ==> bounds.x <= r.x <= bounds.Right() - 1 && r.Right() <= bounds.Right()
    ensures bounds.height >= 1 ==> bounds.y <= r.y <= bounds.Bottom() - 1 && r.Bottom() <= bounds.Bottom()
    ensures bounds.HasArea() ==> Inside(r, bounds)
    ensures Inside(rect, bounds) ==> r == rect
    ensures bounds.HasArea() && r == rect ==> Inside(rect, bounds)
  {
    var x := Max(bounds.x, Min(rect.x, bounds.Right() - 1));
    var y := Max(bounds.y, Min(rect.y, bounds.Bottom() - 1));
    var w := Max(1, Min(rect.width, bounds.Right() - x));
    var h := Max(1, Min(rect.height, bounds.Bottom() - y));
    Rect(x, y, w, h)
  }

  /** Clamping a clamped rectangle again changes nothing. */
  lemma ClampIdempotent(rect: Rect, bounds: Rect)
    ensures ClampToBounds(ClampToBounds(rect, bounds), bounds) == ClampToBounds(rect, bounds)
  {
  }

  /** The source's `NormalizeRect`: the rectangle spanned by two drag points,
      corner at the componentwise minimum and size the absolute differences. */
  function NormalizeRect(p1: Point, p2: Point): (r: Rect)
    ensures r.width >= 0 && r.height >= 0
    ensures r.x <= p1.x <= r.Right() && r.x <= p2.x <= r.Right()
    ensures r.y <= p1.y <= r.Bottom() && r.y <= p2.y <= r.Bottom()
    ensures (r.x == p1.x || r.x == p2.x) && (r.Right() == p1.x || r.Right() == p2.x)
    ensures (r.y == p1.y || r.y == p2.y) && (r.Bottom() == p1.y || r.Bottom() == p2.y)
  {
    Rect(Min(p1.x, p2.x), Min(p1.y, p2.y), Abs(p1.x - p2.x), Abs(p1.y - p2.y))
  }

  /** The order of the two drag points does not matter. */
  lemma NormalizeRectSymmetric(p1: Point, p2: Point)
    ensures NormalizeRect(p1, p2) == NormalizeRect(p2, p1)
  {
  }
}

=== FILE: google.dfy ===
/** `GoogleTranslator`: picks a credential mode (refresh-token OAuth, then a
    fixed access token, then an API key), fetches and caches OAuth access
    tokens, and turns every failure except a cancellation into an error
    result that carries the original text. The HTTP client is the pair of
    `transport` parameters; the clock readings are parameters too. */
module Google {
  import Wrappers
  import opened Text
  import Decimal
  import opened Translation
  import TranslatorFactory

  const TokenEndpoint: string := "https://oauth2.googleapis.com/token"
  /** Lifetime assumed when the token reply gives none usable (seconds). */
  const DefaultExpiresInSeconds: int := 3600
  /** A cached token is renewed this long before it expires (60 s). */
  const RefreshMarginMs: int := 60000
  const Int32Max: int := 0x7FFF_FFFF

  /** The credential mode, in the order the translator tries them. */
  datatype Mode = RefreshFlow | ManualOAuth | ApiKey | Missing

  function ModeOf(s: Settings): (m: Mode)
    ensures m == RefreshFlow <==> HasGoogleRefreshOAuth(s)
    ensures m == ManualOAuth <==> !HasGoogleRefreshOAuth(s) && HasGoogleManualOAuth(s)
    ensures m == ApiKey <==> !HasGoogleRefreshOAuth(s) && !HasGoogleManualOAuth(s) && HasGoogleApiKey(s)
    ensures m == Missing <==> !HasGoogleRefreshOAuth(s) && !HasGoogleManualOAuth(s) && !HasGoogleApiKey(s)
  {
    if HasGoogleRefreshOAuth(s) then RefreshFlow
    else if HasGoogleManualOAuth(s) then ManualOAuth
    else if Present(s.googleApiKey) then ApiKey
    else Missing
  }

  /** The label the OAuth messages carry. */
  function ModeLabel(m: Mode): string {
    if m == RefreshFlow then "OAuth(refresh-token)" else "OAuth(access-token)"
  }

  /** The form of the refresh-token grant (all fields trimmed). */
  datatype TokenRequest = TokenRequest(clientId: string, clientSecret: string, refreshToken: string)

  /** The `expires_in` member of a token reply: absent, not a JSON number,
      or a number, with its value when its literal is a plain integer. */
  datatype ExpiresIn = Absent | NotNumber | Number(integral: Wrappers.Option<int>)

  /** What a token reply's body yields: an exception while reading it (its
      message), or its `access_token` (missing, JSON null, or a string) and
      `expires_in` members. */
  datatype TokenBody =
    | TokenMalformed(message: string)
    | TokenFields(accessToken: Wrappers.Option<Wrappers.Option<string>>, expiresIn: ExpiresIn)

  /** A translation request: v2 with the API key, or v3 with a bearer token. */
  datatype TranslateRequest =
    | ApiKeyRequest(apiKey: string, text: string, source: string, target: string)
    | OAuthRequest(projectId: string, bearer: string, text: string, source: string, target: string)

  /** Every request the translator sends, in order. */
  datatype Sent = TokenSent(token: TokenRequest) | TranslateSent(translate: TranslateRequest)

  /** A cached token may be used while it is non-blank and more than the
      margin away from its expiry. */
  predicate Usable(c: TokenCache, now: int) {
    Present(c.token) && c.expiresAt.Some? && now < c.expiresAt.value - RefreshMarginMs
  }

  /** The cache is empty, or holds a non-blank token with its expiry. */
  predicate CacheValid(c: TokenCache) {
    c == EmptyCache || (Present(c.token) && c.expiresAt.Some?)
  }

  /** The lifetime in seconds: the reply's `expires_in` when it is an
      integer that fits in 32 bits and is positive, 3600 otherwise. */
  function ExpiresInSeconds(e: ExpiresIn): (n: int)
    ensures 0 < n <= Int32Max
    ensures n != DefaultExpiresInSeconds ==> e.Number? && e.integral == Wrappers.Some(n)
    ensures e.Number? && e.integral.Some? && 0 < e.integral.value <= Int32Max ==> n == e.integral.value
  {
    if e.Number? && e.integral.Some? && 0 < e.integral.value <= Int32Max then e.integral.value
    else DefaultExpiresInSeconds
  }

  function StatusText(status: int, reason: string): string {
    Decimal.IntToString(status) + " " + reason
  }

  /** The result of the token step, the cache it leaves and what it sent. */
  datatype TokenStep = TokenStep(outcome: Outcome, cache: TokenCache, sent: seq<Sent>)

  /** `GetAccessTokenByRefreshTokenAsync`. `cache` is what the first check
      reads at `now`; `lockView` is what the second check reads at
      `lockedNow` after the lock is taken, which differs from `cache` only
      when another call refreshed the token in between. */
  function GetAccessToken(s: Settings, cache: TokenCache, lockView: TokenCache, now: int, lockedNow: int,
                          tokenTransport: TokenRequest -> Reply<TokenBody>): (t: TokenStep)
    ensures Usable(cache, now) ==> t == TokenStep(Done(Success(cache.token)), cache, [])
    ensures !Usable(cache, now) && Usable(lockView, lockedNow)
            ==> t == TokenStep(Done(Success(lockView.token)), lockView, [])
    ensures !Usable(cache, now) && !Usable(lockView, lockedNow) ==> |t.sent| == 1 && t.sent[0].TokenSent?
    ensures t.outcome.Done? && !t.outcome.result.isError ==> Present(t.outcome.result.text)
    ensures t.outcome.Done? && t.outcome.result.isError ==> t.outcome.result.text == ""
    ensures t.cache == cache || t.cache == lockView || (Present(t.cache.token) && t.cache.expiresAt.Some?
            && t.cache.expiresAt.value >= lockedNow + 1000)
    ensures CacheValid(cache) && CacheValid(lockView) ==> CacheValid(t.cache)
  {
    if Usable(cache, now) then TokenStep(Done(Success(cache.token)), cache, [])
    else if Usable(lockView, lockedNow) then TokenStep(Done(Success(lockView.token)), lockView, [])
    else RequestToken(s, lockView, lockedNow, tokenTransport)
  }

  /** The token request itself, made under the lock at `lockedNow`: a new
      non-blank token is cached with its expiry, any failure leaves the
      cache as the lock found it. */
  function RequestToken(s: Settings, lockView: TokenCache, lockedNow: int,
                        tokenTransport: TokenRequest -> Reply<TokenBody>): (t: TokenStep)
    ensures t.sent == [TokenSent(RefreshRequest(s))]
    ensures t.outcome.Done? && !t.outcome.result.isError ==>
              && Present(t.outcome.result.text)
              && t.cache.token == t.outcome.result.text && t.cache.expiresAt.Some?
              && var r := tokenTransport(RefreshRequest(s));
                 r.Response? && r.body.TokenFields?
                 && t.cache.expiresAt.value == lockedNow + ExpiresInSeconds(r.body.expiresIn) * 1000
    ensures t.outcome.Done? && t.outcome.result.isError ==> t.outcome.result.text == ""
    ensures !(t.outcome.Done? && !t.outcome.result.isError) ==> t.cache == lockView
  {
    var request := RefreshRequest(s);
    var sent := [TokenSent(request)];
    match tokenTransport(request)
    case Response(status, reason, body) =>
      if !IsSuccessStatus(status) then
        TokenStep(Done(ErrorNoFallback("Google OAuth token error: " + StatusText(status, reason))), lockView, sent)
      else (match body
        case TokenMalformed(msg) =>
          TokenStep(Done(ErrorNoFallback("Google OAuth token request failed: " + msg)), lockView, sent)
        case TokenFields(accessToken, expiresIn) =>
          if accessToken.None? then
            TokenStep(Done(ErrorNoFallback("Google OAuth token parse failed: access_token is missing.")), lockView, sent)
          else
            var token := accessToken.value.GetOr("");
            if !Present(token) then
              TokenStep(Done(ErrorNoFallback("Google OAuth token parse failed: access_token is empty.")), lockView, sent)
            else
              var expiresAt := lockedNow + ExpiresInSeconds(expiresIn) * 1000;
              TokenStep(Done(Success(token)), TokenCache(token, Wrappers.Some(expiresAt)), sent))
    case Faulted(msg) =>
      TokenStep(Done(ErrorNoFallback("Google OAuth token request failed: " + msg)), lockView, sent)
    case TimedOut(msg) => TokenStep(Cancelled(msg), lockView, sent)
    case Canceled(msg) => TokenStep(Cancelled(msg), lockView, sent)
  }

  /** The refresh-token request built from the trimmed settings. */
  function RefreshRequest(s: Settings): TokenRequest {
    TokenRequest(Trim(s.googleClientId, CsWhite), Trim(s.googleClientSecret, CsWhite),
                 Trim(s.googleRefreshToken, CsWhite))
  }

  /** What a translation reply turns into, for the given mode label. */
  function Interpret(modeLabel: string, text: string, reply: Reply<TranslationBody>,
                     htmlDecode: string -> string): (o: Outcome)
    ensures o.Cancelled? <==> reply.TimedOut? || reply.Canceled?
    ensures o.Done? && o.result.isError ==> o.result.text == text
    ensures o.Done? && !o.result.isError <==>
              reply.Response? && IsSuccessStatus(reply.status) && reply.body.FirstText?
    ensures o.Done? && !o.result.isError ==> o.result.text == htmlDecode(reply.body.text.GetOr(""))
  {
    var prefix := "Google(" + modeLabel + ") ";
    match reply
    case Response(status, reason, body) =>
      if !IsSuccessStatus(status) then Done(Error(prefix + "error: " + StatusText(status, reason), text))
      else (match body
            case NoTranslations => Done(Error(prefix + "response parse failed.", text))
            case Malformed(msg) => Done(Error(prefix + "request failed: " + msg, text))
            case FirstText(t) => Done(Success(htmlDecode(t.GetOr("")))))
    case Faulted(msg) => Done(Error(prefix + "request failed: " + msg, text))
    case TimedOut(msg) => Cancelled(msg)
    case Canceled(msg) => Cancelled(msg)
  }

  /** The result of one call, the cache it leaves and what it sent. */
  datatype Call = Call(outcome: Outcome, cache: TokenCache, sent: seq<Sent>)

  /** `TranslateAsync(text)`. */
  function Translate(s: Settings, cache: TokenCache, lockView: TokenCache, now: int, lockedNow: int,
                     text: string, tokenTransport: TokenRequest -> Reply<TokenBody>,
                     transport: TranslateRequest -> Reply<TranslationBody>,
                     htmlDecode: string -> string): (c: Call)
    ensures !Present(text) ==> c == Call(Done(Success("")), cache, [])
    ensures Present(text) && ModeOf(s) == Missing
            ==> c == Call(Done(Error("Google credentials are missing.", text)), cache, [])
    ensures c.outcome.Done? && c.outcome.result.isError ==> c.outcome.result.text == text
  {
    if !Present(text) then Call(Done(Success("")), cache, [])
    else
      match ModeOf(s)
      case RefreshFlow =>
        UseToken(s, GetAccessToken(s, cache, lockView, now, lockedNow, tokenTransport), text, transport, htmlDecode)
      case ManualOAuth =>
        var request := OAuthRequest(Trim(s.googleProjectId, CsWhite), Trim(s.googleAccessToken, CsWhite), text,
                                    s.sourceLanguage, s.targetLanguage);
        Direct(ModeLabel(ManualOAuth), request, text, cache, transport, htmlDecode)
      case ApiKey =>
        var request := ApiKeyRequest(Trim(s.googleApiKey, CsWhite), text, s.sourceLanguage, s.targetLanguage);
        Direct("apiKey", request, text, cache, transport, htmlDecode)
      case Missing => Call(Done(Error("Google credentials are missing.", text)), cache, [])
  }

  /** A mode that needs no token step: one translation request, and the
      cache is not touched. */
  function Direct(modeLabel: string, request: TranslateRequest, text: string, cache: TokenCache,
                  transport: TranslateRequest -> Reply<TranslationBody>,
                  htmlDecode: string -> string): (c: Call)
    ensures c.cache == cache && c.sent == [TranslateSent(request)]
    ensures c.outcome.Done? && c.outcome.result.isError ==> c.outcome.result.text == text
    ensures c.outcome == Interpret(modeLabel, text, transport(request), htmlDecode)
  {
    Call(Interpret(modeLabel, text, transport(request), htmlDecode), cache, [TranslateSent(request)])
  }

  /** The refresh-token branch of `TranslateAsync` once the token step
      `t` is done: a cancelled, failed or blank token is reported without a
      translation request, otherwise the request is sent with the token. */
  function UseToken(s: Settings, t: TokenStep, text: string,
                    transport: TranslateRequest -> Reply<TranslationBody>,
                    htmlDecode: string -> string): (c: Call)
    ensures c.cache == t.cache
    ensures |t.sent| <= |c.sent| <= |t.sent| + 1 && c.sent[..|t.sent|] == t.sent
    ensures |c.sent| > |t.sent| ==> c.sent[|t.sent|].TranslateSent?
    ensures c.outcome.Done? && c.outcome.result.isError ==> c.outcome.result.text == text
    ensures t.outcome.Cancelled? ==> c == Call(t.outcome, t.cache, t.sent)
    ensures t.outcome.Done? && !UsableToken(t.outcome.result) ==>
              c.outcome == Done(Error(t.outcome.result.errorMessage, text)) && c.sent == t.sent
    ensures t.outcome.Done? && UsableToken(t.outcome.result) ==>
              var request := OAuthRequest(Trim(s.googleProjectId, CsWhite), t.outcome.result.text, text,
                                          s.sourceLanguage, s.targetLanguage);
              && c.sent == t.sent + [TranslateSent(request)]
              && c.outcome == Interpret(ModeLabel(RefreshFlow), text, transport(request), htmlDecode)
  {
    if t.outcome.Cancelled? then Call(t.outcome, t.cache, t.sent)
    else if !UsableToken(t.outcome.result) then
      Call(Done(Error(t.outcome.result.errorMessage, text)), t.cache, t.sent)
    else
      var request := OAuthRequest(Trim(s.googleProjectId, CsWhite), t.outcome.result.text, text,
                                  s.sourceLanguage, s.targetLanguage);
      var sent := t.sent + [TranslateSent(request)];
      assert sent[..|t.sent|] == t.sent;
      Call(Interpret(ModeLabel(RefreshFlow), text, transport(request), htmlDecode), t.cache, sent)
  }

  /** A token result that can be sent: a success with a non-blank token. */
  predicate UsableToken(r: TranslateResult) {
    !r.isError && Present(r.text)
  }

  /** Which request each mode sends for a non-blank text, and what its
      reply turns into: the API-key mode sends its trimmed key, the
      access-token mode the trimmed project id and token, and the
      refresh-token flow, after its token step, the token that step
      obtained; each reply is read under the mode's label. A failed or
      blank token is reported with the token step's message and the text
      as fallback, and nothing more is sent; a cancelled token step
      escapes. */
  lemma TranslateSendsModeRequest(s: Settings, cache: TokenCache, lockView: TokenCache, now: int, lockedNow: int,
                                  text: string, tokenTransport: TokenRequest -> Reply<TokenBody>,
                                  transport: TranslateRequest -> Reply<TranslationBody>,
                                  htmlDecode: string -> string)
    requires Present(text)
    ensures var c := Translate(s, cache, lockView, now, lockedNow, text, tokenTransport, transport, htmlDecode);
            && (ModeOf(s) == ApiKey ==>
                  var request := ApiKeyRequest(Trim(s.googleApiKey, CsWhite), text,
                                               s.sourceLanguage, s.targetLanguage);
                  && c.sent == [TranslateSent(request)]
                  && c.outcome == Interpret("apiKey", text, transport(request), htmlDecode))
            && (ModeOf(s) == ManualOAuth ==>
                  var request := OAuthRequest(Trim(s.googleProjectId, CsWhite),
                                              Trim(s.googleAccessToken, CsWhite), text,
                                              s.sourceLanguage, s.targetLanguage);
                  && c.sent == [TranslateSent(request)]
                  && c.outcome == Interpret(ModeLabel(ManualOAuth), text, transport(request), htmlDecode))
            && (ModeOf(s) == RefreshFlow ==>
                  var t := GetAccessToken(s, cache, lockView, now, lockedNow, tokenTransport);
                  && (t.outcome.Cancelled? ==> c.sent == t.sent && c.outcome == t.outcome)
                  && (t.outcome.Done? && UsableToken(t.outcome.result) ==>
                        var request := OAuthRequest(Trim(s.googleProjectId, CsWhite),
                                                    t.outcome.result.text, text,
                                                    s.sourceLanguage, s.targetLanguage);
                        && c.sent == t.sent + [TranslateSent(request)]
                        && c.outcome == Interpret(ModeLabel(RefreshFlow), text, transport(request), htmlDecode))
                  && (t.outcome.Done? && !UsableToken(t.outcome.result) ==>
                        c.sent == t.sent && c.outcome == Done(Error(t.outcome.result.errorMessage, text))))
  {
  }

  /** Only the refresh-token flow touches the cache or asks for tokens. */
  lemma OnlyRefreshFlowUsesCache(s: Settings, cache: TokenCache, lockView: TokenCache, now: int, lockedNow: int,
                                 text: string, tokenTransport: TokenRequest -> Reply<TokenBody>,
                                 transport: TranslateRequest -> Reply<TranslationBody>,
                                 htmlDecode: string -> string)
    requires ModeOf(s) != RefreshFlow
    ensures var c := Translate(s, cache, lockView, now, lockedNow, text, tokenTransport, transport, htmlDecode);
            c.cache == cache && forall k | 0 <= k < |c.sent| :: c.sent[k].TranslateSent?
  {
  }

  /** A call keeps the token cache valid. */
  lemma TranslateKeepsCacheValid(s: Settings, cache: TokenCache, lockView: TokenCache, now: int, lockedNow: int,
                                 text: string, tokenTransport: TokenRequest -> Reply<TokenBody>,
                                 transport: TranslateRequest -> Reply<TranslationBody>,
                                 htmlDecode: string -> string)
    requires CacheValid(cache) && CacheValid(lockView)
    ensures CacheValid(Translate(s, cache, lockView, now, lockedNow, text, tokenTransport, transport, htmlDecode).cache)
  {
    if Present(text) && ModeOf(s) == RefreshFlow {
      var t := GetAccessToken(s, cache, lockView, now, lockedNow, tokenTransport);
      assert CacheValid(t.cache);
    }
  }

  /** Number of token requests among `sent`. */
  function TokenRequests(sent: seq<Sent>): nat
    decreases |sent|
  {
    if |sent| == 0 then 0 else (if sent[0].TokenSent? then 1 else 0) + TokenRequests(sent[1..])
  }

  /** Settings the factory accepted for Google never reach the
      "credentials are missing" branch. */
  lemma AcceptedSettingsHaveMode(s: Settings)
    requires s.kind == TranslatorType.Google && TranslatorFactory.TryCreate(s).ok
    ensures ModeOf(s) != Missing
  {
  }

  /** A refreshed token is reused: two calls one after the other, with no
      other call in between and the second before the margin of the new
      token's expiry, send at most one token request together. */
  lemma SequentialCallsRefreshOnce(s: Settings, cache: TokenCache, t1: int, t2: int, text1: string, text2: string,
                                   tokenTransport: TokenRequest -> Reply<TokenBody>,
                                   transport: TranslateRequest -> Reply<TranslationBody>,
                                   htmlDecode: string -> string)
    requires ModeOf(s) == RefreshFlow
    requires var c1 := Translate(s, cache, cache, t1, t1, text1, tokenTransport, transport, htmlDecode);
             Usable(c1.cache, t2)
    ensures var c1 := Translate(s, cache, cache, t1, t1, text1, tokenTransport, transport, htmlDecode);
            var c2 := Translate(s, c1.cache, c1.cache, t2, t2, text2, tokenTransport, transport, htmlDecode);
            TokenRequests(c2.sent) == 0 && c2.cache == c1.cache
  {
    var c1 := Translate(s, cache, cache, t1, t1, text1, tokenTransport, transport, htmlDecode);
    UsableCacheNotRefreshed(s, c1.cache, t2, text2, tokenTransport, transport, htmlDecode);
  }

  /** A call that finds a usable token sends no token request and keeps
      the cache. */
  lemma UsableCacheNotRefreshed(s: Settings, cache: TokenCache, now: int, text: string,
                                tokenTransport: TokenRequest -> Reply<TokenBody>,
                                transport: TranslateRequest -> Reply<TranslationBody>,
                                htmlDecode: string -> string)
    requires Usable(cache, now)
    ensures var c := Translate(s, cache, cache, now, now, text, tokenTransport, transport, htmlDecode);
            TokenRequests(c.sent) == 0 && c.cache == cache
  {
    var c := Translate(s, cache, cache, now, now, text, tokenTransport, transport, htmlDecode);
    if c.sent != [] {
      assert |c.sent| == 1 && c.sent[0].TranslateSent?;
      assert c.sent[1..] == [];
    }
  }

  /** A token that lives no longer than the 60-second margin is never
      reused: every later call asks for a new one. */
  lemma ShortLivedTokenNeverReused(s: Settings, cache: TokenCache, lockView: TokenCache, now: int, lockedNow: int,
                                   tokenTransport: TokenRequest -> Reply<TokenBody>, later: int)
    requires !Usable(cache, now) && !Usable(lockView, lockedNow)
    requires later >= lockedNow
    requires var t := GetAccessToken(s, cache, lockView, now, lockedNow, tokenTransport);
             t.outcome.Done? && !t.outcome.result.isError
    requires var r := tokenTransport(RefreshRequest(s));
             r.Response? && r.body.TokenFields? && ExpiresInSeconds(r.body.expiresIn) <= 60
    ensures !Usable(GetAccessToken(s, cache, lockView, now, lockedNow, tokenTransport).cache, later)
  {
  }
}

=== FILE: mainform.dfy ===
/** The OCR loop of the C# window (`MainForm`): the line normaliser, the
    text shown in the output box, starting and stopping the loop, and one
    pass of the loop. The window itself, the preview, the capture and the
    OCR engine are outside the model; what they deliver is an input. */
module MainForm {
  import Wrappers
  import opened Text
  import opened Geometry
  import opened Translation
  import TranslatorFactory
  import Deduplicator
  import TranscriptLogger

  /** `Environment.NewLine` on Windows. */
  const NewLine: string := "\r\n"

  predicate IsLf(c: char) {
    c == '\n'
  }

  /** A line break character. */
  predicate IsBreak(c: char) {
    c == '\r' || c == '\n'
  }

  /** Ordinal `string.Replace(pattern, replacement)`: occurrences are
      replaced left to right without overlapping. */
  function Replace(s: string, pattern: string, replacement: string): string
    requires |pattern| > 0
    decreases |s|
  {
    if StartsWith(s, pattern) then replacement + Replace(s[|pattern|..], pattern, replacement)
    else if |s| == 0 then ""
    else [s[0]] + Replace(s[1..], pattern, replacement)
  }

  /** The two replacements at the start of `NormalizeText`: CR LF, then any
      remaining CR, become LF. */
  function ToLf(s: string): string {
    Replace(Replace(s, "\r\n", "\n"), "\r", "\n")
  }

  /** A text whose characters never start the pattern is left unchanged,
      and so is the text in front of whatever follows it. */
  lemma {:induction false} ReplaceFreePrefix(a: string, t: string, pattern: string, replacement: string)
    requires |pattern| > 0
    requires forall i | 0 <= i < |a| :: a[i] != pattern[0]
    ensures Replace(a + t, pattern, replacement) == a + Replace(t, pattern, replacement)
    decreases |a|
  {
    if |a| == 0 {
      assert a + t == t;
    } else {
      var s := a + t;
      assert s[0] == a[0];
      assert !StartsWith(s, pattern) by {
        if |pattern| <= |s| {
          assert s[..|pattern|][0] == a[0];
        }
      }
      assert s[1..] == a[1..] + t;
      ReplaceFreePrefix(a[1..], t, pattern, replacement);
      assert Replace(s, pattern, replacement) == [a[0]] + Replace(s[1..], pattern, replacement);
      assert [a[0]] + (a[1..] + Replace(t, pattern, replacement)) == a + Replace(t, pattern, replacement);
    }
  }

  /** After the second replacement no carriage return is left. */
  lemma {:induction false} NoCrLeft(s: string)
    ensures forall i | 0 <= i < |Replace(s, "\r", "\n")| :: Replace(s, "\r", "\n")[i] != '\r'
    decreases |s|
  {
    if StartsWith(s, "\r") {
      NoCrLeft(s[1..]);
      var rest := Replace(s[1..], "\r", "\n");
      assert forall i | 1 <= i < |rest| + 1 :: ("\n" + rest)[i] == rest[i - 1];
    } else if |s| > 0 {
      NoCrLeft(s[1..]);
      var rest := Replace(s[1..], "\r", "\n");
      assert s[0] != '\r';
      assert forall i | 1 <= i < |rest| + 1 :: ([s[0]] + rest)[i] == rest[i - 1];
    }
  }

  /** A string is all white space exactly when both its parts are. */
  lemma AllWhiteConcat(a: string, b: string, white: char -> bool)
    ensures AllWhite(a + b, white) <==> AllWhite(a, white) && AllWhite(b, white)
  {
    var s := a + b;
    assert forall i | 0 <= i < |a| :: s[i] == a[i];
    assert forall i | 0 <= i < |b| :: s[|a| + i] == b[i];
  }

  /** Replacing white space by white space keeps a text blank or not blank. */
  lemma {:induction false} ReplaceKeepsBlank(s: string, pattern: string, replacement: string)
    requires |pattern| > 0 && AllWhite(pattern, CsWhite) && AllWhite(replacement, CsWhite)
    ensures AllWhite(Replace(s, pattern, replacement), CsWhite) <==> AllWhite(s, CsWhite)
    decreases |s|
  {
    if StartsWith(s, pattern) {
      var t := s[|pattern|..];
      ReplaceKeepsBlank(t, pattern, replacement);
      assert s == pattern + t;
      AllWhiteConcat(pattern, t, CsWhite);
      AllWhiteConcat(replacement, Replace(t, pattern, replacement), CsWhite);
    } else if |s| > 0 {
      ReplaceKeepsBlank(s[1..], pattern, replacement);
      assert s == [s[0]] + s[1..];
      AllWhiteConcat([s[0]], s[1..], CsWhite);
      AllWhiteConcat([s[0]], Replace(s[1..], pattern, replacement), CsWhite);
    }
  }

  /** `ToLf` keeps a text blank or not blank. */
  lemma ToLfKeepsBlank(s: string)
    ensures AllWhite(ToLf(s), CsWhite) <==> AllWhite(s, CsWhite)
  {
    assert CsWhite('\r') && CsWhite('\n');
    ReplaceKeepsBlank(s, "\r\n", "\n");
    ReplaceKeepsBlank(Replace(s, "\r\n", "\n"), "\r", "\n");
  }

  /** Lines without line breaks joined by CR LF come back joined by LF. */
  lemma {:induction false} ToLfJoin(lines: seq<string>)
    requires forall j | 0 <= j < |lines| :: Free(lines[j], IsBreak)
    ensures Replace(Join(NewLine, lines), "\r\n", "\n") == Join("\n", lines)
    decreases |lines|
  {
    if |lines| == 1 {
      ReplaceFreePrefix(lines[0], "", "\r\n", "\n");
      assert lines[0] + "" == lines[0];
    } else if |lines| > 1 {
      ToLfJoin(lines[1..]);
      var rest := Join(NewLine, lines[1..]);
      assert Join(NewLine, lines) == lines[0] + (NewLine + rest);
      ReplaceFreePrefix(lines[0], NewLine + rest, "\r\n", "\n");
      assert (NewLine + rest)[|NewLine|..] == rest;
      assert StartsWith(NewLine + rest, "\r\n");
    }
  }

  /** A text without carriage returns is left alone by the second replacement. */
  lemma ReplaceCrAbsent(s: string)
    requires forall i | 0 <= i < |s| :: s[i] != '\r'
    ensures Replace(s, "\r", "\n") == s
  {
    ReplaceFreePrefix(s, "", "\r", "\n");
    assert s + "" == s;
  }

  /** A join of lines without line breaks, by LF, has no carriage return. */
  lemma {:induction false} JoinLfNoCr(lines: seq<string>)
    requires forall j | 0 <= j < |lines| :: Free(lines[j], IsBreak)
    ensures forall i | 0 <= i < |Join("\n", lines)| :: Join("\n", lines)[i] != '\r'
    decreases |lines|
  {
    if |lines| > 1 {
      JoinLfNoCr(lines[1..]);
      var rest := Join("\n", lines[1..]);
      var s := lines[0] + "\n" + rest;
      assert forall i | 0 <= i < |lines[0]| :: s[i] == lines[0][i];
      assert forall i | |lines[0]| + 1 <= i < |s| :: s[i] == rest[i - |lines[0]| - 1];
    } else if |lines| == 1 {
      assert Free(lines[0], IsBreak);
    }
  }

  /** Lines without line breaks, joined by CR LF, normalise to LF joins. */
  lemma ToLfOfJoin(lines: seq<string>)
    requires forall j | 0 <= j < |lines| :: Free(lines[j], IsBreak)
    ensures ToLf(Join(NewLine, lines)) == Join("\n", lines)
  {
    ToLfJoin(lines);
    JoinLfNoCr(lines);
    ReplaceCrAbsent(Join("\n", lines));
  }

  /** `Select(line => line.Trim())`. */
  function TrimAll(parts: seq<string>): (r: seq<string>)
    ensures |r| == |parts|
    ensures forall j | 0 <= j < |parts| :: r[j] == Trim(parts[j], CsWhite)
    decreases |parts|
  {
    if |parts| == 0 then [] else [Trim(parts[0], CsWhite)] + TrimAll(parts[1..])
  }

  /** The lines `NormalizeText` keeps: split at LF with empty entries
      removed, each trimmed, the empty ones removed again. */
  function Lines(text: string): seq<string> {
    RemoveEmpty(TrimAll(RemoveEmpty(Split(ToLf(text), IsLf))))
  }

  /** A kept line: not empty, no white space at either end, no line break. */
  predicate PlainLine(line: string) {
    line != "" && NoEdgeWhite(line, CsWhite) && Free(line, IsBreak)
  }

  /** The private `NormalizeText` of the window: the kept lines joined by
      `Environment.NewLine`. */
  function NormalizeText(text: string): (r: string)
    ensures Lines(r) == Lines(text)
    ensures r == "" <==> AllWhite(text, CsWhite)
  {
    LinesPlain(text);
    LinesOfJoin(Lines(text));
    LinesNil(text);
    if Lines(text) != [] then JoinStartsWithFirst(NewLine, Lines(text)); Join(NewLine, Lines(text))
    else Join(NewLine, Lines(text))
  }

  /** A trimmed piece of a CR-free text is CR-free, and it has no LF when
      the piece has none. */
  lemma TrimmedPlain(part: string)
    requires Free(part, IsLf) && forall i | 0 <= i < |part| :: part[i] != '\r'
    ensures Free(Trim(part, CsWhite), IsBreak)
  {
    var r := Trim(part, CsWhite);
    var k := ContainsWitness(part, r);
    assert forall i | 0 <= i < |r| :: r[i] == part[k + i];
  }

  /** Every kept line is plain. */
  lemma LinesPlain(text: string)
    ensures forall j | 0 <= j < |Lines(text)| :: PlainLine(Lines(text)[j])
  {
    var s := ToLf(text);
    NoCrLeft(Replace(text, "\r\n", "\n"));
    var parts := RemoveEmpty(Split(s, IsLf));
    var trimmed := TrimAll(parts);
    forall j | 0 <= j < |trimmed|
      ensures Free(trimmed[j], IsBreak)
    {
      LfPiecePlain(s, parts[j]);
    }
  }

  /** A piece of a CR-free text split at LF trims to a line without breaks. */
  lemma LfPiecePlain(s: string, p: string)
    requires forall i | 0 <= i < |s| :: s[i] != '\r'
    requires p in Split(s, IsLf)
    ensures Free(Trim(p, CsWhite), IsBreak)
  {
    var m :| 0 <= m < |Split(s, IsLf)| && Split(s, IsLf)[m] == p;
    var k := ContainsWitness(s, p) by {
      JoinSplit(s, '\n', IsLf);
      JoinContainsPart(Split(s, IsLf), "\n", m);
    }
    assert forall i | 0 <= i < |p| :: p[i] == s[k + i];
    TrimmedPlain(p);
  }

  /** Every piece of a join occurs in it. */
  lemma {:induction false} JoinContainsPart(parts: seq<string>, sep: string, m: nat)
    requires m < |parts|
    ensures Contains(Join(sep, parts), parts[m])
    decreases |parts|
  {
    var s := Join(sep, parts);
    if |parts| == 1 {
      ContainsAt(s, parts[0], 0);
    } else if m == 0 {
      assert s == parts[0] + sep + Join(sep, parts[1..]);
      assert s[0..|parts[0]|] == parts[0];
      ContainsAt(s, parts[0], 0);
    } else {
      var rest := Join(sep, parts[1..]);
      JoinContainsPart(parts[1..], sep, m - 1);
      var k := ContainsWitness(rest, parts[m]);
      var off := |parts[0]| + |sep|;
      assert s == parts[0] + sep + rest;
      assert s[off + k..off + k + |parts[m]|] == rest[k..k + |parts[m]|];
      ContainsAt(s, parts[m], off + k);
    }
  }

  /** Dropping empty entries before trimming changes nothing: an empty
      entry trims to an empty one, which is dropped afterwards anyway. */
  lemma {:induction false} DropEmptyBeforeTrim(parts: seq<string>)
    ensures RemoveEmpty(TrimAll(RemoveEmpty(parts))) == RemoveEmpty(TrimAll(parts))
    decreases |parts|
  {
    if |parts| > 0 {
      DropEmptyBeforeTrim(parts[1..]);
      assert TrimAll(parts)[1..] == TrimAll(parts[1..]);
      if parts[0] == "" {
        assert Trim(parts[0], CsWhite) == "";
      } else {
        var r := RemoveEmpty(parts);
        assert r == [parts[0]] + RemoveEmpty(parts[1..]);
        assert TrimAll(r)[1..] == TrimAll(RemoveEmpty(parts[1..]));
      }
    }
  }

  /** Nothing survives the removal of empty entries exactly when every
      entry is empty. */
  lemma {:induction false} RemoveEmptyNil(parts: seq<string>)
    ensures RemoveEmpty(parts) == [] <==> forall j | 0 <= j < |parts| :: parts[j] == ""
    decreases |parts|
  {
    if |parts| > 0 {
      RemoveEmptyNil(parts[1..]);
      assert forall j | 1 <= j < |parts| :: parts[j] == parts[1..][j - 1];
    }
  }

  /** Every piece is blank. */
  predicate AllBlank(parts: seq<string>) {
    forall j | 0 <= j < |parts| :: AllWhite(parts[j], CsWhite)
  }

  /** A join with a white separator is blank exactly when every piece is. */
  lemma {:induction false} AllWhiteJoin(sep: string, parts: seq<string>)
    requires AllWhite(sep, CsWhite)
    ensures AllWhite(Join(sep, parts), CsWhite) <==> AllBlank(parts)
    decreases |parts|
  {
    if |parts| > 1 {
      AllWhiteJoin(sep, parts[1..]);
      var rest := Join(sep, parts[1..]);
      AllWhiteConcat(parts[0], sep, CsWhite);
      AllWhiteConcat(parts[0] + sep, rest, CsWhite);
      assert forall j | 1 <= j < |parts| :: parts[j] == parts[1..][j - 1];
    }
  }

  /** Trimming leaves no entry exactly when every entry is blank. */
  lemma TrimAllNil(parts: seq<string>)
    ensures RemoveEmpty(TrimAll(parts)) == [] <==> AllBlank(parts)
  {
    var trimmed := TrimAll(parts);
    RemoveEmptyNil(trimmed);
    assert forall j | 0 <= j < |parts| :: trimmed[j] == "" <==> AllWhite(parts[j], CsWhite);
  }

  /** Every piece between LFs is blank exactly when the whole text is. */
  lemma SplitLfBlank(s: string)
    ensures AllBlank(Split(s, IsLf)) <==> AllWhite(s, CsWhite)
  {
    JoinSplit(s, '\n', IsLf);
    AllWhiteJoin("\n", Split(s, IsLf));
  }

  /** The kept lines are none exactly when the OCR text was blank. */
  lemma LinesNil(text: string)
    ensures Lines(text) == [] <==> AllWhite(text, CsWhite)
  {
    var s := ToLf(text);
    var parts := Split(s, IsLf);
    calc {
      Lines(text) == [];
      { DropEmptyBeforeTrim(parts); }
      RemoveEmpty(TrimAll(parts)) == [];
      { TrimAllNil(parts); }
      AllBlank(parts);
      { SplitLfBlank(s); }
      AllWhite(s, CsWhite);
      { ToLfKeepsBlank(text); }
      AllWhite(text, CsWhite);
    }
  }

  /** The normalised text is empty exactly when the OCR text was blank. */
  lemma NormalizeTextBlank(text: string)
    ensures NormalizeText(text) == "" <==> AllWhite(text, CsWhite)
  {
    LinesNil(text);
    var lines := Lines(text);
    if lines != [] {
      LinesPlain(text);
      JoinStartsWithFirst(NewLine, lines);
    }
  }

  /** A join starts with its first piece. */
  lemma JoinStartsWithFirst(sep: string, parts: seq<string>)
    requires |parts| > 0
    ensures |Join(sep, parts)| >= |parts[0]|
  {
  }

  /** Trimming plain lines changes none of them. */
  lemma TrimAllPlain(lines: seq<string>)
    requires forall j | 0 <= j < |lines| :: PlainLine(lines[j])
    ensures TrimAll(lines) == lines
  {
    var t := TrimAll(lines);
    assert forall j | 0 <= j < |lines| :: t[j] == lines[j];
  }

  /** Plain lines joined by `Environment.NewLine` normalise back to
      themselves: `NormalizeText` recovers the lines of its own output. */
  lemma LinesOfJoin(lines: seq<string>)
    requires forall j | 0 <= j < |lines| :: PlainLine(lines[j])
    ensures Lines(Join(NewLine, lines)) == lines
  {
    if |lines| == 0 {
      assert Join(NewLine, lines) == "";
      assert ToLf("") == "";
      assert Split("", IsLf) == [""];
    } else {
      SplitOfJoin(lines);
      LinesOfPlainSplit(Join(NewLine, lines), lines);
    }
  }

  /** A text that splits into plain lines keeps exactly those lines. */
  lemma LinesOfPlainSplit(text: string, lines: seq<string>)
    requires Split(ToLf(text), IsLf) == lines
    requires forall j | 0 <= j < |lines| :: PlainLine(lines[j])
    ensures Lines(text) == lines
  {
    assert RemoveEmpty(lines) == lines;
    TrimAllPlain(lines);
  }

  /** Splitting the LF form of CR LF-joined plain lines gives the lines. */
  lemma SplitOfJoin(lines: seq<string>)
    requires |lines| > 0
    requires forall j | 0 <= j < |lines| :: PlainLine(lines[j])
    ensures Split(ToLf(Join(NewLine, lines)), IsLf) == lines
  {
    forall j | 0 <= j < |lines|
      ensures Free(lines[j], IsLf)
    {
      assert Free(lines[j], IsBreak);
    }
    ToLfOfJoin(lines);
    SplitJoin(lines, '\n', IsLf);
  }

  /** The normaliser keeps the same lines when applied to its own output,
      so normalising twice is normalising once. */
  lemma NormalizeTextIdempotent(text: string)
    ensures Lines(NormalizeText(text)) == Lines(text)
    ensures NormalizeText(NormalizeText(text)) == NormalizeText(text)
  {
    LinesPlain(text);
    LinesOfJoin(Lines(text));
  }

  /** `FormatOutputText`: without a translator only the source is shown;
      otherwise a `[SRC]` block and a `[TRN]` block separated by an empty
      line. */
  function FormatOutputText(kind: TranslatorType, sourceText: string, translatedText: string): (r: string)
    ensures kind == TranslatorType.None ==> r == sourceText
    ensures kind != TranslatorType.None ==>
              && StartsWith(r, "[SRC]" + NewLine + sourceText + NewLine)
              && EndsWith(r, NewLine + "[TRN]" + NewLine + translatedText)
              && |r| == |sourceText| + |translatedText| + 18
  {
    if kind == TranslatorType.None then sourceText
    else
      var head := "[SRC]" + NewLine + sourceText + NewLine;
      var tail := NewLine + "[TRN]" + NewLine + translatedText;
      assert (head + tail)[..|head|] == head;
      assert (head + tail)[|head + tail| - |tail|..] == tail;
      head + tail
  }

  /** The output box gives back both texts: the source sits after the
      seven characters of `[SRC]` and its line break, and the translation
      is everything after the `[TRN]` line. */
  lemma FormatOutputRecovers(kind: TranslatorType, sourceText: string, translatedText: string)
    requires kind != TranslatorType.None
    ensures var r := FormatOutputText(kind, sourceText, translatedText);
            && r[7..7 + |sourceText|] == sourceText
            && r[7 + |sourceText| + 11..] == translatedText
  {
    var r := FormatOutputText(kind, sourceText, translatedText);
    var head := "[SRC]" + NewLine + sourceText + NewLine;
    assert r[..|head|] == head;
    assert r[7..7 + |sourceText|] == head[7..7 + |sourceText|];
    assert r[|r| - |translatedText|..] == translatedText;
  }

  /** Two boxes that read the same, with sources of the same length, were
      made from the same source and the same translation. */
  lemma FormatOutputInjective(kind: TranslatorType, source1: string, translated1: string,
                              source2: string, translated2: string)
    requires kind != TranslatorType.None && |source1| == |source2|
    requires FormatOutputText(kind, source1, translated1) == FormatOutputText(kind, source2, translated2)
    ensures source1 == source2 && translated1 == translated2
  {
    FormatOutputRecovers(kind, source1, translated1);
    FormatOutputRecovers(kind, source2, translated2);
  }

  /** The OCR engine's `EngineName`. */
  const OcrEngineName: string := "WindowsOCR"

  /** The status messages of the window. */
  const ReadyMessage: string := "Ready. Select OBS window and click Attach."
  const AttachFirstMessage: string := "Attach a window first."
  const AlreadyRunningMessage: string := "OCR loop is already running."
  const RoiNotSetMessage: string := "ROI is not set. Drag the dialogue area on preview."
  const StoppedMessage: string := "OCR stopped."

  /** An open transcript session: the logger's settings and counters. */
  datatype Session = Session(cfg: TranscriptLogger.Config, st: TranscriptLogger.Logger)

  /** The window state the loop reads and writes. `handle == 0` is
      `IntPtr.Zero`; `running` is `_ocrLoopCts is not null`; `output` is
      the text of the current-OCR box. */
  datatype App = App(
    handle: int, title: string, roi: Rect, running: bool,
    translator: Translator, currentType: TranslatorType,
    dedup: Deduplicator.Gate, logger: Wrappers.Option<Session>,
    status: string, output: string)

  /** The window as the constructor leaves it. */
  function Initial(): (a: App)
    ensures a.handle == 0 && !a.running && a.translator == Identity && a.logger.None?
    ensures !a.roi.HasArea() && a.status == ReadyMessage
  {
    App(0, "", Rect(0, 0, 0, 0), false, Identity, TranslatorType.None,
        Deduplicator.Default(), Wrappers.None, ReadyMessage, "")
  }

  /** The raw text boxes of the translation panel. */
  datatype Boxes = Boxes(
    kind: TranslatorType, language: string, targetLanguage: string,
    deepLApiKey: string,
    googleApiKey: string, googleAccessToken: string, googleProjectId: string,
    googleClientId: string, googleClientSecret: string, googleRefreshToken: string,
    papagoClientId: string, papagoClientSecret: string)

  /** A trimmed text box (`.Text.Trim()`): it holds a value exactly when
      the raw box does, and a box without surrounding white space is taken
      as it is. */
  function Field(raw: string): (r: string)
    ensures NoEdgeWhite(r, CsWhite)
    ensures Present(r) <==> Present(raw)
    ensures NoEdgeWhite(raw, CsWhite) ==> r == raw
  {
    TrimmedPresent(raw);
    Trim(raw, CsWhite)
  }

  /** A language box: its default when blank, else its trimmed text. */
  function Language(raw: string, default: string): (r: string)
    requires default != "" && NoEdgeWhite(default, CsWhite)
    ensures r != "" && NoEdgeWhite(r, CsWhite)
    ensures !Present(raw) ==> r == default
    ensures Present(raw) ==> r == Field(raw)
  {
    if AllWhite(raw, CsWhite) then default else Field(raw)
  }

  /** `BuildTranslationSettings`: blank languages fall back to Japanese and
      Korean, every other box is trimmed. */
  function BuildTranslationSettings(b: Boxes): (s: Settings)
    ensures s.kind == b.kind
    ensures s.sourceLanguage == Language(b.language, "ja") && s.targetLanguage == Language(b.targetLanguage, "ko")
    ensures s.deepLApiKey == Field(b.deepLApiKey)
    ensures s.googleApiKey == Field(b.googleApiKey) && s.googleAccessToken == Field(b.googleAccessToken)
    ensures s.googleProjectId == Field(b.googleProjectId) && s.googleClientId == Field(b.googleClientId)
    ensures s.googleClientSecret == Field(b.googleClientSecret)
    ensures s.googleRefreshToken == Field(b.googleRefreshToken)
    ensures s.papagoClientId == Field(b.papagoClientId) && s.papagoClientSecret == Field(b.papagoClientSecret)
  {
    DefaultLanguagesPlain();
    Settings(b.kind, Language(b.language, "ja"), Language(b.targetLanguage, "ko"),
             Field(b.deepLApiKey),
             Field(b.googleApiKey), Field(b.googleAccessToken), Field(b.googleProjectId),
             Field(b.googleClientId), Field(b.googleClientSecret), Field(b.googleRefreshToken),
             Field(b.papagoClientId), Field(b.papagoClientSecret))
  }

  /** Surrounding white space in the boxes never decides whether the
      factory accepts the settings. */
  lemma PaddingIrrelevant(b: Boxes, padded: Boxes)
    requires padded.kind == b.kind
    requires Present(padded.deepLApiKey) <==> Present(b.deepLApiKey)
    requires Present(padded.googleApiKey) <==> Present(b.googleApiKey)
    requires Present(padded.googleAccessToken) <==> Present(b.googleAccessToken)
    requires Present(padded.googleProjectId) <==> Present(b.googleProjectId)
    requires Present(padded.googleClientId) <==> Present(b.googleClientId)
    requires Present(padded.googleClientSecret) <==> Present(b.googleClientSecret)
    requires Present(padded.googleRefreshToken) <==> Present(b.googleRefreshToken)
    requires Present(padded.papagoClientId) <==> Present(b.papagoClientId)
    requires Present(padded.papagoClientSecret) <==> Present(b.papagoClientSecret)
    ensures TranslatorFactory.Accepts(BuildTranslationSettings(padded)) <==> TranslatorFactory.Accepts(BuildTranslationSettings(b))
  {
    var s := BuildTranslationSettings(b);
    var t := BuildTranslationSettings(padded);
    assert SamePresence(t, s);
    TranslatorFactory.AcceptsByPresence(t, s);
  }

  /** The default language codes have no white space at their ends. */
  lemma DefaultLanguagesPlain()
    ensures "ja" != "" && NoEdgeWhite("ja", CsWhite)
    ensures "ko" != "" && NoEdgeWhite("ko", CsWhite)
  {
    assert "ja"[0] == 'j' && "ja"[1] == 'a';
    assert "ko"[0] == 'k' && "ko"[1] == 'o';
  }

  /** A trimmed box holds a value exactly when the raw box does. */
  lemma TrimmedPresent(raw: string)
    ensures Present(Trim(raw, CsWhite)) <==> Present(raw)
  {
    var t := Trim(raw, CsWhite);
    if t != "" {
      assert !CsWhite(t[0]);
    }
  }

  /** `StartOcrLoop` with the settings built from the boxes, the "source
      only" check box and the session directory the new logger creates. The
      checks run in order; note that the translator is already replaced when
      the ROI check fails. */
  function StartOcrLoop(app: App, settings: Settings, sourceOnly: bool, sessionDir: string): (r: App)
    ensures app.handle == 0 ==> r == app.(status := AttachFirstMessage)
    ensures app.handle != 0 && app.running ==> r == app.(status := AlreadyRunningMessage)
    ensures app.handle != 0 && !app.running && !TranslatorFactory.Accepts(settings) ==>
              r == app.(status := TranslatorFactory.TryCreate(settings).error)
    ensures app.handle != 0 && !app.running && TranslatorFactory.Accepts(settings) ==>
              && r.translator == TranslatorFactory.TryCreate(settings).translator
              && r.currentType == settings.kind
    ensures app.handle != 0 && !app.running && TranslatorFactory.Accepts(settings) && !app.roi.HasArea() ==>
              !r.running && r.status == RoiNotSetMessage && r.logger == app.logger && r.dedup == app.dedup
    ensures r.running <==> app.running || (app.handle != 0 && TranslatorFactory.Accepts(settings) && app.roi.HasArea())
    ensures r.running && !app.running ==>
              && r.dedup == Deduplicator.Default()
              && r.logger == Wrappers.Some(Session(TranscriptLogger.NewConfig(
                   settings.sourceLanguage, settings.targetLanguage, OcrEngineName + "+" + Name(r.translator),
                   app.title, app.handle, app.roi, Wrappers.Some(sourceOnly), Wrappers.None, Wrappers.None),
                   TranscriptLogger.Fresh))
              && r.status == "OCR started (" + Name(r.translator) + "). Session: " + sessionDir
    ensures r.handle == app.handle && r.title == app.title && r.roi == app.roi && r.output == app.output
  {
    if app.handle == 0 then app.(status := AttachFirstMessage)
    else if app.running then app.(status := AlreadyRunningMessage)
    else
      var created := TranslatorFactory.TryCreate(settings);
      if !created.ok then app.(status := created.error)
      else
        var chosen := app.(translator := created.translator, currentType := settings.kind);
        if !chosen.roi.HasArea() then chosen.(status := RoiNotSetMessage)
        else
          var name := Name(created.translator);
          var cfg := TranscriptLogger.NewConfig(settings.sourceLanguage, settings.targetLanguage,
                                                OcrEngineName + "+" + name, app.title, app.handle, app.roi,
                                                Wrappers.Some(sourceOnly), Wrappers.None, Wrappers.None);
          chosen.(logger := Wrappers.Some(Session(cfg, TranscriptLogger.Fresh)),
                  dedup := Deduplicator.Default(), running := true,
                  status := "OCR started (" + name + "). Session: " + sessionDir)
  }

  /** `StopOcrLoopAsync` once the loop task has ended: a stopped window is
      left as it is; otherwise the session is closed, the translator is
      reset and the status reads "OCR stopped.". */
  function StopOcrLoop(app: App): (r: App)
    ensures !app.running ==> r == app
    ensures app.running ==>
              && !r.running && r.logger.None? && r.translator == Identity
              && r.currentType == TranslatorType.None && r.status == StoppedMessage
    ensures r.handle == app.handle && r.roi == app.roi && r.dedup == app.dedup && r.output == app.output
  {
    if !app.running then app
    else app.(running := false, logger := Wrappers.None, translator := Identity,
              currentType := TranslatorType.None, status := StoppedMessage)
  }

  /** A stopped window can be started again with the same inputs, and
      starting a running window changes nothing but the status. */
  lemma StopThenStart(app: App, settings: Settings, sourceOnly: bool, sessionDir: string)
    requires app.running
    ensures StartOcrLoop(app, settings, sourceOnly, sessionDir).translator == app.translator
    ensures var again := StartOcrLoop(StopOcrLoop(app), settings, sourceOnly, sessionDir);
            again.running <==> app.handle != 0 && TranslatorFactory.Accepts(settings) && app.roi.HasArea()
  {
  }

  /** The frame the preview holds, by its size. */
  datatype Frame = Frame(width: int, height: int)

  /** How `RecognizeAsync` ends: with text, with an exception, or with an
      `OperationCanceledException`. */
  datatype OcrReply = Read(text: string) | OcrFaulted(message: string) | OcrCanceled(message: string)

  /** What a pass of the loop did. */
  datatype LoopEffect =
    | NoFrame
    | NoRoi
    | Quiet(text: string)
    | Shown(text: string, translated: string)
    | Failed(message: string)
    | Ended

  /** How the body of the `try` ends: normally with the window updated, or
      with an `OperationCanceledException` after the gate has already
      remembered the text. */
  datatype TryEnd = Completed(app: App, effect: LoopEffect) | Threw(app: App, message: string)

  /** The crop handed to OCR: the ROI clamped to the frame. */
  function CropRect(roi: Rect, frame: Frame): Rect {
    ClampToBounds(roi, Rect(0, 0, frame.width, frame.height))
  }

  /** The translation shown and logged: the translator's text, or the
      source when that is blank. */
  function Displayed(text: string, result: TranslateResult): (t: string)
    ensures AllWhite(result.text, CsWhite) ==> t == text
    ensures !AllWhite(result.text, CsWhite) ==> t == result.text
  {
    if AllWhite(result.text, CsWhite) then text else result.text
  }

  /** The body of the `try` in `OcrLoopAsync`, for a frame and a set ROI.
      The clock is read twice: `now` by the gate before the translation,
      `logNow` by the transcript logger after it returns. */
  function TryBody(app: App, frame: Frame, ocr: Rect -> OcrReply, translate: string -> Outcome, now: int, logNow: int): (b: TryEnd)
    requires app.roi.HasArea()
    ensures b.app.handle == app.handle && b.app.roi == app.roi && b.app.running == app.running
    ensures b.app.translator == app.translator && b.app.currentType == app.currentType
  {
    match ocr(CropRect(app.roi, frame))
    case OcrFaulted(message) => Completed(app.(status := "OCR error: " + message), Failed(message))
    case OcrCanceled(message) => Threw(app, message)
    case Read(raw) =>
      var text := NormalizeText(raw);
      var verdict := Deduplicator.ShouldEmit(app.dedup, text, now);
      if !verdict.emit then Completed(app, Quiet(text))
      else
        var gated := app.(dedup := verdict.next);
        match translate(text)
        case Cancelled(message) => Threw(gated, message)
        case Done(result) =>
          var translated := Displayed(text, result);
          var logger := match app.logger
                        case None => Wrappers.None
                        case Some(session) =>
                          Wrappers.Some(session.(st := TranscriptLogger.Log(session.cfg, session.st, text,
                                                                             Wrappers.Some(translated), logNow).next));
          var shown := gated.(logger := logger, output := FormatOutputText(app.currentType, text, translated));
          Completed(if result.isError then shown.(status := result.errorMessage) else shown,
                    Shown(text, translated))
  }

  /** One pass of the loop: the next window state, what happened and
      whether the loop goes on. */
  datatype Turn = Turn(next: App, effect: LoopEffect, continues: bool)

  /** A pass of `OcrLoopAsync` as written: any `OperationCanceledException`
      inside the `try` ends the loop, whether or not cancellation was
      requested. `cancelRequested` is the token's state during the pass;
      a requested cancellation also ends the loop at the delay that
      closes the pass. */
  function CycleAsWritten(app: App, frame: Wrappers.Option<Frame>, ocr: Rect -> OcrReply,
                          translate: string -> Outcome, now: int, logNow: int, cancelRequested: bool): (t: Turn)
    ensures frame.None? ==> t == Turn(app, NoFrame, !cancelRequested)
    ensures frame.Some? && !app.roi.HasArea() ==> t == Turn(app, NoRoi, !cancelRequested)
    ensures t.effect.Ended? <==> frame.Some? && app.roi.HasArea() && TryBody(app, frame.value, ocr, translate, now, logNow).Threw?
    ensures t.continues <==> !t.effect.Ended? && !cancelRequested
  {
    match frame
    case None => Turn(app, NoFrame, !cancelRequested)
    case Some(f) =>
      if !app.roi.HasArea() then Turn(app, NoRoi, !cancelRequested)
      else
        match TryBody(app, f, ocr, translate, now, logNow)
        case Threw(next, _) => Turn(next, Ended, false)
        case Completed(next, effect) => Turn(next, effect, !cancelRequested)
  }

  /** A pass with the evidently intended filter: an
      `OperationCanceledException` ends the loop only when the token asked
      for it (`catch (OperationCanceledException) when
      (token.IsCancellationRequested)`); any other one, such as the HTTP
      client's timeout, is reported like every other error. */
  function Cycle(app: App, frame: Wrappers.Option<Frame>, ocr: Rect -> OcrReply,
                 translate: string -> Outcome, now: int, logNow: int, cancelRequested: bool): (t: Turn)
    ensures frame.None? ==> t == Turn(app, NoFrame, !cancelRequested)
    ensures frame.Some? && !app.roi.HasArea() ==> t == Turn(app, NoRoi, !cancelRequested)
    ensures t.effect.Ended? ==> cancelRequested
    ensures !t.continues ==> cancelRequested
    ensures !cancelRequested ==> t.continues
  {
    match frame
    case None => Turn(app, NoFrame, !cancelRequested)
    case Some(f) =>
      if !app.roi.HasArea() then Turn(app, NoRoi, !cancelRequested)
      else
        match TryBody(app, f, ocr, translate, now, logNow)
        case Threw(next, message) =>
          if cancelRequested then Turn(next, Ended, false)
          else Turn(next.(status := "OCR error: " + message), Failed(message), true)
        case Completed(next, effect) => Turn(next, effect, !cancelRequested)
  }

  /** As written, a translation that ends with an `OperationCanceledException`
      while nobody asked to cancel (the 12-second HTTP timeout surfaces as
      one) stops the loop for good, while the window still counts as
      running, so a new start is refused until the user stops it. */
  lemma TimeoutEndsLoop(app: App, frame: Frame, raw: string, ocr: Rect -> OcrReply,
                        translate: string -> Outcome, now: int, logNow: int, settings: Settings, sourceOnly: bool,
                        sessionDir: string)
    requires app.running && app.handle != 0 && app.roi.HasArea()
    requires ocr(CropRect(app.roi, frame)) == Read(raw)
    requires Deduplicator.ShouldEmit(app.dedup, NormalizeText(raw), now).emit
    requires translate(NormalizeText(raw)).Cancelled?
    ensures var t := CycleAsWritten(app, Wrappers.Some(frame), ocr, translate, now, logNow, false);
            && !t.continues && t.effect.Ended? && t.next.running
            && StartOcrLoop(t.next, settings, sourceOnly, sessionDir).status == AlreadyRunningMessage
  {
    var b := TryBody(app, frame, ocr, translate, now, logNow);
    assert b.Threw? && b.app.running && b.app.handle == app.handle;
  }

  /** With the intended filter the same pass reports the timeout in the
      status bar and the loop goes on. */
  lemma TimeoutReported(app: App, frame: Frame, raw: string, ocr: Rect -> OcrReply,
                        translate: string -> Outcome, now: int, logNow: int)
    requires app.roi.HasArea()
    requires ocr(CropRect(app.roi, frame)) == Read(raw)
    requires Deduplicator.ShouldEmit(app.dedup, NormalizeText(raw), now).emit
    requires translate(NormalizeText(raw)).Cancelled?
    ensures var t := Cycle(app, Wrappers.Some(frame), ocr, translate, now, logNow, false);
            && t.continues && t.effect == Failed(translate(NormalizeText(raw)).message)
            && t.next.status == "OCR error: " + translate(NormalizeText(raw)).message
  {
  }

  /** The two passes differ only when a cancellation nobody requested
      escapes: with the token cancelled, or without any escaping
      cancellation, they agree. */
  lemma CycleAgreesOtherwise(app: App, frame: Wrappers.Option<Frame>, ocr: Rect -> OcrReply,
                             translate: string -> Outcome, now: int, logNow: int, cancelRequested: bool)
    requires cancelRequested || !CycleAsWritten(app, frame, ocr, translate, now, logNow, cancelRequested).effect.Ended?
    ensures Cycle(app, frame, ocr, translate, now, logNow, cancelRequested)
            == CycleAsWritten(app, frame, ocr, translate, now, logNow, cancelRequested)
  {
  }

  /** A pass that shows a text writes exactly one transcript entry for the
      normalised text, with the blank-translation fallback applied. */
  lemma ShownPassLogsOnce(app: App, frame: Wrappers.Option<Frame>, ocr: Rect -> OcrReply,
                          translate: string -> Outcome, now: int, logNow: int, cancelRequested: bool)
    requires app.logger.Some?
    ensures var t := Cycle(app, frame, ocr, translate, now, logNow, cancelRequested);
            t.effect.Shown? ==>
              && t.next.logger.Some?
              && t.next.logger.value.st.entryId == app.logger.value.st.entryId + 1
              && t.next.logger.value.st.lastText == t.effect.text
              && t.next.logger.value.st.lastEventAt == Wrappers.Some(logNow)
              && t.next.output == FormatOutputText(app.currentType, t.effect.text, t.effect.translated)
              && t.effect.text != "" && PlainText(t.effect.text)
  {
    var t := Cycle(app, frame, ocr, translate, now, logNow, cancelRequested);
    if t.effect.Shown? {
      var raw := ocr(CropRect(app.roi, frame.value)).text;
      var text := NormalizeText(raw);
      var result := translate(text).result;
      ShownText(app, frame.value, ocr, translate, now, logNow, raw, result);
      NormalizeTextIdempotent(raw);
    }
  }

  /** The body for an OCR text `raw` that the gate lets through and a
      translator that answers `result`. */
  lemma ShownText(app: App, frame: Frame, ocr: Rect -> OcrReply, translate: string -> Outcome, now: int, logNow: int,
                  raw: string, result: TranslateResult)
    requires app.roi.HasArea() && app.logger.Some?
    requires ocr(CropRect(app.roi, frame)) == Read(raw)
    requires Deduplicator.ShouldEmit(app.dedup, NormalizeText(raw), now).emit
    requires translate(NormalizeText(raw)) == Done(result)
    ensures var b := TryBody(app, frame, ocr, translate, now, logNow);
            var text := NormalizeText(raw);
            && b.Completed?
            && b.effect == Shown(text, Displayed(text, result))
            && b.app.logger.Some?
            && b.app.logger.value.st.entryId == app.logger.value.st.entryId + 1
            && b.app.logger.value.st.lastText == text
            && b.app.logger.value.st.lastEventAt == Wrappers.Some(logNow)
            && b.app.output == FormatOutputText(app.currentType, text, Displayed(text, result))
            && text != ""
  {
    var text := NormalizeText(raw);
    assert !AllWhite(text, CsWhite);
    var session := app.logger.value;
    var logged := TranscriptLogger.Log(session.cfg, session.st, text, Wrappers.Some(Displayed(text, result)), logNow);
    assert logged.next.entryId == session.st.entryId + 1 && logged.next.lastText == text;
    assert logged.next.lastEventAt == Wrappers.Some(logNow);
  }

  /** Text in the form `NormalizeText` produces: its own normal form. */
  predicate PlainText(text: string) {
    NormalizeText(text) == text
  }

  /** A pass that shows nothing leaves the gate, the transcript and the
      output box alone. */
  lemma QuietPassKeepsState(app: App, frame: Wrappers.Option<Frame>, ocr: Rect -> OcrReply,
                            translate: string -> Outcome, now: int, logNow: int, cancelRequested: bool)
    ensures var t := Cycle(app, frame, ocr, translate, now, logNow, cancelRequested);
            t.effect.NoFrame? || t.effect.NoRoi? || t.effect.Quiet? ==>
              t.next == app
  {
  }

  /** A translation that comes back blank is replaced by the source text,
      both in the output box and in the transcript. */
  lemma BlankTranslationFallsBack(app: App, frame: Frame, raw: string, ocr: Rect -> OcrReply,
                                  translate: string -> Outcome, now: int, logNow: int, cancelRequested: bool)
    requires app.roi.HasArea()
    requires ocr(CropRect(app.roi, frame)) == Read(raw)
    requires Deduplicator.ShouldEmit(app.dedup, NormalizeText(raw), now).emit
    requires translate(NormalizeText(raw)).Done?
    requires AllWhite(translate(NormalizeText(raw)).result.text, CsWhite)
    ensures Cycle(app, Wrappers.Some(frame), ocr, translate, now, logNow, cancelRequested).effect
            == Shown(NormalizeText(raw), NormalizeText(raw))
  {
  }
}

=== FILE: py_logger.dfy ===
/** The Python session logger (`logger.TranscriptLogger`): both texts are
    stripped, an empty source is a `ValueError`, and the window rule is the
    C# one with difflib's ratio (a parameter here) in place of the
    edit-distance similarity. */
module PyLogger {
  import opened Wrappers
  import opened Text
  import opened TranscriptLines
  import TranscriptLogger
  import TextSimilarity

  /** Constructor defaults: translations are written, 1.6 s and 0.72. */
  const DefaultSourceOnly: bool := false
  const DefaultWindowMergeMs: int := 1600
  const DefaultSameWindowSimilarity: real := 0.72

  datatype Config = Config(sourceLang: string, targetLang: string, sourceOnly: bool,
                           windowMergeMs: int, sameWindowSimilarity: real)

  /** The counters; `lastEventAt` is a monotonic-clock reading, 0 before
      the first entry. */
  datatype Logger = Logger(entryId: nat, windowId: nat, lastText: string, lastEventAt: int)

  const Fresh: Logger := Logger(0, 0, "", 0)

  /** The returned `LogEntry`; `at` is the wall-clock reading its
      timestamp is formatted from. */
  datatype LogEntry = LogEntry(entryId: nat, windowId: nat, at: int, sourceText: string, translatedText: string)

  /** What a successful call leaves behind. */
  datatype Logged = Logged(next: Logger, entry: LogEntry, lines: seq<TxtLine>)

  /** The message of the `ValueError` raised for an empty source. */
  const EmptySourceMessage: string := "Cannot log empty source text"

  predicate Valid(st: Logger) {
    && st.windowId <= st.entryId
    && NoEdgeWhite(st.lastText, PyWhite)
    && (st.entryId == 0 <==> st.lastText == "")
    && (st.entryId > 0 ==> st.windowId > 0)
  }

  /** `_is_new_window`: no previous text, then a gap longer than the merge
      gap, then containment either way, then a ratio below the threshold. */
  function IsNewWindow(cfg: Config, st: Logger, text: string, now: int, ratio: (string, string) -> real): (r: bool)
    ensures st.lastText == "" ==> r
    ensures (st.lastText != "" && now - st.lastEventAt > cfg.windowMergeMs) ==> r
    ensures (st.lastText != "" && now - st.lastEventAt <= cfg.windowMergeMs)
            ==> (r <==> !Contains(st.lastText, text) && !Contains(text, st.lastText)
                        && ratio(st.lastText, text) < cfg.sameWindowSimilarity)
  {
    if st.lastText == "" then true
    else if now - st.lastEventAt > cfg.windowMergeMs then true
    else if Contains(st.lastText, text) || Contains(text, st.lastText) then false
    else if ratio(st.lastText, text) >= cfg.sameWindowSimilarity then false
    else true
  }

  /** `log(source_text, translated_text)`. The call reads two clocks:
      `datetime.now()` (`wall`), which stamps the entry and its header, and
      `time.monotonic()` (`mono`), which the window rule measures gaps on
      and the logger remembers. */
  function Log(cfg: Config, st: Logger, sourceText: string, translatedText: string, wall: int, mono: int,
               ratio: (string, string) -> real): (r: Result<Logged, string>)
    ensures r.Failure? <==> AllWhite(sourceText, PyWhite)
    ensures r.Failure? ==> r.error == EmptySourceMessage
    ensures r.Success? ==>
      var src := Trim(sourceText, PyWhite);
      var trn := Trim(translatedText, PyWhite);
      var opens := IsNewWindow(cfg, st, src, mono, ratio);
      && r.value.next == Logger(st.entryId + 1, st.windowId + (if opens then 1 else 0), src, mono)
      && r.value.entry == LogEntry(r.value.next.entryId, r.value.next.windowId, wall, src, trn)
      && Laid(r.value.lines, EntryBlock(cfg, r.value.entry), opens)
      && CountMarkers(r.value.lines) == (if opens then 1 else 0)
      && CountHeaders(r.value.lines) == 1
    ensures r.Success? && Valid(st) ==> Valid(r.value.next)
  {
    var src := Trim(sourceText, PyWhite);
    var trn := Trim(translatedText, PyWhite);
    if src == "" then Failure(EmptySourceMessage)
    else
      var opens := IsNewWindow(cfg, st, src, mono, ratio);
      var windowId := st.windowId + (if opens then 1 else 0);
      var entry := LogEntry(st.entryId + 1, windowId, wall, src, trn);
      var lines := EntryLines(EntryBlock(cfg, entry), opens);
      EntryCounts(EntryBlock(cfg, entry), opens);
      Success(Logged(Logger(entry.entryId, windowId, src, mono), entry, lines))
  }

  /** What `_append_text` writes for an entry. */
  function EntryBlock(cfg: Config, entry: LogEntry): Block {
    Block(entry.entryId, entry.windowId, entry.at, cfg.sourceLang, entry.sourceText,
          cfg.targetLang, entry.translatedText, cfg.sourceOnly)
  }

  /** Text that differs from the previous entry only in surrounding white
      space, within the merge gap, stays in the previous window. */
  lemma PaddedRepeatStaysInWindow(cfg: Config, st: Logger, pad1: string, pad2: string, wall: int, now: int,
                                  ratio: (string, string) -> real)
    requires Valid(st) && st.entryId > 0
    requires AllWhite(pad1, PyWhite) && AllWhite(pad2, PyWhite)
    requires now - st.lastEventAt <= cfg.windowMergeMs
    ensures var r := Log(cfg, st, pad1 + st.lastText + pad2, "", wall, now, ratio);
            r.Success? && r.value.next.windowId == st.windowId && r.value.entry.sourceText == st.lastText
  {
    PaddedTextStrips(pad1, st.lastText, pad2);
    RepeatStaysInWindow(cfg, st, now, ratio);
  }

  /** A non-empty text without edge white space, padded with white space,
      is not blank and strips back to itself. */
  lemma PaddedTextStrips(pad1: string, t: string, pad2: string)
    requires AllWhite(pad1, PyWhite) && AllWhite(pad2, PyWhite)
    requires t != "" && NoEdgeWhite(t, PyWhite)
    ensures !AllWhite(pad1 + t + pad2, PyWhite) && Trim(pad1 + t + pad2, PyWhite) == t
  {
    var s := pad1 + t + pad2;
    TrimPadded(pad1, t, pad2, PyWhite);
    assert s[|pad1|] == t[0] && !PyWhite(s[|pad1|]);
  }

  /** Within the merge gap the previous text itself never opens a window. */
  lemma RepeatStaysInWindow(cfg: Config, st: Logger, now: int, ratio: (string, string) -> real)
    requires st.lastText != "" && now - st.lastEventAt <= cfg.windowMergeMs
    ensures !IsNewWindow(cfg, st, st.lastText, now, ratio)
  {
    ContainsAt(st.lastText, st.lastText, 0);
  }

  /** The Python rule agrees with the C# rule whenever the ratio agrees
      with the edit-distance similarity and both loggers remember the same
      text from the same moment. */
  lemma AgreesWithCSharpRule(cfg: Config, st: Logger, csCfg: TranscriptLogger.Config,
                             csSt: TranscriptLogger.Logger, text: string, now: int,
                             ratio: (string, string) -> real)
    requires Valid(st) && TranscriptLogger.Valid(csSt)
    requires csSt.lastText == st.lastText && csSt.entryId == st.entryId
    requires st.entryId > 0 ==> csSt.lastEventAt == Some(st.lastEventAt)
    requires csCfg.windowMergeGapMs == cfg.windowMergeMs
    requires csCfg.sameWindowSimilarity == cfg.sameWindowSimilarity
    requires ratio(st.lastText, text) == TextSimilarity.Similarity(st.lastText, text)
    ensures IsNewWindow(cfg, st, text, now, ratio) == TranscriptLogger.IsNewDialogueWindow(csCfg, csSt, text, now)
  {
    if st.lastText != "" {
      assert !AllWhite(st.lastText, CsWhite) by {
        assert !PyWhite(st.lastText[0]);
      }
    }
  }
}

=== FILE: py_ocr.dfy ===
/** The text side of the Python OCR engine (`ocr_engine.py`): language
    mapping, reading one PaddleOCR item, the confidence filter and the
    white-space normaliser. The engine itself and the image preprocessing
    are outside the model; its raw result is an input. */
module PyOcr {
  import opened Wrappers
  import opened Text

  /** Default `OCRConfig.min_confidence`. */
  const DefaultMinConfidence: real := 0.45

  /** `_LANG_MAP`. */
  const LangMap: map<string, string> := map["ja" := "japan", "ko" := "korean", "en" := "en", "ch" := "ch"]

  /** `_LANG_MAP.get(lang.lower(), lang)`. */
  function PaddleLang(lang: string): (r: string)
    ensures Lower(lang) in LangMap ==> r == LangMap[Lower(lang)]
    ensures Lower(lang) !in LangMap ==> r == lang
  {
    var key := Lower(lang);
    if key in LangMap then LangMap[key] else lang
  }

  /** A mapped code is recognised in any letter case: two spellings that
      lower-case to the same mapped code give the same engine language. */
  lemma PaddleLangCaseInsensitive(a: string, b: string)
    requires Lower(a) == Lower(b) && Lower(a) in LangMap
    ensures PaddleLang(a) == PaddleLang(b) && PaddleLang(a) in LangMap.Values
  {
  }

  /** Codes are recognised in any letter case. */
  lemma PaddleLangExamples()
    ensures PaddleLang("JA") == "japan" && PaddleLang("Ko") == "korean"
    ensures PaddleLang("fr") == "fr" && PaddleLang("FR") == "FR"
  {
    assert Lower("JA") == "ja";
    assert Lower("Ko") == "ko";
    assert Lower("fr") == "fr";
    assert Lower("FR") == "fr";
  }

  /** The second member of an item: not a list/tuple of at least two, or a
      text (already rendered by `str`) with a score that `float()` accepts
      or rejects. */
  datatype TextScore = NotPair | Pair(text: string, score: Option<real>)

  /** One item of the page: falsy or shorter than two, or carrying a
      text-and-score member. */
  datatype Item = Malformed | Entry(textScore: TextScore)

  /** `_extract_text_score(item)`. */
  function ExtractTextScore(item: Item): (r: (string, real))
    ensures item.Malformed? || item.textScore.NotPair? ==> r == ("", 0.0)
    ensures item.Entry? && item.textScore.Pair? ==>
              r.0 == Trim(item.textScore.text, PyWhite) && r.1 == item.textScore.score.GetOr(0.0)
    ensures NoEdgeWhite(r.0, PyWhite)
  {
    match item
    case Malformed => ("", 0.0)
    case Entry(ts) =>
      match ts
      case NotPair => ("", 0.0)
      case Pair(text, score) => (Trim(text, PyWhite), score.GetOr(0.0))
  }

  /** Whether an item passes the filter of `recognize`. */
  predicate Kept(item: Item, minConfidence: real) {
    var ts := ExtractTextScore(item);
    ts.0 != "" && ts.1 >= minConfidence
  }

  /** What one item adds to the kept texts. */
  function KeptOne(item: Item, minConfidence: real): (r: seq<string>)
    ensures |r| <= 1
    ensures |r| == 1 <==> Kept(item, minConfidence)
    ensures |r| == 1 ==> r[0] != "" && NoEdgeWhite(r[0], PyWhite)
  {
    if Kept(item, minConfidence) then [ExtractTextScore(item).0] else []
  }

  /** The concatenation of `f` over `xs`, in order. */
  function FlatMap<T>(xs: seq<T>, f: T -> seq<string>): seq<string>
    decreases |xs|
  {
    if |xs| == 0 then [] else f(xs[0]) + FlatMap(xs[1..], f)
  }

  /** `FlatMap` distributes over concatenation. */
  lemma {:induction false} FlatMapAppend<T>(a: seq<T>, b: seq<T>, f: T -> seq<string>)
    ensures FlatMap(a + b, f) == FlatMap(a, f) + FlatMap(b, f)
    decreases |a|
  {
    if |a| == 0 {
      assert a + b == b;
    } else {
      FlatMapAppend(a[1..], b, f);
      assert (a + b)[1..] == a[1..] + b;
    }
  }

  /** The texts kept by the loop of `recognize`, in order. */
  function KeptTexts(items: seq<Item>, minConfidence: real): seq<string> {
    FlatMap(items, item => KeptOne(item, minConfidence))
  }

  /** When `f` yields at most one element, and only elements satisfying
      `p`, so does `FlatMap` over every list. */
  lemma {:induction false} FlatMapAtMostOne<T>(xs: seq<T>, f: T -> seq<string>, p: string -> bool)
    requires forall x :: |f(x)| <= 1 && (|f(x)| == 1 ==> p(f(x)[0]))
    ensures |FlatMap(xs, f)| <= |xs|
    ensures forall j | 0 <= j < |FlatMap(xs, f)| :: p(FlatMap(xs, f)[j])
    decreases |xs|
  {
    if |xs| > 0 {
      FlatMapAtMostOne(xs[1..], f, p);
      var one := f(xs[0]);
      var rest := FlatMap(xs[1..], f);
      assert forall j | |one| <= j < |one| + |rest| :: (one + rest)[j] == rest[j - |one|];
    }
  }

  /** The kept texts are non-empty, stripped, and at most one per item. */
  lemma KeptTextsPlain(items: seq<Item>, minConfidence: real)
    ensures |KeptTexts(items, minConfidence)| <= |items|
    ensures forall j | 0 <= j < |KeptTexts(items, minConfidence)| ::
              KeptTexts(items, minConfidence)[j] != "" && NoEdgeWhite(KeptTexts(items, minConfidence)[j], PyWhite)
  {
    FlatMapAtMostOne(items, item => KeptOne(item, minConfidence), t => t != "" && NoEdgeWhite(t, PyWhite));
  }

  /** Elements that `f` maps to nothing can be dropped. */
  lemma FlatMapDropEmpty<T>(before: seq<T>, x: T, after: seq<T>, f: T -> seq<string>)
    requires f(x) == []
    ensures FlatMap(before + [x] + after, f) == FlatMap(before + after, f)
  {
    FlatMapAppend(before + [x], after, f);
    FlatMapAppend(before, [x], f);
    FlatMapAppend(before, after, f);
    assert FlatMap([x], f) == [] by {
      assert [x][1..] == [];
    }
  }

  /** An item with a score below the threshold contributes nothing. */
  lemma LowConfidenceIgnored(before: seq<Item>, item: Item, after: seq<Item>, minConfidence: real)
    requires !Kept(item, minConfidence)
    ensures KeptTexts(before + [item] + after, minConfidence) == KeptTexts(before + after, minConfidence)
  {
    FlatMapDropEmpty(before, item, after, item => KeptOne(item, minConfidence));
  }

  /** Every run of white space becomes one plain space (`re.sub(r"\s+", " ", value)`). */
  function Collapse(s: string): (r: string)
    ensures |r| <= |s|
    decreases |s|
  {
    if |s| == 0 then ""
    else if PyWhite(s[0]) then " " + Collapse(TrimStart(s[1..], PyWhite))
    else [s[0]] + Collapse(s[1..])
  }

  /** White space occurs only as single plain spaces. */
  predicate SingleSpaced(s: string) {
    && (forall i | 0 <= i < |s| :: PyWhite(s[i]) ==> s[i] == ' ')
    && (forall i | 0 <= i < |s| - 1 :: !PyWhite(s[i]) || !PyWhite(s[i + 1]))
  }

  /** The collapsed text is empty only for the empty text, starts with
      white space exactly when the text does, and is single-spaced. */
  lemma {:induction false} CollapseShape(s: string)
    ensures |Collapse(s)| > 0 <==> |s| > 0
    ensures |s| > 0 ==> (PyWhite(Collapse(s)[0]) <==> PyWhite(s[0]))
    ensures SingleSpaced(Collapse(s))
    decreases |s|
  {
    if |s| > 0 {
      var t := if PyWhite(s[0]) then TrimStart(s[1..], PyWhite) else s[1..];
      var head := if PyWhite(s[0]) then ' ' else s[0];
      CollapseShape(t);
      var rest := Collapse(t);
      assert Collapse(s) == [head] + rest;
      if |rest| > 0 && PyWhite(head) {
        assert !PyWhite(t[0]);
      }
      SingleSpacedCons(head, rest);
    }
  }

  /** A character put in front of a single-spaced text keeps it so, when
      it is a plain space only in front of a non-white character. */
  lemma SingleSpacedCons(head: char, rest: string)
    requires SingleSpaced(rest)
    requires PyWhite(head) ==> head == ' '
    requires PyWhite(head) && |rest| > 0 ==> !PyWhite(rest[0])
    ensures SingleSpaced([head] + rest)
  {
    var r := [head] + rest;
    assert forall i | 1 <= i < |r| :: r[i] == rest[i - 1];
  }

  /** A string whose white space is already single plain spaces is left
      as it is by `Collapse`. */
  lemma {:induction false} CollapseFixed(s: string)
    requires SingleSpaced(s)
    ensures Collapse(s) == s
    decreases |s|
  {
    if |s| > 0 {
      var t := s[1..];
      assert forall i | 0 <= i < |t| :: t[i] == s[i + 1];
      CollapseFixed(t);
      if PyWhite(s[0]) {
        assert TrimStart(t, PyWhite) == t;
        assert s == " " + t;
      } else {
        assert s == [s[0]] + t;
      }
    }
  }

  /** Collapsing keeps the words, in order. */
  lemma {:induction false} CollapseWords(s: string)
    ensures Words(Collapse(s), PyWhite) == Words(s, PyWhite)
    decreases |s|
  {
    if |s| > 0 {
      if PyWhite(s[0]) {
        var t := TrimStart(s[1..], PyWhite);
        CollapseWords(t);
        CollapseWhiteHead(s);
      } else {
        CollapseWords(s[1..]);
        CollapseWordHead(s);
      }
    }
  }

  /** A leading run of white space becomes one space and adds no word. */
  lemma CollapseWhiteHead(s: string)
    requires |s| > 0 && PyWhite(s[0])
    requires Words(Collapse(TrimStart(s[1..], PyWhite)), PyWhite) == Words(TrimStart(s[1..], PyWhite), PyWhite)
    ensures Words(Collapse(s), PyWhite) == Words(s, PyWhite)
  {
    var c := Collapse(s);
    assert c[0] == ' ' && c[1..] == Collapse(TrimStart(s[1..], PyWhite));
    WordsWhiteHead(c, PyWhite);
    WordsTrimStart(s[1..], PyWhite);
    WordsWhiteHead(s, PyWhite);
  }

  /** A leading non-white character is kept and joins the same word. */
  lemma CollapseWordHead(s: string)
    requires |s| > 0 && !PyWhite(s[0])
    requires Words(Collapse(s[1..]), PyWhite) == Words(s[1..], PyWhite)
    ensures Words(Collapse(s), PyWhite) == Words(s, PyWhite)
  {
    var c := Collapse(s);
    CollapseShape(s[1..]);
    assert c[0] == s[0] && c[1..] == Collapse(s[1..]);
    WordsCons(c, s, PyWhite);
  }

  /** `_normalize_text(value)`: collapse white space, then strip. */
  function NormalizeText(value: string): (r: string)
    ensures Canonical(r, PyWhite)
    ensures r == "" <==> AllWhite(value, PyWhite)
    ensures Words(r, PyWhite) == Words(value, PyWhite)
  {
    var c := Collapse(value);
    CollapseShape(value);
    TrimCollapsed(c);
    AllWhiteCollapse(value);
    CollapseWords(value);
    WordsTrim(c, PyWhite);
    Trim(c, PyWhite)
  }

  /** Stripping a collapsed string leaves it canonical. */
  lemma TrimCollapsed(c: string)
    requires SingleSpaced(c)
    ensures Canonical(Trim(c, PyWhite), PyWhite)
  {
    var r := Trim(c, PyWhite);
    var k := ContainsWitness(c, r);
    StretchCanonical(c, r, k);
  }

  /** A stretch of a single-spaced string with no white space at its ends
      is canonical. */
  lemma StretchCanonical(c: string, r: string, k: nat)
    requires SingleSpaced(c) && NoEdgeWhite(r, PyWhite)
    requires k + |r| <= |c| && c[k..k + |r|] == r
    ensures Canonical(r, PyWhite)
  {
    assert forall i | 0 <= i < |r| :: r[i] == c[k + i];
  }

  /** Collapsing keeps a string entirely white exactly when it was: a
      leading run of white space becomes one space, followed by the
      collapse of a remainder that is empty or starts with a non-white
      character. */
  lemma AllWhiteCollapse(s: string)
    ensures AllWhite(Collapse(s), PyWhite) <==> AllWhite(s, PyWhite)
  {
    var r := Collapse(s);
    CollapseShape(s);
    if |s| > 0 && PyWhite(s[0]) {
      var t := TrimStart(s[1..], PyWhite);
      var rest := Collapse(t);
      assert r == " " + rest;
      if |t| == 0 {
        assert forall i | 1 <= i < |s| :: s[i] == s[1..][i - 1];
        assert r == " ";
      } else {
        assert s[|s| - |t|] == t[0];
        assert r[1] == rest[0];
      }
    } else if |s| > 0 {
      assert r[0] == s[0];
    }
  }

  /** Normalising twice is normalising once. */
  lemma NormalizeTextIdempotent(value: string)
    ensures NormalizeText(NormalizeText(value)) == NormalizeText(value)
  {
    var r := NormalizeText(value);
    CollapseFixed(r);
  }

  /** What `self._ocr.ocr(...)` returned: a falsy result, or a list whose
      first element is the page of items. */
  datatype OcrResult = Falsy | Page(items: seq<Item>)

  /** `recognize(frame)` after the engine ran: keep the confident non-empty
      texts in order, join them with spaces and normalise. */
  function Recognize(result: OcrResult, minConfidence: real): (r: string)
    ensures result.Falsy? ==> r == ""
    ensures Canonical(r, PyWhite)
    ensures result.Page? ==> Words(r, PyWhite) == Words(Join(" ", KeptTexts(result.items, minConfidence)), PyWhite)
  {
    if result.Falsy? then ""
    else NormalizeText(Join(" ", KeptTexts(result.items, minConfidence)))
  }

  /** The recognised text is the kept texts joined by single spaces: they
      are already stripped, so normalising only collapses the white space
      inside them. In particular a page whose items are single words is
      read as those words in order. */
  lemma RecognizeWords(items: seq<Item>, minConfidence: real)
    requires forall j | 0 <= j < |KeptTexts(items, minConfidence)| ::
               Free(KeptTexts(items, minConfidence)[j], PyWhite)
    ensures Recognize(Page(items), minConfidence) == Join(" ", KeptTexts(items, minConfidence))
  {
    var words := KeptTexts(items, minConfidence);
    KeptTextsPlain(items, minConfidence);
    if |words| > 0 {
      JoinWordsCanonical(words, PyWhite);
      var s := Join(" ", words);
      CollapseFixed(s);
    }
  }
}

=== FILE: py_pipeline.dfy ===
/** One pass of the Python worker loop (`pipeline.PipelineWorker._run`):
    wait for the OCR interval, take the latest frame, clamp and crop the
    ROI, recognise, ask the emission gate, translate, publish to the overlay
    and log. The capture device, the OCR engine, the translator and
    difflib's ratio are parameters; each clock reading of a pass is an
    input. */
module PyPipeline {
  import opened Wrappers
  import opened Text
  import opened Geometry
  import PyRoi
  import PyOcr
  import PyTextFilter
  import PyLogger
  import opened TranscriptLines

  /** The gate the worker builds for itself: 0.93 and 0.15 s. */
  const WorkerThreshold: real := 0.93
  const WorkerMinIntervalMs: int := 150

  /** The sleeps of the loop: at least 10 ms while waiting, 20 ms without a frame. */
  const MinWaitMs: int := 10
  const NoFrameSleepMs: int := 20

  /** `SharedOverlayState`: the texts the overlay shows. */
  datatype Overlay = Overlay(sourceText: string, translatedText: string)

  const EmptyOverlay: Overlay := Overlay("", "")

  /** An attached `TranscriptLogger`: its settings and counters. */
  datatype LogSession = LogSession(cfg: PyLogger.Config, st: PyLogger.Logger)

  /** The worker's state between passes. */
  datatype Worker = Worker(roi: Rect, intervalMs: int, minConfidence: real, lastTick: int,
                           gate: PyTextFilter.Gate, overlay: Overlay, log: Option<LogSession>)

  /** The constructor and the start of `_run`: the worker's own gate, an
      empty overlay and `last_tick = 0`. */
  function NewWorker(roi: Rect, intervalMs: int, minConfidence: real, log: Option<LogSession>): (w: Worker)
    ensures w.gate == PyTextFilter.Create(WorkerThreshold, WorkerMinIntervalMs)
    ensures w.lastTick == 0 && w.overlay == EmptyOverlay && w.log == log
    ensures Valid(w) <==> (log.Some? ==> PyLogger.Valid(log.value.st))
  {
    Worker(roi, intervalMs, minConfidence, 0, PyTextFilter.Create(WorkerThreshold, WorkerMinIntervalMs),
           EmptyOverlay, log)
  }

  predicate Valid(w: Worker) {
    && PyTextFilter.Valid(w.gate)
    && (w.log.Some? ==> PyLogger.Valid(w.log.value.st))
  }

  /** The clock readings of a pass: the loop's, the gate's and the
      logger's `time.monotonic()`, and the logger's `datetime.now()`
      (`stamp`), which dates the entry. */
  datatype Clock = Clock(loop: int, gate: int, stamp: int, log: int)

  /** What a pass did. */
  datatype Effect =
    | Waited(sleepMs: int)
    | NoFrame(sleepMs: int)
    | Declined(text: string)
    | Emitted(source: string, translated: string)

  datatype Pass = Pass(next: Worker, effect: Effect)

  /** Width and height of a frame (`frame.shape[:2]`), rows first. */
  function FrameWidth<P>(frame: seq<seq<P>>): nat {
    if |frame| == 0 then 0 else |frame[0]|
  }

  /** The text the OCR engine reads inside the clamped ROI. */
  function ReadRoi<P>(w: Worker, frame: seq<seq<P>>, engine: seq<seq<P>> -> PyOcr.OcrResult): (text: string)
    ensures Canonical(text, PyWhite)
  {
    var roi := PyRoi.ClampRoi(w.roi, FrameWidth(frame), |frame|);
    PyOcr.Recognize(engine(PyRoi.Crop(frame, roi)), w.minConfidence)
  }

  /** One iteration of the `while not stop` loop. */
  function Step<P>(w: Worker, clock: Clock, frame: Option<seq<seq<P>>>,
                   engine: seq<seq<P>> -> PyOcr.OcrResult, translate: string -> string,
                   ratio: (string, string) -> real): (p: Pass)
    ensures clock.loop - w.lastTick < w.intervalMs <==> p.effect.Waited?
    ensures p.effect.Waited? ==>
              p.next == w && p.effect.sleepMs >= MinWaitMs
              && p.effect.sleepMs >= w.intervalMs - (clock.loop - w.lastTick)
    ensures !p.effect.Waited? ==> p.next.lastTick == clock.loop
    ensures p.effect.NoFrame? <==> !p.effect.Waited? && frame.None?
    ensures p.effect.NoFrame? ==> p.effect.sleepMs == NoFrameSleepMs
    ensures p.effect.NoFrame? || p.effect.Declined? ==> p.next == w.(lastTick := clock.loop)
    ensures p.effect.Emitted? ==>
              && p.effect.source != ""
              && NoEdgeWhite(p.effect.source, PyWhite)
              && p.effect.translated == translate(p.effect.source)
              && p.next.overlay == Overlay(p.effect.source, p.effect.translated)
              && p.next.gate.lastText == p.effect.source
              && p.next.gate.lastEmitTime == clock.gate
    ensures p.effect.Emitted? && w.gate.lastText != "" ==>
              ratio(w.gate.lastText, p.effect.source) < w.gate.threshold
    ensures p.effect.Emitted? ==> clock.gate - w.gate.lastEmitTime >= w.gate.minIntervalMs
    ensures p.next.roi == w.roi && p.next.intervalMs == w.intervalMs
    ensures p.next.minConfidence == w.minConfidence
    ensures p.next.log.Some? <==> w.log.Some?
    ensures Valid(w) ==> Valid(p.next)
  {
    var elapsed := clock.loop - w.lastTick;
    if elapsed < w.intervalMs then
      Pass(w, Waited(Max(MinWaitMs, w.intervalMs - elapsed)))
    else
      var ticked := w.(lastTick := clock.loop);
      match frame
      case None => Pass(ticked, NoFrame(NoFrameSleepMs))
      case Some(f) =>
        var source := ReadRoi(ticked, f, engine);
        var verdict := PyTextFilter.ShouldEmit(w.gate, source, clock.gate, ratio);
        if !verdict.emit then Pass(ticked, Declined(source))
        else
          assert Trim(source, PyWhite) == source;
          var translated := translate(source);
          var shown := ticked.(gate := verdict.next, overlay := Overlay(source, translated));
          Pass(shown.(log := LogAfter(w.log, source, translated, clock.stamp, clock.log, ratio)),
               Emitted(source, translated))
  }

  /** The logger after `log(...)` in the `try`: a failure is printed and
      swallowed, so the session is kept as it was. */
  function LogAfter(log: Option<LogSession>, source: string, translated: string, stamp: int, now: int,
                    ratio: (string, string) -> real): (r: Option<LogSession>)
    ensures log.None? <==> r.None?
    ensures log.Some? && PyLogger.Valid(log.value.st) ==> PyLogger.Valid(r.value.st)
    ensures log.Some? && AllWhite(source, PyWhite) ==> r == log
    ensures log.Some? && !AllWhite(source, PyWhite) ==> r.value.st.entryId == log.value.st.entryId + 1
  {
    match log
    case None => None
    case Some(session) =>
      match PyLogger.Log(session.cfg, session.st, source, translated, stamp, now, ratio)
      case Failure(_) => log
      case Success(logged) => Some(session.(st := logged.next))
  }

  /** An emitted pass writes exactly one entry, for the text the overlay
      now shows: the recognised text is never blank, so the logger's
      `ValueError` cannot be what the `try` catches. */
  lemma EmittedPassLogsOnce<P>(w: Worker, clock: Clock, frame: Option<seq<seq<P>>>,
                               engine: seq<seq<P>> -> PyOcr.OcrResult, translate: string -> string,
                               ratio: (string, string) -> real)
    requires w.log.Some?
    ensures var p := Step(w, clock, frame, engine, translate, ratio);
            p.effect.Emitted? ==>
              var session := w.log.value;
              var r := PyLogger.Log(session.cfg, session.st, p.effect.source, p.effect.translated,
                                    clock.stamp, clock.log, ratio);
              && r.Success?
              && r.value.entry.sourceText == p.next.overlay.sourceText
              && p.next.log == Some(session.(st := r.value.next))
              && CountHeaders(r.value.lines) == 1
  {
    var p := Step(w, clock, frame, engine, translate, ratio);
    if p.effect.Emitted? {
      var source := p.effect.source;
      assert !AllWhite(source, PyWhite) by {
        assert !PyWhite(source[0]);
      }
      assert Trim(source, PyWhite) == source;
    }
  }

  /** A pass that is not emitted translates nothing, shows nothing new and
      logs nothing. */
  lemma QuietPassChangesNothingShown<P>(w: Worker, clock: Clock, frame: Option<seq<seq<P>>>,
                                        engine: seq<seq<P>> -> PyOcr.OcrResult, translate: string -> string,
                                        ratio: (string, string) -> real)
    ensures var p := Step(w, clock, frame, engine, translate, ratio);
            !p.effect.Emitted? ==> p.next.overlay == w.overlay && p.next.log == w.log && p.next.gate == w.gate
  {
  }

  /** A missing frame still uses up the interval: the next pass inside
      the interval waits. */
  lemma NoFrameConsumesTick<P>(w: Worker, clock: Clock, later: Clock, frame: Option<seq<seq<P>>>,
                               engine: seq<seq<P>> -> PyOcr.OcrResult, translate: string -> string,
                               ratio: (string, string) -> real)
    requires Step(w, clock, None, engine, translate, ratio).effect.NoFrame?
    requires later.loop - clock.loop < w.intervalMs
    ensures Step(Step(w, clock, None, engine, translate, ratio).next, later, frame, engine, translate, ratio).effect.Waited?
  {
  }

  /** The inputs of one pass. */
  datatype Tick<P> = Tick(clock: Clock, frame: Option<seq<seq<P>>>)

  /** The loop over a sequence of passes, with the effects in order. */
  function Run<P>(w: Worker, ticks: seq<Tick<P>>, engine: seq<seq<P>> -> PyOcr.OcrResult,
                  translate: string -> string, ratio: (string, string) -> real): (r: (Worker, seq<Effect>))
    ensures |r.1| == |ticks|
    decreases |ticks|
  {
    if |ticks| == 0 then (w, [])
    else
      var p := Step(w, ticks[0].clock, ticks[0].frame, engine, translate, ratio);
      var rest := Run(p.next, ticks[1..], engine, translate, ratio);
      (rest.0, [p.effect] + rest.1)
  }

  /** The number of emitted effects. */
  function CountEmitted(effects: seq<Effect>): nat
    decreases |effects|
  {
    if |effects| == 0 then 0
    else (if effects[0].Emitted? then 1 else 0) + CountEmitted(effects[1..])
  }

  /** Over any run the logger writes one entry per emission and no other:
      its entry counter grows by exactly the number of emitted passes, and
      every state stays valid. */
  lemma {:induction false} RunLogsEveryEmission<P>(w: Worker, ticks: seq<Tick<P>>,
                                                   engine: seq<seq<P>> -> PyOcr.OcrResult,
                                                   translate: string -> string, ratio: (string, string) -> real)
    requires Valid(w) && w.log.Some?
    ensures var r := Run(w, ticks, engine, translate, ratio);
            && Valid(r.0) && r.0.log.Some?
            && r.0.log.value.st.entryId == w.log.value.st.entryId + CountEmitted(r.1)
    decreases |ticks|
  {
    if |ticks| > 0 {
      var p := Step(w, ticks[0].clock, ticks[0].frame, engine, translate, ratio);
      EmittedPassLogsOnce(w, ticks[0].clock, ticks[0].frame, engine, translate, ratio);
      RunLogsEveryEmission(p.next, ticks[1..], engine, translate, ratio);
      var rest := Run(p.next, ticks[1..], engine, translate, ratio);
      assert ([p.effect] + rest.1)[1..] == rest.1;
    }
  }
}

=== FILE: py_roi.dfy ===
/** The Python region-of-interest helpers (`roi.py`): parsing "x,y,w,h",
    clamping to the frame and cropping with Python slice semantics. */
module PyRoi {
  import opened Wrappers
  import opened Text
  import Decimal
  import opened Geometry

  /** Why `parse_roi` raised `ValueError`: the wrong number of parts ("ROI
      must be formatted as x,y,w,h"), a part `int()` rejects (the first
      one, in order), or a size that is not positive ("ROI width and height
      must be positive"). */
  datatype RoiError = BadShape | NotAnInteger(part: string) | NotPositive

  predicate IsComma(c: char) {
    c == ','
  }

  /** `[p.strip() for p in parts]`. */
  function StripAll(parts: seq<string>): (r: seq<string>)
    ensures |r| == |parts| && forall i | 0 <= i < |parts| :: r[i] == Trim(parts[i], PyWhite)
  {
    seq(|parts|, i requires 0 <= i < |parts| => Trim(parts[i], PyWhite))
  }

  /** `map(int, parts)`, stopping at the first part that is not an integer. */
  function ParseAll(parts: seq<string>): (r: Result<seq<int>, RoiError>)
    ensures r.Success? ==> |r.value| == |parts|
    ensures r.Success? <==> forall i | 0 <= i < |parts| :: Decimal.ParseInt(parts[i]).Some?
    ensures r.Success? ==> forall i | 0 <= i < |parts| :: Decimal.ParseInt(parts[i]) == Some(r.value[i])
    ensures r.Failure? ==> r.error.NotAnInteger? && r.error.part in parts
                           && Decimal.ParseInt(r.error.part).None?
    decreases |parts|
  {
    if |parts| == 0 then Success([])
    else
      var head := Decimal.ParseInt(parts[0]);
      if head.None? then Failure(NotAnInteger(parts[0]))
      else
        var rest := ParseAll(parts[1..]);
        assert forall i | 1 <= i < |parts| :: parts[i] == parts[1..][i - 1];
        if rest.Failure? then Failure(rest.error)
        else Success([head.value] + rest.value)
  }

  /** Four parts that `int()` accepts, the last two positive. */
  predicate WellFormed(parts: seq<string>) {
    && |parts| == 4
    && (forall i | 0 <= i < 4 :: Decimal.ParseInt(parts[i]).Some?)
    && Decimal.ParseInt(parts[2]).value > 0 && Decimal.ParseInt(parts[3]).value > 0
  }

  /** `parse_roi(value)`: `None` or "" give no ROI; otherwise exactly four
      comma-separated integers with a positive width and height. */
  function ParseRoi(value: Option<string>): (r: Result<Option<Rect>, RoiError>)
    ensures value.None? || value.value == "" ==> r == Success(None)
    ensures value.Some? && value.value != "" && |Split(value.value, IsComma)| != 4 ==> r == Failure(BadShape)
    ensures r == Success(None) ==> value.None? || value.value == ""
    ensures r.Success? && r.value.Some? ==>
              var parts := StripAll(Split(value.value, IsComma));
              var roi := r.value.value;
              && |parts| == 4 && roi.HasArea()
              && Decimal.ParseInt(parts[0]) == Some(roi.x) && Decimal.ParseInt(parts[1]) == Some(roi.y)
              && Decimal.ParseInt(parts[2]) == Some(roi.width) && Decimal.ParseInt(parts[3]) == Some(roi.height)
    ensures r == Failure(NotPositive) ==>
              var parts := StripAll(Split(value.value, IsComma));
              && |parts| == 4
              && (forall i | 0 <= i < 4 :: Decimal.ParseInt(parts[i]).Some?)
              && (Decimal.ParseInt(parts[2]).value <= 0 || Decimal.ParseInt(parts[3]).value <= 0)
    ensures r.Failure? && r.error.NotAnInteger? ==>
              var parts := StripAll(Split(value.value, IsComma));
              && |parts| == 4 && r.error.part in parts && Decimal.ParseInt(r.error.part).None?
    ensures value.Some? && value.value != "" && WellFormed(StripAll(Split(value.value, IsComma))) ==>
              var parts := StripAll(Split(value.value, IsComma));
              r == Success(Some(Rect(Decimal.ParseInt(parts[0]).value, Decimal.ParseInt(parts[1]).value,
                                     Decimal.ParseInt(parts[2]).value, Decimal.ParseInt(parts[3]).value)))
  {
    if value.None? || value.value == "" then Success(None)
    else
      var parts := StripAll(Split(value.value, IsComma));
      if |parts| != 4 then Failure(BadShape)
      else
        var numbers := ParseAll(parts);
        if numbers.Failure? then Failure(numbers.error)
        else
          var n := numbers.value;
          if n[2] <= 0 || n[3] <= 0 then Failure(NotPositive)
          else Success(Some(Rect(n[0], n[1], n[2], n[3])))
  }

  /** "x,y,w,h" as the command line would spell the ROI. */
  function Render(roi: Rect): string {
    Decimal.IntToString(roi.x) + "," + Decimal.IntToString(roi.y) + ","
    + Decimal.IntToString(roi.width) + "," + Decimal.IntToString(roi.height)
  }

  /** A rendered integer has no comma and no white space at its ends. */
  lemma IntToStringPlain(i: int)
    ensures Free(Decimal.IntToString(i), IsComma)
    ensures NoEdgeWhite(Decimal.IntToString(i), PyWhite)
  {
    var s := Decimal.IntToString(i);
    if i < 0 {
      assert s == "-" + Decimal.NatToString(-i);
      assert forall k | 1 <= k < |s| :: s[k] == Decimal.NatToString(-i)[k - 1];
    }
  }

  /** Four comma-free pieces joined by commas split back into themselves. */
  lemma SplitFour(a: string, b: string, c: string, d: string)
    requires Free(a, IsComma) && Free(b, IsComma) && Free(c, IsComma) && Free(d, IsComma)
    ensures Split(a + "," + b + "," + c + "," + d, IsComma) == [a, b, c, d]
  {
    assert a + "," + b + "," + c + "," + d == a + [','] + (b + [','] + (c + [','] + d));
    SplitWordThen(a, ',', b + [','] + (c + [','] + d), IsComma);
    SplitWordThen(b, ',', c + [','] + d, IsComma);
    SplitWordThen(c, ',', d, IsComma);
    SplitFree(d, IsComma);
  }

  /** The stripped comma-separated parts of a rendered ROI are the four
      rendered numbers. */
  lemma RenderParts(roi: Rect)
    ensures StripAll(Split(Render(roi), IsComma))
         == [Decimal.IntToString(roi.x), Decimal.IntToString(roi.y),
             Decimal.IntToString(roi.width), Decimal.IntToString(roi.height)]
  {
    IntToStringPlain(roi.x);
    IntToStringPlain(roi.y);
    IntToStringPlain(roi.width);
    IntToStringPlain(roi.height);
    SplitFour(Decimal.IntToString(roi.x), Decimal.IntToString(roi.y),
              Decimal.IntToString(roi.width), Decimal.IntToString(roi.height));
  }

  /** Four rendered integers parse back to themselves. */
  lemma ParseRendered(x: int, y: int, w: int, h: int)
    ensures ParseAll([Decimal.IntToString(x), Decimal.IntToString(y),
                      Decimal.IntToString(w), Decimal.IntToString(h)]) == Success([x, y, w, h])
  {
    var parts := [Decimal.IntToString(x), Decimal.IntToString(y),
                  Decimal.IntToString(w), Decimal.IntToString(h)];
    Decimal.ParseIntToString(x);
    Decimal.ParseIntToString(y);
    Decimal.ParseIntToString(w);
    Decimal.ParseIntToString(h);
    var n := ParseAll(parts);
    assert n.Success?;
    assert n.value[0] == x && n.value[1] == y && n.value[2] == w && n.value[3] == h;
    assert n.value == [x, y, w, h];
  }

  /** Parsing the rendering of an ROI with a positive size gives it back. */
  lemma ParseRender(roi: Rect)
    requires roi.HasArea()
    ensures ParseRoi(Some(Render(roi))) == Success(Some(roi))
  {
    RenderParts(roi);
    ParseRendered(roi.x, roi.y, roi.width, roi.height);
  }

  /** `clamp_roi(roi, frame)` for a frame `fw` wide and `fh` high. */
  function ClampRoi(roi: Rect, fw: int, fh: int): (r: Rect)
    ensures r.width >= 1 && r.height >= 1
    ensures fw >= 1 ==> 0 <= r.x <= fw - 1 && r.x + r.width <= fw
    ensures fh >= 1 ==> 0 <= r.y <= fh - 1 && r.y + r.height <= fh
    ensures r == ClampToBounds(roi, Rect(0, 0, fw, fh))
  {
    var x := Max(0, Min(roi.x, fw - 1));
    var y := Max(0, Min(roi.y, fh - 1));
    var w := Max(1, Min(roi.width, fw - x));
    var h := Max(1, Min(roi.height, fh - y));
    Rect(x, y, w, h)
  }

  /** Clamping twice is clamping once. */
  lemma ClampRoiIdempotent(roi: Rect, fw: int, fh: int)
    ensures ClampRoi(ClampRoi(roi, fw, fh), fw, fh) == ClampRoi(roi, fw, fh)
  {
    ClampIdempotent(roi, Rect(0, 0, fw, fh));
  }

  /** Where a Python slice bound lands in a sequence of length `n`:
      negative bounds count from the end, and bounds are cut to `[0, n]`. */
  function SliceIndex(i: int, n: nat): (k: nat)
    ensures k <= n
    ensures 0 <= i <= n ==> k == i
  {
    if i < 0 then (if i + n < 0 then 0 else i + n)
    else if i > n then n
    else i
  }

  /** `s[start:stop]`. */
  function Slice<T>(s: seq<T>, start: int, stop: int): (r: seq<T>)
    ensures 0 <= start <= stop <= |s| ==> r == s[start..stop]
  {
    var a := SliceIndex(start, |s|);
    var b := SliceIndex(stop, |s|);
    if a >= b then [] else s[a..b]
  }

  /** A frame of `fh` rows of `fw` pixels. */
  predicate Shaped<T>(frame: seq<seq<T>>, fw: nat, fh: nat) {
    |frame| == fh && forall i | 0 <= i < fh :: |frame[i]| == fw
  }

  /** The ROI lies inside the frame: its rows exist, and in each of them
      its columns do. */
  predicate Inside<T>(frame: seq<seq<T>>, roi: Rect) {
    && 0 <= roi.x && 0 <= roi.y && 0 <= roi.width && 0 <= roi.height
    && roi.y + roi.height <= |frame|
    && forall i | roi.y <= i < roi.y + roi.height :: roi.x + roi.width <= |frame[i]|
  }

  /** `crop(frame, roi)`: `frame[y:y+h, x:x+w]`. An ROI inside the frame
      gives its `h` rows of `w` pixels, pixel `(i, j)` taken from
      `(y + i, x + j)`. */
  function Crop<T>(frame: seq<seq<T>>, roi: Rect): (r: seq<seq<T>>)
    ensures Inside(frame, roi) ==>
              && |r| == roi.height
              && (forall i | 0 <= i < roi.height :: |r[i]| == roi.width)
              && (forall i, j | 0 <= i < roi.height && 0 <= j < roi.width :: r[i][j] == frame[roi.y + i][roi.x + j])
  {
    var rows := Slice(frame, roi.y, roi.y + roi.height);
    seq(|rows|, i requires 0 <= i < |rows| => Slice(rows[i], roi.x, roi.x + roi.width))
  }

  /** Cropping a clamped ROI out of a non-empty frame yields exactly the
      ROI's pixels: `h` rows of `w` columns, pixel `(i, j)` taken from
      `(y + i, x + j)`. */
  lemma CropClamped<T>(frame: seq<seq<T>>, fw: nat, fh: nat, roi: Rect)
    requires Shaped(frame, fw, fh) && fw >= 1 && fh >= 1
    ensures var c := ClampRoi(roi, fw, fh);
            var out := Crop(frame, c);
            && |out| == c.height
            && (forall i | 0 <= i < c.height :: |out[i]| == c.width)
            && (forall i, j | 0 <= i < c.height && 0 <= j < c.width :: out[i][j] == frame[c.y + i][c.x + j])
  {
  }
}

=== FILE: py_text_filter.dfy ===
/** The Python emission gate (`text_filter.TextDeduplicator`): stripped text
    is let through unless it is empty, arrives within the minimum interval
    of the previous emission (counted from time 0 before the first one), or
    its `SequenceMatcher` ratio to the previous emission reaches the
    threshold. The ratio is a parameter of the model. */
module PyTextFilter {
  import opened Text

  /** Dataclass defaults: threshold 0.92 and 0.15 s, in milliseconds. */
  const DefaultThreshold: real := 0.92
  const DefaultMinIntervalMs: int := 150

  datatype Gate = Gate(threshold: real, minIntervalMs: int, lastText: string, lastEmitTime: int)

  datatype Verdict = Verdict(emit: bool, next: Gate)

  /** `__post_init__`: nothing remembered and the last emission at time 0. */
  function Create(threshold: real, minIntervalMs: int): (g: Gate)
    ensures g.threshold == threshold && g.minIntervalMs == minIntervalMs
    ensures g.lastText == "" && g.lastEmitTime == 0
    ensures Valid(g)
  {
    Gate(threshold, minIntervalMs, "", 0)
  }

  /** The remembered text is always stripped. */
  predicate Valid(g: Gate) {
    NoEdgeWhite(g.lastText, PyWhite)
  }

  /** `should_emit`: strip, refuse empty text, refuse text within the
      interval, accept a first text outright, refuse a ratio at or above the
      threshold. Only an acceptance changes the state (`_remember`). */
  function ShouldEmit(g: Gate, text: string, now: int, ratio: (string, string) -> real): (v: Verdict)
    ensures !v.emit ==> v.next == g
    ensures v.emit ==> v.next == g.(lastText := Trim(text, PyWhite), lastEmitTime := now)
    ensures v.emit ==> Trim(text, PyWhite) != "" && now - g.lastEmitTime >= g.minIntervalMs
    ensures v.emit && g.lastText != "" ==> ratio(g.lastText, Trim(text, PyWhite)) < g.threshold
    ensures g.lastText == "" && !AllWhite(text, PyWhite) && now - g.lastEmitTime >= g.minIntervalMs ==> v.emit
    ensures && !AllWhite(text, PyWhite) && now - g.lastEmitTime >= g.minIntervalMs
            && (g.lastText != "" ==> ratio(g.lastText, Trim(text, PyWhite)) < g.threshold)
            ==> v.emit
    ensures Valid(g) ==> Valid(v.next)
  {
    var t := Trim(text, PyWhite);
    if t == "" then Verdict(false, g)
    else if now - g.lastEmitTime < g.minIntervalMs then Verdict(false, g)
    else if g.lastText == "" then Verdict(true, g.(lastText := t, lastEmitTime := now))
    else if ratio(g.lastText, t) >= g.threshold then Verdict(false, g)
    else Verdict(true, g.(lastText := t, lastEmitTime := now))
  }

  /** Because the clock of the fresh gate starts at 0, even the very first
      text is refused while `now` is below the interval. */
  lemma EarlyFirstTextRefused(threshold: real, text: string, now: int, ratio: (string, string) -> real)
    requires now < DefaultMinIntervalMs
    ensures !ShouldEmit(Create(threshold, DefaultMinIntervalMs), text, now, ratio).emit
  {
  }

  /** When the ratio of a text to itself reaches the threshold (difflib gives
      1.0 for identical non-empty texts), an accepted text is refused when it
      comes again, however far apart. */
  lemma NoImmediateRepeat(g: Gate, text: string, again: string, now: int, later: int,
                          ratio: (string, string) -> real)
    requires ShouldEmit(g, text, now, ratio).emit
    requires Trim(again, PyWhite) == Trim(text, PyWhite)
    requires ratio(Trim(text, PyWhite), Trim(text, PyWhite)) >= g.threshold
    ensures !ShouldEmit(ShouldEmit(g, text, now, ratio).next, again, later, ratio).emit
  {
  }
}

=== FILE: py_translator.dfy ===
/** The Python translators (`translator.py`): the engine is chosen by
    lower-cased name, and both network translators answer an empty text
    with "" and every failure with the original text. The HTTP call and the
    `deep_translator` library are parameters. */
module PyTranslator {
  import opened Wrappers
  import opened Text
  import Translation
  import DeepL

  const FreeUrl: string := "https://api-free.deepl.com/v2/translate"
  const ProUrl: string := "https://api.deepl.com/v2/translate"

  /** `TranslationConfig`; `deepl_api_key` is optional. */
  datatype TranslationConfig = TranslationConfig(engine: string, sourceLang: string, targetLang: string,
                                                 deepLApiKey: Option<string>)

  /** The built translator. */
  datatype Translator =
    | IdentityTranslator
    | DeepLTranslator(apiKey: string, sourceLang: string, targetLang: string)
    | GoogleWebTranslator(sourceLang: string, targetLang: string)

  const DeepLKeyRequired: string := "DeepL engine requires --deepl-api-key"
  const GoogleLibraryMissing: string :=
    "deep-translator is not installed. Run `pip install -r requirements.txt`."

  /** `build_translator(config)`; `libraryInstalled` says whether the
      import inside `GoogleWebTranslator.__init__` succeeds. */
  function BuildTranslator(config: TranslationConfig, libraryInstalled: bool): (r: Result<Translator, string>)
    ensures r.Success? && r.value.IdentityTranslator? <==> Lower(config.engine) == "none"
    ensures r.Success? && r.value.DeepLTranslator? <==>
              Lower(config.engine) == "deepl" && config.deepLApiKey.Some? && config.deepLApiKey.value != ""
    ensures r.Success? && r.value.GoogleWebTranslator? <==> Lower(config.engine) == "google" && libraryInstalled
    ensures r.Failure? && Lower(config.engine) == "deepl" ==> r.error == DeepLKeyRequired
    ensures r.Failure? && Lower(config.engine) == "google" ==> r.error == GoogleLibraryMissing
    ensures Lower(config.engine) !in {"none", "deepl", "google"}
            ==> r == Failure("Unknown translation engine: " + config.engine)
    ensures r.Success? && r.value.DeepLTranslator?
            ==> r.value == DeepLTranslator(config.deepLApiKey.value, config.sourceLang, config.targetLang)
  {
    var engine := Lower(config.engine);
    if engine == "none" then Success(IdentityTranslator)
    else if engine == "deepl" then
      if config.deepLApiKey.None? || config.deepLApiKey.value == "" then Failure(DeepLKeyRequired)
      else Success(DeepLTranslator(config.deepLApiKey.value, config.sourceLang, config.targetLang))
    else if engine == "google" then
      if !libraryInstalled then Failure(GoogleLibraryMissing)
      else Success(GoogleWebTranslator(config.sourceLang, config.targetLang))
    else Failure("Unknown translation engine: " + config.engine)
  }

  /** The engine name is matched regardless of letter case: two spellings
      of a known engine build the same translator. */
  lemma EngineCaseInsensitive(config: TranslationConfig, spelling: string, libraryInstalled: bool)
    requires Lower(spelling) == Lower(config.engine) && Lower(spelling) in {"none", "deepl", "google"}
    ensures BuildTranslator(config.(engine := spelling), libraryInstalled) == BuildTranslator(config, libraryInstalled)
  {
  }

  /** `__post_init__`: the free URL exactly for keys ending in ":fx", with
      the letter case as written. */
  function Url(apiKey: string): (u: string)
    ensures u == FreeUrl <==> EndsWith(apiKey, ":fx")
    ensures u == ProUrl <==> !EndsWith(apiKey, ":fx")
  {
    if EndsWith(apiKey, ":fx") then FreeUrl else ProUrl
  }

  /** The form posted to DeepL. */
  datatype Request = Request(url: string, authKey: string, text: string, sourceLang: string, targetLang: string)

  /** What `requests.post(...)` and the JSON handling produce: an exception
      anywhere (connection, timeout, `raise_for_status`, decoding, shape),
      an empty or absent `translations` list, or a first translation with
      or without a `text` member. */
  datatype DeepLReply = Raised | NoTranslations | FirstEntry(text: Option<string>)

  /** The translated text and the requests sent. */
  datatype Call = Call(text: string, sent: seq<Request>)

  /** `DeepLTranslator.translate(text)`. */
  function DeepLTranslate(t: Translator, text: string, post: Request -> DeepLReply): (c: Call)
    requires t.DeepLTranslator?
    ensures text == "" ==> c == Call("", [])
    ensures text != "" ==> c.sent == [Request(Url(t.apiKey), t.apiKey, text, Upper(t.sourceLang), Upper(t.targetLang))]
    ensures text != "" ==> (c.text == text <== !post(c.sent[0]).FirstEntry? || post(c.sent[0]).text.None?)
    ensures text != "" && post(c.sent[0]).FirstEntry? && post(c.sent[0]).text.Some?
            ==> c.text == post(c.sent[0]).text.value
  {
    if text == "" then Call("", [])
    else
      var request := Request(Url(t.apiKey), t.apiKey, text, Upper(t.sourceLang), Upper(t.targetLang));
      match post(request)
      case Raised => Call(text, [request])
      case NoTranslations => Call(text, [request])
      case FirstEntry(translated) => Call(translated.GetOr(text), [request])
  }

  /** What the `deep_translator` call produces: a text or an exception. */
  datatype WebReply = Translated(text: string) | WebRaised

  /** `GoogleWebTranslator.translate(text)`; `calls` counts library calls. */
  function GoogleWebTranslate(text: string, library: string -> WebReply): (r: (string, nat))
    ensures text == "" ==> r == ("", 0)
    ensures text != "" ==> r.1 == 1
    ensures text != "" && library(text).WebRaised? ==> r.0 == text
    ensures text != "" && library(text).Translated? ==> r.0 == library(text).text
  {
    if text == "" then ("", 0)
    else match library(text)
      case Translated(s) => (s, 1)
      case WebRaised => (text, 1)
  }

  /** `IdentityTranslator.translate(text)`. */
  function IdentityTranslate(text: string): (r: string)
    ensures r == text
  {
    text
  }

  /** The two DeepL clients read the same HTTP exchange: a transport
      failure or an error status is an exception in Python; an empty list
      and a first entry with a string `text` are seen alike. A body C#
      cannot read (`GetProperty("text")` throws on a first entry without
      `text`) is an exception in Python too, or that same first entry
      without `text`, which `.get("text", text)` reads as the original
      text. A JSON-null `text` is not related: Python returns `None`
      there, which the model's Python reply does not represent. */
  predicate SameExchange(py: DeepLReply, cs: Translation.Reply<Translation.TranslationBody>) {
    match cs
    case Response(status, _, body) =>
      if !Translation.IsSuccessStatus(status) then py.Raised?
      else (match body
            case Malformed(_) => py.Raised? || py == FirstEntry(None)
            case NoTranslations => py.NoTranslations?
            case FirstText(t) => t.Some? && py == FirstEntry(t))
    case _ => py.Raised?
  }

  /** For a key without surrounding white space and a non-blank text, the
      Python client posts the same key, text and upper-cased language codes
      as the C# client, and a key the Python client sends to the free URL
      goes to the free endpoint in C# too. */
  lemma DeepLRequestMatchesCSharp(s: Translation.Settings, text: string, post: Request -> DeepLReply)
    requires NoEdgeWhite(s.deepLApiKey, CsWhite) && !AllWhite(text, CsWhite)
    ensures var py := DeepLTranslate(DeepLTranslator(s.deepLApiKey, s.sourceLanguage, s.targetLanguage), text, post);
            var q := DeepL.BuildRequest(s, text);
            && |py.sent| == 1
            && py.sent[0].authKey == q.authKey && py.sent[0].text == q.text
            && py.sent[0].sourceLang == q.sourceLang && py.sent[0].targetLang == q.targetLang
            && (py.sent[0].url == FreeUrl ==> q.endpoint == DeepL.FreeEndpoint)
            && (q.endpoint == DeepL.ProEndpoint ==> py.sent[0].url == ProUrl)
  {
    var key := s.deepLApiKey;
    if EndsWith(key, ":fx") {
      assert Upper(key)[|key| - 3..] == Upper(key[|key| - 3..]);
      assert Upper(":fx") == ":FX";
    }
  }

  /** Given the same exchange, the Python client and the C# client end with
      the same text, and C# flags an error exactly when Python had no
      translated text to return. A first entry without a `text` member
      gives the original text in both, flagged as an error in C#; a C#
      timeout or cancellation is the original text in Python. */
  lemma DeepLFallbacksMatchCSharp(s: Translation.Settings, text: string, post: Request -> DeepLReply,
                                  transport: DeepL.Request -> Translation.Reply<Translation.TranslationBody>)
    requires NoEdgeWhite(s.deepLApiKey, CsWhite) && !AllWhite(text, CsWhite)
    requires SameExchange(post(DeepLTranslate(DeepLTranslator(s.deepLApiKey, s.sourceLanguage, s.targetLanguage),
                                              text, post).sent[0]),
                          transport(DeepL.BuildRequest(s, text)))
    ensures var py := DeepLTranslate(DeepLTranslator(s.deepLApiKey, s.sourceLanguage, s.targetLanguage), text, post);
            var cs := DeepL.Translate(s, text, transport);
            && (cs.outcome.Done? ==> cs.outcome.result.text == py.text)
            && (cs.outcome.Done? ==>
                  (cs.outcome.result.isError <==> !post(py.sent[0]).FirstEntry? || post(py.sent[0]).text.None?))
            && (post(py.sent[0]) == FirstEntry(None) ==>
                  py.text == text && cs.outcome.Done? && cs.outcome.result.isError && cs.outcome.result.text == text)
            && (cs.outcome.Cancelled? ==> py.text == text)
  {
    DeepLRequestMatchesCSharp(s, text, post);
  }

  /** The web translator never fails outward: when the library raises, it
      answers as the identity translator does. */
  lemma GoogleWebFailureIsIdentity(text: string, library: string -> WebReply)
    requires library(text).WebRaised?
    ensures GoogleWebTranslate(text, library).0 == IdentityTranslate(text)
  {
  }

  /** The Python client chooses the free URL with the exact suffix only,
      while the C# client ignores case: a key ending in ":FX" goes to the
      paid URL here. */
  lemma UpperSuffixIsPaid(key: string)
    ensures Url(key + ":FX") == ProUrl
  {
    var k := key + ":FX";
    assert k[|k| - 3..] == ":FX";
  }
}

=== FILE: similarity.dfy ===
/** The normalised edit-distance similarity of the C# application
    (`TextSimilarity`): a Levenshtein table scaled to `1 - d / max(len)`. */
module TextSimilarity {

  function Min(a: int, b: int): int {
    if a <= b then a else b
  }

  function Max(a: int, b: int): int {
    if a >= b then a else b
  }

  /** Levenshtein distance between the prefixes of lengths `i` and `j` of
      `a` and `b`, by the recurrence the table fills: insertion, deletion
      and substitution each cost one. Lengths outside the strings do not
      occur; they are given a value only so that the definition needs no
      precondition. */
  function PrefixDistance(a: string, b: string, i: int, j: int): nat
    decreases (if i < 0 then 0 else i) + (if j < 0 then 0 else j)
  {
    if i <= 0 then (if j < 0 then 0 else j)
    else if j <= 0 then i
    else if i > |a| || j > |b| then 0
    else
      var cost := if a[i - 1] == b[j - 1] then 0 else 1;
      Min(Min(PrefixDistance(a, b, i - 1, j) + 1, PrefixDistance(a, b, i, j - 1) + 1),
          PrefixDistance(a, b, i - 1, j - 1) + cost)
  }

  /** Levenshtein distance of two whole strings. */
  function Distance(a: string, b: string): nat {
    PrefixDistance(a, b, |a|, |b|)
  }

  /** Row `r` of the table holds the prefix distances of the source's
      first `r` characters. */
  predicate RowFilled(d: array2<nat>, source: string, target: string, r: nat)
    requires r < d.Length0 && d.Length1 == |target| + 1
    reads d
  {
    forall q | 0 <= q <= |target| :: d[r, q] == PrefixDistance(source, target, r, q)
  }

  /** The dynamic-programming table of the source: row by row, every cell
      `d[i, j]` comes to hold the distance between the prefixes of length
      `i` and `j`, and the last cell is returned. */
  method LevenshteinDistance(source: string, target: string) returns (dist: nat)
    ensures dist == Distance(source, target)
  {
    var n := |source|;
    var m := |target|;
    if n == 0 {
      return m;
    }
    if m == 0 {
      return n;
    }
    var d := NewTable(n, m);
    assert RowFilled(d, source, target, 0);
    var i := 1;
    while i <= n
      invariant 1 <= i <= n + 1
      invariant RowFilled(d, source, target, i - 1)
      invariant forall p | 0 <= p <= n :: d[p, 0] == p
    {
      FillRow(d, source, target, i);
      i := i + 1;
    }
    assert RowFilled(d, source, target, n);
    dist := d[n, m];
  }

  /** The table with its first column and first row filled: the distance
      between a prefix and the empty string is the prefix's length. */
  method NewTable(n: nat, m: nat) returns (d: array2<nat>)
    ensures fresh(d) && d.Length0 == n + 1 && d.Length1 == m + 1
    ensures forall p | 0 <= p <= n :: d[p, 0] == p
    ensures forall q | 0 <= q <= m :: d[0, q] == q
  {
    d := new nat[n + 1, m + 1];
    var i := 0;
    while i <= n
      invariant 0 <= i <= n + 1
      invariant forall p | 0 <= p < i :: d[p, 0] == p
    {
      d[i, 0] := i;
      i := i + 1;
    }
    var j := 0;
    while j <= m
      invariant 0 <= j <= m + 1
      invariant forall p | 0 <= p <= n :: d[p, 0] == p
      invariant forall q | 0 <= q < j :: d[0, q] == q
    {
      d[0, j] := j;
      j := j + 1;
    }
  }

  /** Fills row `i` of the table left to right from the row above it. */
  method FillRow(d: array2<nat>, source: string, target: string, i: nat)
    requires d.Length0 == |source| + 1 && d.Length1 == |target| + 1
    requires 1 <= i <= |source|
    requires RowFilled(d, source, target, i - 1)
    requires forall p | 0 <= p <= |source| :: d[p, 0] == p
    modifies d
    ensures RowFilled(d, source, target, i)
    ensures forall p | 0 <= p <= |source| :: d[p, 0] == p
  {
    var above := i - 1;
    var j := 1;
    while j <= |target|
      invariant 1 <= j <= |target| + 1
      invariant forall q | 0 <= q <= |target| :: d[above, q] == PrefixDistance(source, target, above, q)
      invariant forall p | 0 <= p <= |source| :: d[p, 0] == p
      invariant forall q | 0 <= q < j :: d[i, q] == PrefixDistance(source, target, i, q)
    {
      var cost := if source[i - 1] == target[j - 1] then 0 else 1;
      var left := j - 1;
      assert d[above, j] == PrefixDistance(source, target, above, j);
      assert d[above, left] == PrefixDistance(source, target, above, left);
      assert d[i, left] == PrefixDistance(source, target, i, left);
      PrefixDistanceStep(source, target, i, j, above, left, d[above, j], d[i, left], d[above, left]);
      d[i, j] := Min(Min(d[above, j] + 1, d[i, left] + 1), d[above, left] + cost);
      j := j + 1;
    }
  }

  /** One cell of the recurrence, for lengths inside both strings: the
      cell is the cheapest of a deletion, an insertion and a substitution
      from its three neighbours. */
  lemma PrefixDistanceStep(a: string, b: string, i: nat, j: nat, above: nat, left: nat,
                           up: int, back: int, diagonal: int)
    requires 1 <= i <= |a| && 1 <= j <= |b| && above + 1 == i && left + 1 == j
    requires up == PrefixDistance(a, b, above, j)
    requires back == PrefixDistance(a, b, i, left)
    requires diagonal == PrefixDistance(a, b, above, left)
    ensures PrefixDistance(a, b, i, j)
            == Min(Min(up + 1, back + 1), diagonal + (if a[i - 1] == b[j - 1] then 0 else 1))
  {
  }

  /** The prefix distance lies between the length difference and the
      longer length. */
  lemma {:induction false} PrefixDistanceBounds(a: string, b: string, i: nat, j: nat)
    requires i <= |a| && j <= |b|
    ensures PrefixDistance(a, b, i, j) <= Max(i, j)
    ensures PrefixDistance(a, b, i, j) >= i - j && PrefixDistance(a, b, i, j) >= j - i
    decreases i + j
  {
    if i > 0 && j > 0 {
      PrefixDistanceBounds(a, b, i - 1, j);
      PrefixDistanceBounds(a, b, i, j - 1);
      PrefixDistanceBounds(a, b, i - 1, j - 1);
      PrefixDistanceStep(a, b, i, j, i - 1, j - 1, PrefixDistance(a, b, i - 1, j),
                         PrefixDistance(a, b, i, j - 1), PrefixDistance(a, b, i - 1, j - 1));
    }
  }

  /** The distance lies between the length difference and the longer length. */
  lemma DistanceBounds(a: string, b: string)
    ensures Distance(a, b) <= Max(|a|, |b|)
    ensures Distance(a, b) >= |a| - |b| && Distance(a, b) >= |b| - |a|
  {
    PrefixDistanceBounds(a, b, |a|, |b|);
  }

  /** A prefix is at distance zero from itself. */
  lemma {:induction false} PrefixDistanceSelf(a: string, i: nat)
    requires i <= |a|
    ensures PrefixDistance(a, a, i, i) == 0
    decreases i
  {
    if i > 0 {
      PrefixDistanceSelf(a, i - 1);
    }
  }

  /** A string is at distance zero from itself. */
  lemma DistanceSelf(a: string)
    ensures Distance(a, a) == 0
  {
    PrefixDistanceSelf(a, |a|);
  }

  /** Swapping the strings swaps the roles of insertion and deletion. */
  lemma {:induction false} PrefixDistanceSymmetric(a: string, b: string, i: nat, j: nat)
    requires i <= |a| && j <= |b|
    ensures PrefixDistance(a, b, i, j) == PrefixDistance(b, a, j, i)
    decreases i + j
  {
    if i > 0 && j > 0 {
      PrefixDistanceSymmetric(a, b, i - 1, j);
      PrefixDistanceSymmetric(a, b, i, j - 1);
      PrefixDistanceSymmetric(a, b, i - 1, j - 1);
      var up := PrefixDistance(a, b, i - 1, j);
      var back := PrefixDistance(a, b, i, j - 1);
      var diagonal := PrefixDistance(a, b, i - 1, j - 1);
      PrefixDistanceStep(a, b, i, j, i - 1, j - 1, up, back, diagonal);
      PrefixDistanceStep(b, a, j, i, j - 1, i - 1, back, up, diagonal);
    }
  }

  /** Edit distance does not depend on the order of its arguments. */
  lemma DistanceSymmetric(a: string, b: string)
    ensures Distance(a, b) == Distance(b, a)
  {
    PrefixDistanceSymmetric(a, b, |a|, |b|);
  }

  /** Only equal prefixes are at distance zero: the lengths must agree,
      and then only a free substitution in the last cell costs nothing. */
  lemma {:induction false} PrefixDistanceZero(a: string, b: string, i: nat, j: nat)
    requires i <= |a| && j <= |b|
    requires PrefixDistance(a, b, i, j) == 0
    ensures i == j && a[..i] == b[..j]
    decreases i + j
  {
    PrefixDistanceBounds(a, b, i, j);
    if i > 0 {
      PrefixDistanceZero(a, b, i - 1, j - 1);
      assert a[..i] == a[..i - 1] + [a[i - 1]];
      assert b[..j] == b[..j - 1] + [b[j - 1]];
    }
  }

  /** Only equal strings are at distance zero. */
  lemma DistanceZero(a: string, b: string)
    requires Distance(a, b) == 0
    ensures a == b
  {
    PrefixDistanceZero(a, b, |a|, |b|);
    assert a[..|a|] == a && b[..|b|] == b;
  }

  /** Two different characters are one substitution apart. */
  lemma DistanceDifferentChars(x: char, y: char)
    requires x != y
    ensures Distance([x], [y]) == 1
  {
    assert PrefixDistance([x], [y], 0, 0) == 0;
    PrefixDistanceStep([x], [y], 1, 1, 0, 0, PrefixDistance([x], [y], 0, 1),
                       PrefixDistance([x], [y], 1, 0), PrefixDistance([x], [y], 0, 0));
  }

  /** Distance zero characterises equality. */
  lemma DistanceZeroIff(a: string, b: string)
    ensures Distance(a, b) == 0 <==> a == b
  {
    if Distance(a, b) == 0 {
      DistanceZero(a, b);
    }
    if a == b {
      DistanceSelf(a);
    }
  }

  /** A quotient of reals `0 <= x <= y` with `y > 0` lies in [0, 1], and
      hits either end exactly at `x == 0` or `x == y`. */
  lemma QuotientRange(x: real, y: real)
    requires 0.0 <= x <= y && 0.0 < y
    ensures 0.0 <= x / y <= 1.0
    ensures x / y == 0.0 <==> x == 0.0
    ensures x / y == 1.0 <==> x == y
  {
    var q := x / y;
    assert q * y == x;
  }

  /** The score formula `1 - d / m` stays in [0, 1] for `d <= m`, is 1
      exactly for `d == 0` and 0 exactly for `d == m`. */
  lemma ScoreRange(d: nat, m: nat)
    requires 0 < m && d <= m
    ensures 0.0 <= 1.0 - d as real / m as real <= 1.0
    ensures 1.0 - d as real / m as real == 1.0 <==> d == 0
    ensures 1.0 - d as real / m as real == 0.0 <==> d == m
  {
    QuotientRange(d as real, m as real);
  }

  /** The similarity score: 1.0 for two empty strings, otherwise
      `1 - distance / max(len)`. */
  function Similarity(a: string, b: string): (r: real)
    ensures 0.0 <= r <= 1.0
    ensures r == 1.0 <==> a == b
    ensures (|a| == 0) != (|b| == 0) ==> r == 0.0
  {
    if |a| == 0 && |b| == 0 then 1.0
    else
      var dist := Distance(a, b);
      var maxLength := Max(|a|, |b|);
      DistanceBounds(a, b);
      DistanceZeroIff(a, b);
      ScoreRange(dist, maxLength);
      1.0 - dist as real / maxLength as real
  }

  /** Similarity is symmetric. */
  lemma SimilaritySymmetric(a: string, b: string)
    ensures Similarity(a, b) == Similarity(b, a)
  {
    DistanceSymmetric(a, b);
  }

  /** The source's `Similarity`: the empty pair is fully similar, otherwise
      the table's distance is scaled by the longer length. The source's
      second `maxLength == 0` guard cannot fire once the empty pair is
      handled, so it has no counterpart here. */
  method ComputeSimilarity(a: string, b: string) returns (score: real)
    ensures score == Similarity(a, b)
    ensures 0.0 <= score <= 1.0
    ensures score == 1.0 <==> a == b
  {
    if |a| == 0 && |b| == 0 {
      return 1.0;
    }
    var distance := LevenshteinDistance(a, b);
    var maxLength := Max(|a|, |b|);
    score := 1.0 - distance as real / maxLength as real;
  }
}

=== FILE: text.dfy ===
/** String primitives shared by both applications: white space, trimming,
    splitting, joining, substring search and ASCII case mapping. */
module Text {

  /** The characters .NET's `char.IsWhiteSpace` accepts: the controls
      U+0009..U+000D and U+0085 and the Unicode space, line and paragraph
      separators. */
  predicate CsWhite(c: char) {
    || ('\t' <= c <= '\r')
    || c == ' ' || c == '\U{85}' || c == '\U{A0}' || c == '\U{1680}'
    || ('\U{2000}' <= c <= '\U{200A}')
    || c == '\U{2028}' || c == '\U{2029}' || c == '\U{202F}'
    || c == '\U{205F}' || c == '\U{3000}'
  }

  /** The characters Python's `str.isspace` (and the regex class `\s`)
      accepts: the .NET set plus the separators U+001C..U+001F. */
  predicate PyWhite(c: char) {
    CsWhite(c) || ('\U{1C}' <= c <= '\U{1F}')
  }

  /** Every character of `s` is white space; the empty string included
      (`string.IsNullOrWhiteSpace` when `white` is `CsWhite`). */
  predicate AllWhite(s: string, white: char -> bool) {
    forall i | 0 <= i < |s| :: white(s[i])
  }

  /** No character of `s` satisfies `sep`. */
  predicate Free(s: string, sep: char -> bool) {
    forall i | 0 <= i < |s| :: !sep(s[i])
  }

  /** Neither the first nor the last character is white space. */
  predicate NoEdgeWhite(s: string, white: char -> bool) {
    |s| > 0 ==> !white(s[0]) && !white(s[|s| - 1])
  }

  /** The shape of whitespace-collapsed text: no leading or trailing white
      space, every white character is a plain space, and no two white
      characters are adjacent. */
  predicate Canonical(s: string, white: char -> bool) {
    && NoEdgeWhite(s, white)
    && (forall i | 0 <= i < |s| :: white(s[i]) ==> s[i] == ' ')
    && (forall i | 0 <= i < |s| - 1 :: !white(s[i]) || !white(s[i + 1]))
  }

  /** Drops the leading white space. */
  function TrimStart(s: string, white: char -> bool): (r: string)
    ensures |r| <= |s| && r == s[|s| - |r|..]
    ensures |r| > 0 ==> !white(r[0])
    ensures forall i | 0 <= i < |s| - |r| :: white(s[i])
    decreases |s|
  {
    if |s| > 0 && white(s[0]) then
      var r := TrimStart(s[1..], white);
      assert forall i | 1 <= i < |s| - |r| :: s[i] == s[1..][i - 1];
      r
    else s
  }

  /** Drops the trailing white space. */
  function TrimEnd(s: string, white: char -> bool): (r: string)
    ensures |r| <= |s| && r == s[..|r|]
    ensures |r| > 0 ==> !white(r[|r| - 1])
    ensures forall i | |r| <= i < |s| :: white(s[i])
    decreases |s|
  {
    if |s| > 0 && white(s[|s| - 1]) then
      var r := TrimEnd(s[..|s| - 1], white);
      assert forall i | |r| <= i < |s| - 1 :: s[i] == s[..|s| - 1][i];
      r
    else s
  }

  /** C# `string.Trim()` (with `CsWhite`) and Python `str.strip()` (with
      `PyWhite`): the longest middle part without white space at either end. */
  function Trim(s: string, white: char -> bool): (r: string)
    ensures NoEdgeWhite(r, white)
    ensures Contains(s, r)
    ensures r == "" <==> AllWhite(s, white)
    ensures NoEdgeWhite(s, white) ==> r == s
  {
    TrimParts(s, white);
    TrimEnd(TrimStart(s, white), white)
  }

  /** The facts behind `Trim`'s contract, proved on the two halves. */
  lemma TrimParts(s: string, white: char -> bool)
    ensures var r := TrimEnd(TrimStart(s, white), white);
            && Contains(s, r)
            && (r == "" <==> AllWhite(s, white))
            && (NoEdgeWhite(s, white) ==> r == s)
  {
    var a := TrimStart(s, white);
    var r := TrimEnd(a, white);
    var k := |s| - |a|;
    assert r == s[k..k + |r|];
    ContainsAt(s, r, k);
    if |a| > 0 {
      assert a[0] == s[k] && !white(a[0]);
      assert |r| > 0;
    }
    if NoEdgeWhite(s, white) && |s| > 0 {
      assert a == s;
      assert r == s;
    }
  }

  /** Trimming removes exactly the white space around a text whose own
      ends are not white. */
  lemma TrimPadded(pad1: string, t: string, pad2: string, white: char -> bool)
    requires AllWhite(pad1, white) && AllWhite(pad2, white) && NoEdgeWhite(t, white)
    ensures Trim(pad1 + t + pad2, white) == t
  {
    var s := pad1 + t + pad2;
    if t == "" {
      assert AllWhite(s, white);
    } else {
      TrimStartPadded(pad1, t + pad2, white);
      assert pad1 + (t + pad2) == s;
      TrimEndPadded(t, pad2, white);
    }
  }

  /** Leading white space gives way to the first character that is not. */
  lemma TrimStartPadded(pad: string, u: string, white: char -> bool)
    requires AllWhite(pad, white) && |u| > 0 && !white(u[0])
    ensures TrimStart(pad + u, white) == u
  {
    var s := pad + u;
    var a := TrimStart(s, white);
    assert s[|pad|] == u[0];
    assert |s| - |a| == |pad|;
  }

  /** Trailing white space gives way to the last character that is not. */
  lemma TrimEndPadded(t: string, pad: string, white: char -> bool)
    requires AllWhite(pad, white) && |t| > 0 && !white(t[|t| - 1])
    ensures TrimEnd(t + pad, white) == t
  {
    var a := t + pad;
    var r := TrimEnd(a, white);
    assert a[|t| - 1] == t[|t| - 1];
    assert |r| == |t|;
  }

  /** `t` is a prefix of `s`. */
  predicate StartsWith(s: string, t: string) {
    |t| <= |s| && s[..|t|] == t
  }

  /** `t` is a suffix of `s` (ordinal comparison). */
  predicate EndsWith(s: string, t: string) {
    |t| <= |s| && s[|s| - |t|..] == t
  }

  /** `t` occurs in `s` as a contiguous substring (C# ordinal `Contains`,
      Python `t in s`). */
  predicate Contains(s: string, t: string)
    decreases |s|
  {
    StartsWith(s, t) || (|s| > 0 && Contains(s[1..], t))
  }

  /** An occurrence of `t` at position `k` of `s` makes `Contains` hold. */
  lemma {:induction false} ContainsAt(s: string, t: string, k: nat)
    requires k + |t| <= |s| && s[k..k + |t|] == t
    ensures Contains(s, t)
    decreases k
  {
    if k > 0 {
      assert s[1..][k - 1..k - 1 + |t|] == s[k..k + |t|];
      ContainsAt(s[1..], t, k - 1);
    } else {
      assert StartsWith(s, t);
    }
  }

  /** `Contains` holds exactly when there is a position where `t` occurs. */
  lemma {:induction false} ContainsWitness(s: string, t: string) returns (k: nat)
    requires Contains(s, t)
    ensures k + |t| <= |s| && s[k..k + |t|] == t
    decreases |s|
  {
    if StartsWith(s, t) {
      k := 0;
    } else {
      var k' := ContainsWitness(s[1..], t);
      assert s[1..][k'..k' + |t|] == s[k' + 1..k' + 1 + |t|];
      k := k' + 1;
    }
  }

  /** The pieces of `s` between the characters satisfying `sep`, empty
      pieces kept: C# `Split(char)` and Python `str.split(sep)`. */
  function Split(s: string, sep: char -> bool): (parts: seq<string>)
    ensures |parts| >= 1
    ensures forall j | 0 <= j < |parts| :: Free(parts[j], sep)
    decreases |s|
  {
    if |s| == 0 then [""]
    else
      var rest := Split(s[1..], sep);
      if sep(s[0]) then [""] + rest
      else
        assert Free([s[0]] + rest[0], sep) by {
          assert forall i | 1 <= i < |rest[0]| + 1 :: ([s[0]] + rest[0])[i] == rest[0][i - 1];
        }
        [[s[0]] + rest[0]] + rest[1..]
  }

  /** Concatenates `parts` with `sep` between neighbours (C# `string.Join`,
      Python `sep.join`). */
  function Join(sep: string, parts: seq<string>): string
    decreases |parts|
  {
    if |parts| == 0 then ""
    else if |parts| == 1 then parts[0]
    else parts[0] + sep + Join(sep, parts[1..])
  }

  /** Keeps the non-empty pieces in order (`StringSplitOptions.RemoveEmptyEntries`). */
  function RemoveEmpty(parts: seq<string>): (r: seq<string>)
    ensures |r| <= |parts|
    ensures forall j | 0 <= j < |r| :: r[j] != "" && r[j] in parts
    ensures (forall j | 0 <= j < |parts| :: parts[j] != "") ==> r == parts
    ensures (forall j | 0 <= j < |parts| :: parts[j] == "") ==> r == []
    decreases |parts|
  {
    if |parts| == 0 then []
    else if parts[0] == "" then RemoveEmpty(parts[1..])
    else [parts[0]] + RemoveEmpty(parts[1..])
  }

  /** Splitting at a single separator character and joining the pieces with
      that character gives the original string back. */
  lemma {:induction false} JoinSplit(s: string, c: char, sep: char -> bool)
    requires forall x :: sep(x) <==> x == c
    ensures Join([c], Split(s, sep)) == s
    decreases |s|
  {
    if |s| > 0 {
      var rest := Split(s[1..], sep);
      JoinSplit(s[1..], c, sep);
      if sep(s[0]) {
        JoinEmptyHead(c, rest);
        assert s == [c] + s[1..];
      } else {
        JoinExtendHead(c, s[0], rest);
        assert s == [s[0]] + s[1..];
      }
    }
  }

  /** An empty first piece contributes only its separator. */
  lemma JoinEmptyHead(c: char, rest: seq<string>)
    requires |rest| >= 1
    ensures Join([c], [""] + rest) == [c] + Join([c], rest)
  {
    assert ([""] + rest)[1..] == rest;
  }

  /** A character put in front of the first piece lands in front of the
      whole join. */
  lemma JoinExtendHead(c: char, x: char, rest: seq<string>)
    requires |rest| >= 1
    ensures Join([c], [[x] + rest[0]] + rest[1..]) == [x] + Join([c], rest)
  {
    if |rest| >= 2 {
      assert ([[x] + rest[0]] + rest[1..])[1..] == rest[1..];
    }
  }

  /** Every piece of the split is empty exactly when every character is a
      separator. */
  lemma {:induction false} SplitAllEmpty(s: string, sep: char -> bool)
    ensures RemoveEmpty(Split(s, sep)) == [] <==> AllWhite(s, sep)
    decreases |s|
  {
    if |s| > 0 {
      SplitAllEmpty(s[1..], sep);
      var rest := Split(s[1..], sep);
      if sep(s[0]) {
        assert Split(s, sep) == [""] + rest;
        assert ([""] + rest)[1..] == rest;
        assert AllWhite(s, sep) <==> AllWhite(s[1..], sep) by {
          assert forall i | 1 <= i < |s| :: s[i] == s[1..][i - 1];
        }
      }
    }
  }

  /** Splitting `a + t` where `a` holds no separator glues `a` onto the
      first piece of `t`. */
  lemma {:induction false} SplitFreePrefix(a: string, t: string, sep: char -> bool)
    requires Free(a, sep)
    ensures Split(a + t, sep) == [a + Split(t, sep)[0]] + Split(t, sep)[1..]
    decreases |a|
  {
    if |a| == 0 {
      var p := Split(t, sep);
      assert a + t == t;
      assert a + p[0] == p[0];
      assert [p[0]] + p[1..] == p;
    } else {
      assert (a + t)[1..] == a[1..] + t;
      SplitFreePrefix(a[1..], t, sep);
      assert [a[0]] + (a[1..] + Split(t, sep)[0]) == a + Split(t, sep)[0];
    }
  }

  /** A separator-free string splits into itself alone. */
  lemma SplitFree(w: string, sep: char -> bool)
    requires Free(w, sep)
    ensures Split(w, sep) == [w]
  {
    SplitFreePrefix(w, "", sep);
    assert w + "" == w;
  }

  /** A separator-free word followed by a separator splits off as the first
      piece. */
  lemma SplitWordThen(w: string, c: char, t: string, sep: char -> bool)
    requires Free(w, sep) && sep(c)
    ensures Split(w + [c] + t, sep) == [w] + Split(t, sep)
  {
    assert w + [c] + t == w + ([c] + t);
    SplitFreePrefix(w, [c] + t, sep);
    assert ([c] + t)[1..] == t;
    assert w + "" == w;
  }

  /** Splitting at `sep` undoes joining separator-free pieces with a
      separator character. */
  lemma {:induction false} SplitJoin(parts: seq<string>, c: char, sep: char -> bool)
    requires |parts| >= 1 && sep(c)
    requires forall j | 0 <= j < |parts| :: Free(parts[j], sep)
    ensures Split(Join([c], parts), sep) == parts
    decreases |parts|
  {
    if |parts| == 1 {
      SplitFreePrefix(parts[0], "", sep);
      assert parts[0] + "" == parts[0];
    } else {
      var tail := Join([c], parts[1..]);
      SplitJoin(parts[1..], c, sep);
      assert Join([c], parts) == parts[0] + ([c] + tail);
      SplitFreePrefix(parts[0], [c] + tail, sep);
      assert ([c] + tail)[1..] == tail;
      assert Split([c] + tail, sep) == [""] + parts[1..];
      assert parts[0] + "" == parts[0];
    }
  }

  /** Splitting space-joined words at white space and dropping the empty
      pieces recovers the words. */
  lemma SplitJoinWords(words: seq<string>, white: char -> bool)
    requires white(' ')
    requires forall j | 0 <= j < |words| :: words[j] != "" && Free(words[j], white)
    ensures RemoveEmpty(Split(Join(" ", words), white)) == words
  {
    if |words| > 0 {
      SplitJoin(words, ' ', white);
    }
  }

  /** The words of `s`: the non-empty pieces between white characters. */
  function Words(s: string, white: char -> bool): seq<string> {
    RemoveEmpty(Split(s, white))
  }

  /** A separator character cuts the split in two. */
  lemma {:induction false} SplitAround(a: string, c: char, b: string, sep: char -> bool)
    requires sep(c)
    ensures Split(a + [c] + b, sep) == Split(a, sep) + Split(b, sep)
    decreases |a|
  {
    if |a| == 0 {
      assert a + [c] + b == [c] + b;
      assert ([c] + b)[1..] == b;
    } else {
      var t := a[1..] + [c] + b;
      assert (a + [c] + b)[1..] == t;
      assert (a + [c] + b)[0] == a[0];
      SplitAround(a[1..], c, b, sep);
    }
  }

  /** Dropping the empty pieces distributes over concatenation. */
  lemma {:induction false} RemoveEmptyAppend(p: seq<string>, q: seq<string>)
    ensures RemoveEmpty(p + q) == RemoveEmpty(p) + RemoveEmpty(q)
    decreases |p|
  {
    if |p| == 0 {
      assert p + q == q;
    } else {
      assert (p + q)[1..] == p[1..] + q;
      assert (p + q)[0] == p[0];
      RemoveEmptyAppend(p[1..], q);
    }
  }

  /** The words on either side of a white character are the words of the
      whole, in order. */
  lemma WordsAround(a: string, c: char, b: string, white: char -> bool)
    requires white(c)
    ensures Words(a + [c] + b, white) == Words(a, white) + Words(b, white)
  {
    SplitAround(a, c, b, white);
    RemoveEmptyAppend(Split(a, white), Split(b, white));
  }

  /** A white first character adds no word. */
  lemma WordsWhiteHead(s: string, white: char -> bool)
    requires |s| > 0 && white(s[0])
    ensures Words(s, white) == Words(s[1..], white)
  {
    assert Split(s, white) == [""] + Split(s[1..], white);
    assert ([""] + Split(s[1..], white))[1..] == Split(s[1..], white);
  }

  /** White space in front of a text adds no word. */
  lemma WordsWhitePrefix(pad: string, s: string, white: char -> bool)
    requires AllWhite(pad, white)
    ensures Words(pad + s, white) == Words(s, white)
  {
    if |pad| > 0 {
      var init := pad[..|pad| - 1];
      SplitAllEmpty(init, white);
      assert pad + s == init + [pad[|pad| - 1]] + s;
      WordsAround(init, pad[|pad| - 1], s, white);
    } else {
      assert pad + s == s;
    }
  }

  /** White space after a text adds no word. */
  lemma WordsWhiteSuffix(s: string, pad: string, white: char -> bool)
    requires AllWhite(pad, white)
    ensures Words(s + pad, white) == Words(s, white)
  {
    if |pad| > 0 {
      var rest := pad[1..];
      SplitAllEmpty(rest, white);
      assert s + pad == s + [pad[0]] + rest;
      WordsAround(s, pad[0], rest, white);
    } else {
      assert s + pad == s;
    }
  }

  /** Trimming keeps the words. */
  lemma WordsTrim(s: string, white: char -> bool)
    ensures Words(Trim(s, white), white) == Words(s, white)
  {
    WordsTrimStart(s, white);
    WordsTrimEnd(TrimStart(s, white), white);
  }

  /** Dropping the leading white space keeps the words. */
  lemma WordsTrimStart(s: string, white: char -> bool)
    ensures Words(TrimStart(s, white), white) == Words(s, white)
  {
    var a := TrimStart(s, white);
    var k := |s| - |a|;
    var pre := s[..k];
    assert s == pre + a;
    assert AllWhite(pre, white) by {
      assert forall i | 0 <= i < k :: pre[i] == s[i];
    }
    WordsWhitePrefix(pre, a, white);
  }

  /** Dropping the trailing white space keeps the words. */
  lemma WordsTrimEnd(a: string, white: char -> bool)
    ensures Words(TrimEnd(a, white), white) == Words(a, white)
  {
    var r := TrimEnd(a, white);
    var post := a[|r|..];
    assert a == r + post;
    assert AllWhite(post, white) by {
      assert forall i | 0 <= i < |post| :: post[i] == a[|r| + i];
    }
    WordsWhiteSuffix(r, post, white);
  }

  /** Two texts with the same non-white first character and the same
      words after it have the same words, when what follows starts alike
      in both (with a non-white character, or not). */
  lemma WordsCons(x: string, y: string, white: char -> bool)
    requires |x| > 0 && |y| > 0 && x[0] == y[0] && !white(x[0])
    requires Words(x[1..], white) == Words(y[1..], white)
    requires StartsWord(x[1..], white) <==> StartsWord(y[1..], white)
    ensures Words(x, white) == Words(y, white)
  {
    WordsConsShape(x, white);
    WordsConsShape(y, white);
  }

  /** `s` begins with a non-white character. */
  predicate StartsWord(s: string, white: char -> bool) {
    |s| > 0 && !white(s[0])
  }

  /** How the words of `s` follow from those of `s[1..]` when `s` starts
      with a non-white character `c`: `c` joins the first word when the
      rest starts with a non-white character, and is a word of its own
      otherwise. */
  lemma WordsConsShape(s: string, white: char -> bool)
    requires |s| > 0 && !white(s[0])
    ensures StartsWord(s[1..], white) ==>
              var w := Words(s[1..], white);
              |w| > 0 && Words(s, white) == [[s[0]] + w[0]] + w[1..]
    ensures !StartsWord(s[1..], white) ==> Words(s, white) == [[s[0]]] + Words(s[1..], white)
  {
    var x := s[1..];
    var p := Split(x, white);
    assert Split(s, white) == [[s[0]] + p[0]] + p[1..];
    assert ([[s[0]] + p[0]] + p[1..])[1..] == p[1..];
    assert p == [p[0]] + p[1..];
    if StartsWord(x, white) {
      assert p[0] != "";
    } else {
      assert p[0] == "";
      assert [s[0]] + p[0] == [s[0]];
    }
  }

  /** Joining non-empty separator-free pieces with one space produces
      canonical text whose first and last characters come from the pieces. */
  lemma {:induction false} JoinWordsCanonical(words: seq<string>, white: char -> bool)
    requires white(' ')
    requires forall j | 0 <= j < |words| :: words[j] != "" && Free(words[j], white)
    ensures Canonical(Join(" ", words), white)
    ensures |words| > 0 ==> |Join(" ", words)| > 0
    decreases |words|
  {
    if |words| == 1 {
      assert Free(words[0], white);
    } else if |words| > 1 {
      var a := words[0];
      var b := Join(" ", words[1..]);
      JoinWordsCanonical(words[1..], white);
      assert Free(a, white);
      ConcatCanonical(a, b, white);
    }
  }

  /** Two non-empty canonical strings joined by one space stay canonical. */
  lemma ConcatCanonical(a: string, b: string, white: char -> bool)
    requires white(' ') && |a| > 0 && |b| > 0
    requires Canonical(a, white) && Canonical(b, white)
    ensures Canonical(a + " " + b, white)
  {
    var s := a + " " + b;
    assert forall i | 0 <= i < |a| :: s[i] == a[i];
    assert s[|a|] == ' ';
    assert forall i | |a| < i < |s| :: s[i] == b[i - |a| - 1];
  }

  /** ASCII upper-case mapping of one character. */
  function UpperChar(c: char): char {
    if 'a' <= c <= 'z' then (c as int - 32) as char else c
  }

  /** ASCII lower-case mapping of one character. */
  function LowerChar(c: char): char {
    if 'A' <= c <= 'Z' then (c as int + 32) as char else c
  }

  /** Upper-cases every ASCII letter (C# `ToUpperInvariant`, Python `upper`). */
  function Upper(s: string): (r: string)
    ensures |r| == |s|
    ensures forall i | 0 <= i < |s| :: r[i] == UpperChar(s[i])
  {
    seq(|s|, i requires 0 <= i < |s| => UpperChar(s[i]))
  }

  /** Lower-cases every ASCII letter (Python `lower`). */
  function Lower(s: string): (r: string)
    ensures |r| == |s|
    ensures forall i | 0 <= i < |s| :: r[i] == LowerChar(s[i])
  {
    seq(|s|, i requires 0 <= i < |s| => LowerChar(s[i]))
  }

  /** C# `EndsWith(t, StringComparison.OrdinalIgnoreCase)`, letters compared
      after upper-casing. */
  predicate EndsWithIgnoreCase(s: string, t: string) {
    EndsWith(Upper(s), Upper(t))
  }
}

=== FILE: transcript.dfy ===
/** The C# session logger (`TranscriptLogger`): every logged subtitle gets an
    entry id and a dialogue-window id, one JSON record and a block of
    transcript lines. The clock reading and the file writers are outside
    the model: `Log` takes the time and returns what it would write. */
module TranscriptLogger {
  import opened Wrappers
  import opened Text
  import opened TranscriptLines
  import Geometry
  import TextSimilarity

  /** Default similarity at or above which two texts share a window. */
  const DefaultSameWindowSimilarity: real := 0.72
  /** Default silence (ms) after which a new window opens (1.6 s). */
  const DefaultWindowMergeGapMs: int := 1600

  /** The constructor's arguments, fixed for the session. */
  datatype Config = Config(
    sourceLang: string, targetLang: string, engineName: string,
    windowTitle: string, windowHandle: int, roi: Geometry.Rect,
    sourceOnly: bool, sameWindowSimilarity: real, windowMergeGapMs: int)

  /** The constructor with the optional arguments: `sourceOnly` defaults to
      true, the similarity to 0.72 and an absent gap to 1.6 s. */
  function NewConfig(sourceLang: string, targetLang: string, engineName: string,
                     windowTitle: string, windowHandle: int, roi: Geometry.Rect,
                     sourceOnly: Option<bool>, sameWindowSimilarity: Option<real>,
                     windowMergeGapMs: Option<int>): (c: Config)
    ensures c.sourceOnly == sourceOnly.GetOr(true)
    ensures c.sameWindowSimilarity == sameWindowSimilarity.GetOr(DefaultSameWindowSimilarity)
    ensures c.windowMergeGapMs == windowMergeGapMs.GetOr(DefaultWindowMergeGapMs)
    ensures c.sourceLang == sourceLang && c.targetLang == targetLang && c.engineName == engineName
    ensures c.windowTitle == windowTitle && c.windowHandle == windowHandle && c.roi == roi
  {
    Config(sourceLang, targetLang, engineName, windowTitle, windowHandle, roi,
           sourceOnly.GetOr(true), sameWindowSimilarity.GetOr(DefaultSameWindowSimilarity),
           windowMergeGapMs.GetOr(DefaultWindowMergeGapMs))
  }

  /** The mutable counters; `lastEventAt == None` is the `MinValue` sentinel. */
  datatype Logger = Logger(entryId: nat, windowId: nat, lastText: string, lastEventAt: Option<int>)

  /** The logger right after construction. */
  const Fresh: Logger := Logger(0, 0, "", None)

  /** One JSON line of `transcript.jsonl`. */
  datatype Record = Record(
    entryId: nat, windowId: nat, at: int,
    sourceLang: string, targetLang: string,
    sourceText: string, translatedText: string,
    engine: string, windowHandle: int, windowTitle: string, roi: Geometry.Rect)

  /** What one call appends: the next state, the records and the text lines. */
  datatype LogStep = LogStep(next: Logger, records: seq<Record>, lines: seq<TxtLine>)

  /** What the counters promise between calls: window ids never run ahead
      of entry ids, and the last text is blank exactly before the first entry. */
  predicate Valid(st: Logger) {
    && st.windowId <= st.entryId
    && (st.entryId == 0 <==> AllWhite(st.lastText, CsWhite))
    && (st.entryId == 0 <==> st.lastEventAt.None?)
    && (st.entryId > 0 ==> st.windowId > 0)
  }

  /** The window rule, in its order: no previous text, then a gap longer
      than the merge gap, then containment either way, then similarity. */
  function IsNewDialogueWindow(cfg: Config, st: Logger, current: string, now: int): (r: bool)
    ensures AllWhite(st.lastText, CsWhite) ==> r
    ensures st.lastEventAt.None? ==> r
    ensures (!AllWhite(st.lastText, CsWhite) && st.lastEventAt.Some?
             && now - st.lastEventAt.value > cfg.windowMergeGapMs) ==> r
    ensures (!AllWhite(st.lastText, CsWhite) && st.lastEventAt.Some?
             && now - st.lastEventAt.value <= cfg.windowMergeGapMs)
            ==> (r <==> !Contains(current, st.lastText) && !Contains(st.lastText, current)
                        && TextSimilarity.Similarity(st.lastText, current) < cfg.sameWindowSimilarity)
  {
    if AllWhite(st.lastText, CsWhite) then true
    else if st.lastEventAt.None? || now - st.lastEventAt.value > cfg.windowMergeGapMs then true
    else if Contains(current, st.lastText) || Contains(st.lastText, current) then false
    else TextSimilarity.Similarity(st.lastText, current) < cfg.sameWindowSimilarity
  }

  /** What an entry of this logger writes to the transcript. */
  function EntryBlock(cfg: Config, entryId: nat, windowId: nat, sourceText: string, translated: string,
                      now: int): Block {
    Block(entryId, windowId, now, cfg.sourceLang, sourceText, cfg.targetLang, translated, cfg.sourceOnly)
  }

  /** `Log(sourceText, translatedText)` at time `now`; a missing translation
      (`null`) is `None` and logged as the empty string. */
  function Log(cfg: Config, st: Logger, sourceText: string, translatedText: Option<string>, now: int): (r: LogStep)
    ensures AllWhite(sourceText, CsWhite) ==> r == LogStep(st, [], [])
    ensures !AllWhite(sourceText, CsWhite) ==>
      var opens := IsNewDialogueWindow(cfg, st, sourceText, now);
      var translated := translatedText.GetOr("");
      && r.next == Logger(st.entryId + 1, st.windowId + (if opens then 1 else 0), sourceText, Some(now))
      && r.records == [Record(r.next.entryId, r.next.windowId, now, cfg.sourceLang, cfg.targetLang,
                              sourceText, translated, cfg.engineName, cfg.windowHandle,
                              cfg.windowTitle, cfg.roi)]
      && Laid(r.lines, EntryBlock(cfg, r.next.entryId, r.next.windowId, sourceText, translated, now), opens)
      && CountMarkers(r.lines) == (if opens then 1 else 0)
      && CountHeaders(r.lines) == 1
      && (cfg.sourceOnly <==> TranslationLine(cfg.targetLang, translated) !in r.lines)
      && SourceLine(cfg.sourceLang, sourceText) in r.lines
    ensures Valid(st) ==> Valid(r.next)
  {
    if AllWhite(sourceText, CsWhite) then LogStep(st, [], [])
    else
      var translated := translatedText.GetOr("");
      var opens := IsNewDialogueWindow(cfg, st, sourceText, now);
      var windowId := st.windowId + (if opens then 1 else 0);
      var entryId := st.entryId + 1;
      var rec := Record(entryId, windowId, now, cfg.sourceLang, cfg.targetLang,
                        sourceText, translated, cfg.engineName, cfg.windowHandle,
                        cfg.windowTitle, cfg.roi);
      var block := EntryBlock(cfg, entryId, windowId, sourceText, translated, now);
      var lines := EntryLines(block, opens);
      EntryCounts(block, opens);
      LaidMembers(lines, block, opens);
      LogStep(Logger(entryId, windowId, sourceText, Some(now)), [rec], lines)
  }

  /** One `Log` call: source text, translation and clock reading. */
  datatype Call = Call(sourceText: string, translatedText: Option<string>, at: int)

  /** A sequence of calls, each seeing the state the previous one left. */
  function Replay(cfg: Config, st: Logger, calls: seq<Call>): LogStep
    decreases |calls|
  {
    if |calls| == 0 then LogStep(st, [], [])
    else
      var step := Log(cfg, st, calls[0].sourceText, calls[0].translatedText, calls[0].at);
      var rest := Replay(cfg, step.next, calls[1..]);
      LogStep(rest.next, step.records + rest.records, step.lines + rest.lines)
  }

  /** Over any run the transcript agrees with the counters: one window
      marker per window opened, one header and one record per entry, and
      the counters keep their invariant. */
  lemma {:induction false} ReplayCounts(cfg: Config, st: Logger, calls: seq<Call>)
    requires Valid(st)
    ensures var r := Replay(cfg, st, calls);
            && Valid(r.next)
            && r.next.entryId >= st.entryId && r.next.windowId >= st.windowId
            && CountMarkers(r.lines) == r.next.windowId - st.windowId
            && CountHeaders(r.lines) == r.next.entryId - st.entryId
            && |r.records| == r.next.entryId - st.entryId
    decreases |calls|
  {
    if |calls| > 0 {
      var step := Log(cfg, st, calls[0].sourceText, calls[0].translatedText, calls[0].at);
      ReplayCounts(cfg, step.next, calls[1..]);
      var rest := Replay(cfg, step.next, calls[1..]);
      CountAppend(step.lines, rest.lines);
    }
  }

  /** The records carry the entry ids `after + 1`, `after + 2`, ... in order. */
  predicate EntryIdsFrom(recs: seq<Record>, after: int) {
    forall k | 0 <= k < |recs| :: recs[k].entryId == after + k + 1
  }

  /** Over any run the records carry consecutive entry ids, starting after
      the counter the run began with. */
  lemma {:induction false} ReplayEntryIds(cfg: Config, st: Logger, calls: seq<Call>)
    ensures EntryIdsFrom(Replay(cfg, st, calls).records, st.entryId)
    decreases |calls|
  {
    if |calls| > 0 {
      var step := Log(cfg, st, calls[0].sourceText, calls[0].translatedText, calls[0].at);
      ReplayEntryIds(cfg, step.next, calls[1..]);
      var rest := Replay(cfg, step.next, calls[1..]);
      assert Replay(cfg, st, calls).records == step.records + rest.records;
      if AllWhite(calls[0].sourceText, CsWhite) {
        assert step.records == [] && step.next == st;
        assert step.records + rest.records == rest.records;
      } else {
        var first := step.records[0];
        assert step.records == [first];
        assert first.entryId == st.entryId + 1 == step.next.entryId;
        PrependEntryIds(first, rest.records, st.entryId);
      }
    }
  }

  /** A record with the next entry id placed in front keeps the ids
      consecutive. */
  lemma PrependEntryIds(first: Record, rest: seq<Record>, after: int)
    requires first.entryId == after + 1 && EntryIdsFrom(rest, after + 1)
    ensures EntryIdsFrom([first] + rest, after)
  {
    var recs := [first] + rest;
    assert forall k | 1 <= k < |recs| :: recs[k] == rest[k - 1];
  }

  /** Every record's window id lies in `[lo, hi]`, is at least 1 and is
      no larger than its entry id. */
  predicate WindowIdsWithin(recs: seq<Record>, lo: int, hi: int) {
    forall k | 0 <= k < |recs| :: lo <= recs[k].windowId <= hi && 1 <= recs[k].windowId <= recs[k].entryId
  }

  /** The records' window ids never decrease. */
  predicate WindowIdsSorted(recs: seq<Record>) {
    forall i, j | 0 <= i < j < |recs| :: recs[i].windowId <= recs[j].windowId
  }

  /** Over any run the records' window ids never decrease, lie between the
      starting and the final window counter, and never run ahead of their
      entry ids. */
  lemma {:induction false} ReplayWindowIds(cfg: Config, st: Logger, calls: seq<Call>)
    requires Valid(st)
    ensures var r := Replay(cfg, st, calls);
            WindowIdsWithin(r.records, st.windowId, r.next.windowId) && WindowIdsSorted(r.records)
    decreases |calls|
  {
    if |calls| > 0 {
      var step := Log(cfg, st, calls[0].sourceText, calls[0].translatedText, calls[0].at);
      ReplayWindowIds(cfg, step.next, calls[1..]);
      var rest := Replay(cfg, step.next, calls[1..]);
      ReplayCounts(cfg, step.next, calls[1..]);
      assert Replay(cfg, st, calls).records == step.records + rest.records;
      assert Replay(cfg, st, calls).next == rest.next;
      if AllWhite(calls[0].sourceText, CsWhite) {
        assert step.records == [] && step.next == st;
        assert step.records + rest.records == rest.records;
      } else {
        var first := step.records[0];
        assert step.records == [first];
        assert first.windowId == step.next.windowId && first.entryId == step.next.entryId;
        assert 1 <= first.windowId <= first.entryId;
        PrependWindowIds(first, rest.records, st.windowId, rest.next.windowId);
      }
    }
  }

  /** A record placed in front of records whose window ids start at its
      own keeps both properties. */
  lemma PrependWindowIds(first: Record, rest: seq<Record>, lo: int, hi: int)
    requires WindowIdsWithin(rest, first.windowId, hi) && WindowIdsSorted(rest)
    requires lo <= first.windowId <= hi && 1 <= first.windowId <= first.entryId
    ensures WindowIdsWithin([first] + rest, lo, hi) && WindowIdsSorted([first] + rest)
  {
    var recs := [first] + rest;
    assert forall k | 1 <= k < |recs| :: recs[k] == rest[k - 1];
  }

  /** Identical text after a silence longer than the merge gap still opens
      a new window. */
  lemma GapOpensWindowForSameText(cfg: Config, st: Logger, text: string, now: int)
    requires Valid(st) && st.entryId > 0 && st.lastText == text
    requires now - st.lastEventAt.value > cfg.windowMergeGapMs
    ensures IsNewDialogueWindow(cfg, st, text, now)
  {
  }

  /** Text that extends the previous one, within the gap, stays in the same
      window however dissimilar the two are. */
  lemma ContinuationStaysInWindow(cfg: Config, st: Logger, more: string, now: int)
    requires Valid(st) && st.entryId > 0
    requires now - st.lastEventAt.value <= cfg.windowMergeGapMs
    ensures !IsNewDialogueWindow(cfg, st, st.lastText + more, now)
  {
    ContainsAt(st.lastText + more, st.lastText, 0);
  }

  /** A fragment of the previous text, within the gap, stays in the same
      window. */
  lemma FragmentStaysInWindow(cfg: Config, st: Logger, before: string, frag: string, after: string, now: int)
    requires Valid(st) && st.entryId > 0 && st.lastText == before + frag + after
    requires now - st.lastEventAt.value <= cfg.windowMergeGapMs
    ensures !IsNewDialogueWindow(cfg, st, frag, now)
  {
    assert (before + frag + after)[|before|..] == frag + after;
    ContainsAt(before + frag + after, frag, |before|);
  }

  /** The first non-blank entry of a session is entry 1 of window 1 and
      starts with the window header. */
  lemma FirstEntry(cfg: Config, text: string, translated: Option<string>, now: int)
    requires !AllWhite(text, CsWhite)
    ensures var r := Log(cfg, Fresh, text, translated, now);
            && r.next.entryId == 1 && r.next.windowId == 1
            && r.lines[..3] == [BlankLine, Rule, WindowMarker(1)]
  {
  }
}

=== FILE: transcript_lines.dfy ===
/** The human-readable transcript as a list of abstract lines, shared by the
    C# and the Python loggers (which differ only in how they render a
    window marker), with the counts that tie the text back to the counters. */
module TranscriptLines {
  import Decimal

  /** Width of the separator rules. */
  const RuleWidth: nat := 72

  datatype TxtLine =
    | BlankLine
    | Rule
    | WindowMarker(windowId: nat)
    | EntryHeader(entryId: nat, at: int)
    | SourceLine(lang: string, text: string)
    | TranslationLine(lang: string, text: string)

  /** Number of window markers among `lines`. */
  function CountMarkers(lines: seq<TxtLine>): nat
    decreases |lines|
  {
    if |lines| == 0 then 0
    else (if lines[0].WindowMarker? then 1 else 0) + CountMarkers(lines[1..])
  }

  /** Number of entry headers among `lines`. */
  function CountHeaders(lines: seq<TxtLine>): nat
    decreases |lines|
  {
    if |lines| == 0 then 0
    else (if lines[0].EntryHeader? then 1 else 0) + CountHeaders(lines[1..])
  }

  /** Both counts add up over concatenation. */
  lemma {:induction false} CountAppend(a: seq<TxtLine>, b: seq<TxtLine>)
    ensures CountMarkers(a + b) == CountMarkers(a) + CountMarkers(b)
    ensures CountHeaders(a + b) == CountHeaders(a) + CountHeaders(b)
    decreases |a|
  {
    if |a| > 0 {
      assert (a + b)[1..] == a[1..] + b;
      CountAppend(a[1..], b);
    } else {
      assert a + b == b;
    }
  }

  /** The counts of a one-line sequence. */
  lemma CountSingle(x: TxtLine)
    ensures CountMarkers([x]) == (if x.WindowMarker? then 1 else 0)
    ensures CountHeaders([x]) == (if x.EntryHeader? then 1 else 0)
  {
    assert [x][1..] == [];
  }

  /** What one entry writes to the transcript: its ids, its time, both
      texts with their languages, and whether translations are left out. */
  datatype Block = Block(entryId: nat, windowId: nat, at: int, sourceLang: string, sourceText: string,
                         targetLang: string, translatedText: string, sourceOnly: bool)

  /** The layout of one entry, line by line: when a window opens, a blank
      line, the rule and the marker with the new window id; then the header
      with the entry id and time, the source line, the translation line
      unless translations are left out, and a closing blank line. */
  predicate Laid(lines: seq<TxtLine>, b: Block, opensWindow: bool) {
    var h := if opensWindow then 3 else 0;
    && |lines| == h + (if b.sourceOnly then 3 else 4)
    && (opensWindow ==> lines[0] == BlankLine && lines[1] == Rule && lines[2] == WindowMarker(b.windowId))
    && lines[h] == EntryHeader(b.entryId, b.at)
    && lines[h + 1] == SourceLine(b.sourceLang, b.sourceText)
    && (!b.sourceOnly ==> lines[h + 2] == TranslationLine(b.targetLang, b.translatedText))
    && lines[|lines| - 1] == BlankLine
  }

  /** The lines one entry appends. */
  function EntryLines(b: Block, opensWindow: bool): (lines: seq<TxtLine>)
    ensures Laid(lines, b, opensWindow)
  {
    (if opensWindow then [BlankLine, Rule, WindowMarker(b.windowId)] else [])
    + [EntryHeader(b.entryId, b.at), SourceLine(b.sourceLang, b.sourceText)]
    + (if b.sourceOnly then [] else [TranslationLine(b.targetLang, b.translatedText)])
    + [BlankLine]
  }

  /** An entry's lines hold one header, and one marker exactly when the
      entry opens a window. */
  lemma EntryCounts(b: Block, opensWindow: bool)
    ensures var lines := EntryLines(b, opensWindow);
            && CountMarkers(lines) == (if opensWindow then 1 else 0)
            && CountHeaders(lines) == 1
  {
    var head: seq<TxtLine> := if opensWindow then [BlankLine, Rule, WindowMarker(b.windowId)] else [];
    var body: seq<TxtLine> := [EntryHeader(b.entryId, b.at), SourceLine(b.sourceLang, b.sourceText)];
    var trn: seq<TxtLine> := if b.sourceOnly then [] else [TranslationLine(b.targetLang, b.translatedText)];
    CountAppend(head, body);
    CountAppend(head + body, trn);
    CountAppend(head + body + trn, [BlankLine]);
    CountSingle(EntryHeader(b.entryId, b.at));
    CountSingle(SourceLine(b.sourceLang, b.sourceText));
    CountAppend([EntryHeader(b.entryId, b.at)], [SourceLine(b.sourceLang, b.sourceText)]);
    assert body == [EntryHeader(b.entryId, b.at)] + [SourceLine(b.sourceLang, b.sourceText)];
    CountSingle(BlankLine);
    if !b.sourceOnly {
      CountSingle(TranslationLine(b.targetLang, b.translatedText));
    }
    if opensWindow {
      CountSingle(Rule);
      CountSingle(WindowMarker(b.windowId));
      CountAppend([BlankLine], [Rule]);
      CountAppend([BlankLine] + [Rule], [WindowMarker(b.windowId)]);
      assert head == [BlankLine] + [Rule] + [WindowMarker(b.windowId)];
    }
  }

  /** A laid-out entry holds its source line, and holds its translation
      line exactly when translations are written. */
  lemma LaidMembers(lines: seq<TxtLine>, b: Block, opensWindow: bool)
    requires Laid(lines, b, opensWindow)
    ensures SourceLine(b.sourceLang, b.sourceText) in lines
    ensures b.sourceOnly <==> TranslationLine(b.targetLang, b.translatedText) !in lines
  {
    var h := if opensWindow then 3 else 0;
    assert lines[h + 1] == SourceLine(b.sourceLang, b.sourceText);
    if b.sourceOnly {
      assert forall k | 0 <= k < |lines| :: !lines[k].TranslationLine?;
    } else {
      assert lines[h + 2] == TranslationLine(b.targetLang, b.translatedText);
    }
  }

  /** `n` copies of `c`. */
  function Repeat(c: char, n: nat): (r: string)
    ensures |r| == n && forall i | 0 <= i < n :: r[i] == c
  {
    seq(n, i => c)
  }

  /** Renders one line; `marker` is the window marker's label
      ("DIALOGUE_WINDOW" in C#, "WINDOW" in Python) and `stamp` the clock
      formatting, which the model leaves abstract. */
  function Render(line: TxtLine, marker: string, stamp: int -> string): string {
    match line
    case BlankLine => ""
    case Rule => Repeat('-', RuleWidth)
    case WindowMarker(id) => "[" + marker + " " + Decimal.ZeroPad(id, 4) + "]"
    case EntryHeader(id, at) => "[ENTRY " + Decimal.ZeroPad(id, 5) + "] " + stamp(at)
    case SourceLine(lang, text) => "SRC(" + lang + "): " + text
    case TranslationLine(lang, text) => "TRN(" + lang + "): " + text
  }

  /** A rendered window marker carries at least four digits that read back
      as the window id. */
  lemma MarkerDigits(id: nat, marker: string, stamp: int -> string)
    ensures var s := Render(WindowMarker(id), marker, stamp);
            var digits := s[|marker| + 2..|s| - 1];
            && |digits| >= 4 && Decimal.AllDigits(digits) && Decimal.Value(digits) == id
            && s[|s| - 1] == ']'
  {
    var s := Render(WindowMarker(id), marker, stamp);
    assert s[|marker| + 2..|s| - 1] == Decimal.ZeroPad(id, 4);
  }

  /** A rendered entry header carries at least five digits that read back
      as the entry id. */
  lemma HeaderDigits(id: nat, at: int, stamp: int -> string)
    ensures var s := Render(EntryHeader(id, at), "", stamp);
            var digits := s[7..|s| - 2 - |stamp(at)|];
            && |digits| >= 5 && Decimal.AllDigits(digits) && Decimal.Value(digits) == id
  {
    var s := Render(EntryHeader(id, at), "", stamp);
    assert s[7..|s| - 2 - |stamp(at)|] == Decimal.ZeroPad(id, 5);
  }
}

=== FILE: translation.dfy ===
/** The vocabulary shared by the C# translators: the result record, the
    settings object, the translator kinds and the shape of an HTTP exchange
    as the translators see it. */
module Translation {
  import opened Wrappers
  import opened Text

  /** `TranslateResult(Text, IsError, ErrorMessage)`. */
  datatype TranslateResult = TranslateResult(text: string, isError: bool, errorMessage: string)

  /** `TranslateResult.Success(text)`. */
  function Success(text: string): (r: TranslateResult)
    ensures !r.isError && r.text == text && r.errorMessage == ""
  {
    TranslateResult(text, false, "")
  }

  /** `TranslateResult.Error(message, fallbackText)`; the fallback defaults
      to the empty string (see `ErrorNoFallback`). */
  function Error(message: string, fallbackText: string): (r: TranslateResult)
    ensures r.isError && r.text == fallbackText && r.errorMessage == message
  {
    TranslateResult(fallbackText, true, message)
  }

  /** `TranslateResult.Error(message)` with the default fallback. */
  function ErrorNoFallback(message: string): (r: TranslateResult)
    ensures r.isError && r.text == "" && r.errorMessage == message
  {
    Error(message, "")
  }

  /** Every result is exactly one of the two shapes the factories build:
      a success, or an error carrying its fallback text. */
  lemma ResultShapes(r: TranslateResult)
    requires !r.isError ==> r.errorMessage == ""
    ensures !r.isError <==> r == Success(r.text)
    ensures r.isError <==> r == Error(r.errorMessage, r.text)
  {
  }

  /** The translator kinds; the enum's declaration is not part of this
      model, and its four named members are all it needs. */
  datatype TranslatorType = None | DeepL | Google | Papago

  /** `TranslationSettings` with its initialisers. */
  datatype Settings = Settings(
    kind: TranslatorType, sourceLanguage: string, targetLanguage: string,
    deepLApiKey: string,
    googleApiKey: string, googleAccessToken: string, googleProjectId: string,
    googleClientId: string, googleClientSecret: string, googleRefreshToken: string,
    papagoClientId: string, papagoClientSecret: string)

  /** `new TranslationSettings()`: no translation, Japanese to Korean, and
      every credential empty. */
  function DefaultSettings(): (s: Settings)
    ensures s.kind == TranslatorType.None && s.sourceLanguage == "ja" && s.targetLanguage == "ko"
    ensures s.deepLApiKey == "" && s.googleApiKey == "" && s.googleAccessToken == ""
    ensures s.googleProjectId == "" && s.googleClientId == "" && s.googleClientSecret == ""
    ensures s.googleRefreshToken == "" && s.papagoClientId == "" && s.papagoClientSecret == ""
  {
    Settings(TranslatorType.None, "ja", "ko", "", "", "", "", "", "", "", "", "")
  }

  /** `!string.IsNullOrWhiteSpace(s)`. */
  predicate Present(s: string) {
    !AllWhite(s, CsWhite)
  }

  /** Two settings of the same kind whose credentials are present or
      absent alike. */
  predicate SamePresence(s: Settings, t: Settings) {
    && s.kind == t.kind
    && (Present(s.deepLApiKey) <==> Present(t.deepLApiKey))
    && (Present(s.googleApiKey) <==> Present(t.googleApiKey))
    && (Present(s.googleAccessToken) <==> Present(t.googleAccessToken))
    && (Present(s.googleProjectId) <==> Present(t.googleProjectId))
    && (Present(s.googleClientId) <==> Present(t.googleClientId))
    && (Present(s.googleClientSecret) <==> Present(t.googleClientSecret))
    && (Present(s.googleRefreshToken) <==> Present(t.googleRefreshToken))
    && (Present(s.papagoClientId) <==> Present(t.papagoClientId))
    && (Present(s.papagoClientSecret) <==> Present(t.papagoClientSecret))
  }

  /** Google's three credential shapes, checked alike by the factory and by
      the translator. */
  predicate HasGoogleApiKey(s: Settings) {
    Present(s.googleApiKey)
  }

  predicate HasGoogleManualOAuth(s: Settings) {
    Present(s.googleAccessToken) && Present(s.googleProjectId)
  }

  predicate HasGoogleRefreshOAuth(s: Settings) {
    && Present(s.googleClientId) && Present(s.googleClientSecret)
    && Present(s.googleRefreshToken) && Present(s.googleProjectId)
  }

  /** A translator object as the application holds it. Google's carries its
      token cache; `lastEmitAt`-style sentinels are `None`. */
  datatype Translator =
    | Identity
    | DeepLTranslator(settings: Settings)
    | GoogleTranslator(settings: Settings, cache: TokenCache)
    | PapagoTranslator(settings: Settings)

  /** Google's cached OAuth access token; `expiresAt == None` is the
      `DateTimeOffset.MinValue` it starts with. */
  datatype TokenCache = TokenCache(token: string, expiresAt: Option<int>)

  const EmptyCache: TokenCache := TokenCache("", Option.None)

  /** The `Name` each translator reports. */
  function Name(t: Translator): (n: string)
    ensures t.Identity? <==> n == "None"
    ensures t.DeepLTranslator? <==> n == "DeepL"
    ensures t.GoogleTranslator? <==> n == "Google"
    ensures t.PapagoTranslator? <==> n == "Papago"
  {
    match t
    case Identity => "None"
    case DeepLTranslator(_) => "DeepL"
    case GoogleTranslator(_, _) => "Google"
    case PapagoTranslator(_) => "Papago"
  }

  /** `IdentityTranslator.TranslateAsync`: the text itself, never an error. */
  function IdentityTranslate(text: string): (r: TranslateResult)
    ensures !r.isError && r.text == text
  {
    Success(text)
  }

  /** How one HTTP exchange ends, as the translators observe it: a response
      with its status, reason phrase and parsed body; an exception other
      than a cancellation; the client's 12-second timeout, which .NET
      raises as a `TaskCanceledException`; or cancellation of the token. */
  datatype Reply<P> =
    | Response(status: int, reason: string, body: P)
    | Faulted(message: string)
    | TimedOut(message: string)
    | Canceled(message: string)

  /** `HttpResponseMessage.IsSuccessStatusCode`. */
  predicate IsSuccessStatus(status: int) {
    200 <= status <= 299
  }

  /** What a translation response body yields: a JSON or shape error (the
      exception's message), no translations, or the first translation's
      text (`None` for a JSON null). */
  datatype TranslationBody =
    | Malformed(message: string)
    | NoTranslations
    | FirstText(text: Option<string>)

  /** The end of a `TranslateAsync` call: a result, or an
      `OperationCanceledException` escaping with its message. */
  datatype Outcome = Done(result: TranslateResult) | Cancelled(message: string)
}

=== FILE: wrappers.dfy ===
/** Small failure-carrying datatypes shared by every module of the model. */
module Wrappers {

  /** A value that may be absent (C# null, Python None). */
  datatype Option<+T> = None | Some(value: T) {

    /** The carried value, or `default` when absent. */
    function GetOr(default: T): T {
      match this
      case Some(v) => v
      case None => default
    }
  }

  /** Either a value or an error (a Python exception or a C# false/out-error pair). */
  datatype Result<+R, +E> = Success(value: R) | Failure(error: E)
}
